=== FILE: README.md ===
# Credit-charged image generation bot: a Dafny model of its core

The system is a Telegram bot that sells image and video generation for
credits. A user's balance is held in a database table and every change goes
through an append-only credit ledger. A generation request is charged,
takes a per-user lock in Redis, and is put on a FIFO task queue. A worker
dequeues tasks, calls an image backend (a self-hosted ComfyUI server or the
Replicate API), refunds failed or cancelled work, and always releases the
user's lock. Around this core sit parsers and normalisers: the aspect ratio
in a prompt, the edit prompt's mask class, the configuration from the
environment, the database URL's TLS parameters, the YooKassa payment
amounts and the support-reply command.

This project models that core as immutable state records with pure
transition functions:

- the database is a user map plus a ledger sequence, with the
  `(reason, reference_id)` uniqueness constraint as a failure outcome of an
  insert (`schema.dfy`, `ledger.dfy`, `generations.dfy`, `admin_guard.dfy`,
  `users.dfy`, `payments.dfy`);
- Redis is a set of maps plus the queue list (`task_queue.dfy`,
  `gpu_gate.dfy`, `cancel_handler.dfy`);
- the worker's task life cycle, with the backend result as an input
  (bytes, empty, or an exception) and cancellation arriving at any of its
  checkpoints (`worker.dfy`);
- the admission order charge, lock, enqueue with its compensating refunds
  (`admission.dfy`);
- the backend clients' decision logic, with every poll loop running over a
  scripted sequence of responses and an abstract clock (`comfy.dfy`,
  `replicate.dfy`);
- the parsers (`prompt_parse.dfy`, `mask.dfy`, `config*.dfy`,
  `db_url.dfy`, `support.dfy`), over the Python string operations they use
  (`strings.dfy`, `basics.dfy`).

Every operation is paired with a property that relates it to something
else: an inverse (parse and format), an invariant it keeps (balances equal
to the sum of their ledger rows, a queue counter equal to the number of
queued tasks), or a whole-run statement (credits are conserved by every
admission or task that does not succeed).

Where the code and its own docstrings and comments differ, the model follows the code:

- admission charges before it takes the lock, and a lock failure refunds
  the charge;
- every refund is written under the one reason `refund`, with reference
  `refund_` plus the request id, and only the ledger's uniqueness
  constraint stops a second refund;
- the worker never uses the GPU-slot gate, which is modelled on its own;
- Replicate is polled every 2 seconds against a 600-second budget;
- the worker imports a Flux model constant that the Replicate client does
  not define; the model gives that tariff its own constructor;
- the ComfyUI client reads server settings that the configuration class
  does not declare; they are parameters here.

## Model

| member | source | states |
|---|---|---|
| Schema.EmptyDb | shared/database.py:149-242 | a store with no rows satisfies every table invariant: unique telegram ids, the (reason, reference_id) constraint, balances equal to the sum of their ledger rows |
| AdminGuard.IsAdminUser | shared/admin_guard.py:30-40 | for a telegram id with a user row the answer is that row's admin flag, whatever the configured list says; only an id with no row falls back to membership in `ADMIN_IDS` |
| AdminGuard.CheckAndCharge | shared/admin_guard.py:43-63 | an administrator is answered "charged" with the store untouched; an existing debit under the request id answers true and writes nothing; an unknown or short-of-credits user with no prior debit is refused with the store untouched; any other user, with no prior debit and enough credits, is charged: one `-cost` "pro" row under the request id is appended and the balance falls by `cost`, unless that (reason, reference) pair is already taken, the only case that rolls back |
| AdminGuard.RefundIfNeeded | shared/admin_guard.py:66-78 | an administrator's refund writes nothing; otherwise it gives back exactly `cost` with one new ledger row, and it fails exactly when the user is missing or the request's refund reference is already taken |
| AdminGuard.AdminChargeAndRefundLeaveNoTrace | shared/admin_guard.py:43-78 | an administrator's charge followed by a refund leaves the store exactly as it was |
| Ledger.RecordCreditChange | services/ledger_service.py:19-54 | rolls back exactly when the user is missing or the (reason, reference) pair is already in the ledger; otherwise the balance moves by `amount`, one row carrying the new balance is appended, and every other user, table and row is unchanged |
| Ledger.RecordPreservesValid | services/ledger_service.py:19-54 | every successful write keeps balances equal to the sum of their ledger rows, each row's `balance_after` equal to the running sum, and the (reason, reference) constraint intact |
| Ledger.DeductCreditsIdempotent | services/ledger_service.py:57-94 | an existing debit under the reference answers true and writes nothing; a missing user or short balance answers false and writes nothing; otherwise, for a known user with enough balance, exactly one `-amount` row under (reason, reference) is appended, the balance falls by `amount` and the answer is true, and the transaction rolls back exactly when that (reason, reference) pair is already taken; any write grows the reference's debit total by `amount` |
| Ledger.DeductTwiceDebitsOnce | services/ledger_service.py:72-81 | a second deduction with the same reference changes nothing and answers like the first: credits are taken at most once per reference |
| Ledger.CreditIsNotDebit | services/ledger_service.py:72-78 | a credit row never makes a reference look already debited, nor hides an existing debit |
| Ledger.RepeatedReasonRefRejected | shared/database.py:238-241 | any second row with the same reason and non-null reference rolls back with the unique-constraint error |
| Ledger.DeductKeepsBalanceNonNegative | services/ledger_service.py:83-93 | the balance check before the debit means a successful deduction never drives a non-negative balance below zero |
| Generations.CreateGeneration | services/generation_service.py:23-43 | fails exactly when the user is missing or the request id is already used; otherwise a fresh id gets a pending row with the given fields and every other row and table is unchanged |
| Generations.CompleteGeneration | services/generation_service.py:65-74 | an unknown id changes nothing; a known one gets the status and completion time and keeps its request id, cost and every other row |
| Generations.DeductForGeneration | services/generation_service.py:46-62 | every tariff is booked as one "pro" debit of `cost` under the request id: a fresh request of a known user with enough balance appends that row and lowers the balance by `cost`, rolling back only when ("pro", request id) is taken; an existing debit answers true without writing; a short balance answers false without writing |
| Generations.CompletionKeepsRequestIds | services/generation_service.py:65-74 | completing a generation keeps exactly the same request ids in use and keeps the id numbering |
| Generations.CreateThenComplete | services/generation_service.py:23-74 | a created and then completed generation holds its request, user, tariff, prompt and cost with the final status and completion time, still blocks a second creation under its request id, and leaves balances and ledger alone |
| Generations.RefundGeneration | services/generation_service.py:77-89 | a refund is one "refund" row of `+cost` referenced `refund_<request id>`; it fails exactly when the user is missing or that reference was already used |
| Generations.RefundAtMostOnce | services/generation_service.py:77-89 | after one successful refund every further refund of the request rolls back |
| Generations.ChargeThenRefundRestoresBalance | services/generation_service.py:46-89 | for a fresh request and a sufficient balance, the charge succeeds, the refund succeeds, and the balance ends where it began |
| TaskQueue.AcquireLock | shared/redis_client.py:149-154 | the lock is taken, under the given task id, exactly when the user holds none; a refused acquire writes nothing |
| TaskQueue.ReleaseLock | shared/redis_client.py:157-160 | the user's lock is gone whichever task held it, and every other user's lock is kept |
| TaskQueue.ActiveGeneration | shared/redis_client.py:163-166 | a task id is reported exactly when the user holds the lock |
| TaskQueue.LockIsExclusive | shared/redis_client.py:149-166 | after one acquire the lock names its task and a second acquire fails; after a release a new acquire succeeds |
| TaskQueue.ReleaseIgnoresOwner | shared/redis_client.py:157-160 | the release checks no owner: it frees a lock held by any task |
| TaskQueue.IncrCount | shared/redis_client.py:198-208 | the user's queued counter goes up by one and the new value is returned; other users' counters are unchanged |
| TaskQueue.DecrCount | shared/redis_client.py:211-225 | the counter goes down by one and its key is deleted once it reaches zero or below, so a stored counter is always positive; other users' counters are unchanged |
| TaskQueue.RemoveFirst | shared/redis_client.py:460 | `LREM ... 1` removes the first occurrence when there is one, keeping the rest in order (the multiset loses exactly that id), and changes nothing otherwise |
| TaskQueue.Enqueue | shared/redis_client.py:322-373 | a full list or a user at the per-user cap is refused with the matching error and nothing written; otherwise the task is stored as queued at the tail, the owner's counter (telegram id 0 excepted) goes up by one, and the answer is the number of tasks ahead |
| TaskQueue.EnqueuePreservesInvariant | shared/redis_client.py:322-373 | enqueueing a fresh id keeps the queue invariant: no repeats, listed tasks are queued and queued tasks listed, counters equal to listed tasks per user, both caps respected |
| TaskQueue.Dequeue | shared/redis_client.py:377-403 | the head is always consumed; a head without a record gives nothing; otherwise the task is returned and its owner's counter drops by one (deleted at zero) |
| TaskQueue.DequeueIsFifo | shared/redis_client.py:322-403 | two tasks enqueued into an empty list come out in the order they went in |
| TaskQueue.SetTaskStatus | shared/redis_client.py:419-430 | a stored task gets the new status and nothing else changes; a missing record stays missing |
| TaskQueue.GetTaskStatus | shared/redis_client.py:433-442 | a status is reported exactly when the task record exists |
| TaskQueue.GetTaskPayload | shared/redis_client.py:407-416 | a payload is reported exactly when the task record exists |
| TaskQueue.DequeueAndMark | services/queue_worker.py:67-83 | the worker's step hands out what the dequeue gives and marks a task that was not cancelled as processing |
| TaskQueue.DequeueAndMarkPreservesInvariant | services/queue_worker.py:67-83 | the dequeue-then-mark step keeps the queue invariant |
| TaskQueue.CancelTask | shared/redis_client.py:445-467 | succeeds exactly for a queued task: the status becomes cancelled, one list entry is removed, the owner's counter drops by one and the lock is untouched; otherwise nothing is written |
| TaskQueue.CancelTaskKeepsListing | shared/redis_client.py:445-467 | after a cancel the list still has no repeats, lists only queued tasks and lists every queued task, and stored counters stay positive |
| TaskQueue.RemovalKeepsListing | shared/redis_client.py:456-460 | removing the cancelled entry from the list while marking its task cancelled keeps listed and queued tasks in one-to-one step |
| TaskQueue.CancelTaskKeepsCounters | shared/redis_client.py:445-467 | after a cancel each counter still equals the user's listed tasks and both caps still hold |
| TaskQueue.CancelTaskPreservesInvariant | shared/redis_client.py:445-467 | cancelling any task id keeps the whole queue invariant |
| TaskQueue.CancelProcessingTask | shared/redis_client.py:470-488 | succeeds exactly for a processing task, whose status alone becomes cancelled; otherwise nothing is written |
| TaskQueue.CancelProcessingPreservesInvariant | shared/redis_client.py:470-488 | marking a processing task cancelled keeps the queue invariant |
| TaskQueue.CancelTaskOnce | shared/redis_client.py:445-488 | a task cancelled once cannot be cancelled again by either cancel call |
| TaskQueue.CheckRateLimit | shared/redis_client.py:123-139 | a call is allowed exactly when fewer than `max` calls were counted for that action and user; an allowed call adds one to that counter only, a refused call writes nothing |
| TaskQueue.RateBurstAllowsUpToMax | shared/redis_client.py:123-139 | a burst of `n` calls in one window lets through exactly `min(n, max - already counted)` calls |
| TaskQueue.AddMediaGroupItem | shared/redis_client.py:240-272 | a new file id is appended, a known one is not repeated, the list is cut to the first eight, and a caption replaces the stored one, stripped, only when it is not blank |
| TaskQueue.AddMediaGroupItemIdempotent | shared/redis_client.py:240-272 | adding the same photo twice gives the same album as adding it once |
| TaskQueue.UpdateUserData | shared/redis_client.py:108-113 | the merged data has the old keys and the given ones; given keys take the new values, all others keep theirs |
| TaskQueue.UpdateUserDataIdempotent | shared/redis_client.py:108-113 | merging the same values twice leaves the same data and store as merging once |
| TaskQueue.ClearUserState | shared/redis_client.py:86-89 | both the FSM state and the FSM data of the user are deleted and nothing else changes |
| GpuGate.AcquireGpuSlot | shared/redis_client_gpu.py:46-96 | with the store up a slot is granted exactly when the counter is below `MAX_GPU_JOBS`, and a grant adds one to the counter and a token for the task; a refusal writes nothing; with the store down the task is let through and nothing is recorded |
| GpuGate.ReleaseGpuSlot | shared/redis_client_gpu.py:99-142 | only a task holding a token gives a slot back: its token goes and the counter drops by one but never below zero; any other task changes nothing |
| GpuGate.CleanupStaleGpuJobs | shared/redis_client_gpu.py:145-192 | the counter is reset to the number of live tokens, and the answer is how far off it was, zero exactly when nothing was off |
| GpuGate.QueuePositionPredictsAcquire | shared/redis_client_gpu.py:195-212 | the reported position is 0 exactly when an acquire would be granted now, and while a task waits each holder's release moves it one place forward |
| GpuGate.AcquirePreservesInvariant | shared/redis_client_gpu.py:59-75 | with the store up, the counter stays equal to the live tokens and within capacity after an acquire |
| GpuGate.ReleasePreservesInvariant | shared/redis_client_gpu.py:111-127 | a release keeps the counter equal to the live tokens and within capacity |
| GpuGate.DoubleReleaseDecrementsOnce | shared/redis_client_gpu.py:111-127 | releasing twice is the same as releasing once: the token check stops the second decrement |
| GpuGate.CleanupRepairs | shared/redis_client_gpu.py:145-192 | while the live tokens fit the capacity, a cleanup restores the invariant and a second cleanup finds nothing to fix |
| GpuGate.FailOpenExceedsCapacity | shared/redis_client_gpu.py:93-96 | with the only slot taken, the working store refuses a second task but a failing store lets it through |
| CancelHandler.DoCancel | bot_api/handlers/cancel.py:96-135 | with no lock, or an empty lock value, nothing happens; a queued task is cancelled and refunded at once; a processing task is only marked cancelled, with no ledger change; a task in any other state is just cleaned up; in every case with a lock the lock and the FSM state are cleared, unless the refund raised |
| CancelHandler.CancelQueuedRefundsOnce | bot_api/handlers/cancel.py:108-123 | cancelling a paying user's queued task credits back exactly its cost under the refund reference, and a second cancel finds no task |
| CancelHandler.CancelProcessingLeavesLedger | bot_api/handlers/cancel.py:125-130 | cancelling a processing task writes nothing to the store: the refund is left to the worker |
| Worker.SelectModel | services/queue_worker.py:142-148 | "riverflow_pro" and "flux_2_pro" pick their own models and every other tariff falls back to the default model |
| Worker.HandleRefund | services/queue_worker.py:218-228 | a paying user's first refund for the request appends exactly one `refund` row for `cost` and raises that user's balance by `cost`; an administrator, a missing user or an already written refund leaves the store as it was; no other table changes |
| Worker.HandleRefundWritesRow | services/queue_worker.py:218-228 | for a paying task not yet refunded, the refund appends exactly one "refund" row of `+cost` and the refund is then no longer due |
| Worker.CancelledPath | services/queue_worker.py:133-140 | a cancellation seen by the worker refunds per the payload, sends only the cancelled notice and leaves Redis alone |
| Worker.ErrorPath | services/queue_worker.py:203-212 | the `except` clause marks the task failed, refunds per the payload, and sends only the error notice |
| Worker.AfterBackend | services/queue_worker.py:161-201 | after the backend returns, a cancelled task is refunded and not delivered; non-empty data is delivered with no ledger change and the task marked completed; empty data fails and is refunded; a refund that raises there ends in the `except` clause; nothing but a completed task sends a result |
| Worker.ImageBody | services/queue_worker.py:119-212 | a task cancelled before the call never reaches the backend, and no task but a completed one sends a result |
| Worker.VideoBody | services/queue_worker.py:321-388 | a payload without a start image goes straight to the error path; a task cancelled before the call never reaches the backend; no task but a completed one sends a result |
| Worker.ReleaseAfter | services/queue_worker.py:214-215 | the `finally` clause releases the user's lock as the last recorded action and changes nothing else |
| Worker.ProcessTask | services/queue_worker.py:93-100 | whichever way the task ends, the last action is the lock release and the user holds no lock afterwards; nothing but a completed task sends a result |
| Worker.WorkerStep | services/queue_worker.py:63-90 | an empty list is an idle turn; a handled task is the dequeued one, its lock is released last, a skipped (cancelled) task never reaches the backend, and nothing but a completed task sends a result |
| Worker.CancelWhileProcessing | bot_api/handlers/cancel.py:125-130 | a cancel arriving while the task is processing only flips its status to cancelled; the store is untouched |
| Worker.AfterBackendRefund | services/queue_worker.py:161-201 | after the backend returns, a paying task is refunded with exactly one row unless it is delivered |
| Worker.ImageBodyRefund | services/queue_worker.py:119-212 | an image task of a paying user ends with exactly one refund row unless it is delivered, wherever a cancel lands, including while a raising backend call is in flight |
| Worker.VideoBodyRefund | services/queue_worker.py:321-388 | a video task of a paying user ends with exactly one refund row unless it is delivered, wherever a cancel lands, including while a raising backend call is in flight |
| Worker.ProcessTaskRefundsUnlessCompleted | services/queue_worker.py:93-391 | a paying user's task that is not delivered (failed, raised or cancelled at any point) gets exactly one refund row, and a delivered one leaves the ledger as it was: refunded exactly when not completed |
| Worker.CancelDuringRaisingCall | services/queue_worker.py:203-212 | a cancel landing while the backend call raises frees the lock and marks the task cancelled, after which the `except` clause overwrites the status with failed, refunds once and sends no result |
| Worker.CancelAfterDequeueRefundsOnce | services/queue_worker.py:67-81 | a cancel landing between the dequeue and the worker's status check is refunded by the handler; the worker skips the task, its own refund is rejected by the unique constraint, and the backend is never called |
| Worker.AdminTaskLeavesLedger | services/queue_worker.py:93-391 | an administrator's task never touches the ledger, whatever happens to it |
| Admission.GenerationCost | shared/config.py:35-41 | exactly the five tariffs of the table have a price: Nano Banana 19, Riverflow 45, Flux 9, the 5-second Kling video 70 and the 10-second one 140; any other tariff has none |
| Admission.ChooseTariff | bot_api/handlers/generate.py:559-561 | a stored tariff and a stored cost win; a missing tariff is Nano Banana; a missing cost is the tariff's price, or Nano Banana's price for an unpriced tariff |
| Admission.EditTariff | bot_api/handlers/generate.py:737-747 | substring tests in the order nano, riverflow, flux pick the first tariff named in the button data, Nano Banana otherwise, and the result always has a price |
| Admission.CompensationCredits | shared/admin_guard.py:66-78 | while the refund slot is open, the compensating refund of an admission succeeds and gives back exactly `cost` to a paying user and nothing to an administrator |
| Admission.EnqueueStep | bot_api/handlers/generate.py:587-632 | after the generation row is written, a queue refusal refunds, releases the lock and resets the FSM; an accepted task is stored queued at the tail, behind exactly the tasks already listed, and the FSM is reset; with the refund open no raising path is taken |
| Admission.LockStep | bot_api/handlers/generate.py:576-585 | a held lock leaves Redis alone and refunds the charge; a free lock is taken under the request id and the enqueue step follows |
| Admission.Admit | bot_api/handlers/generate.py:538-632 | no user row means nothing happens; a refused charge writes nothing and resets the FSM; a held lock leaves Redis alone; a queue refusal leaves locks, list and tasks as they were; an accepted request holds the lock under its request id and its task sits queued at the tail |
| Admission.ChargeOfFreshRequest | shared/admin_guard.py:43-63 | the charge of a fresh request never raises, and when it succeeds it takes exactly `cost` from a paying user (nothing from an administrator) and leaves the refund open |
| Admission.AdmissionConservesCredits | bot_api/handlers/generate.py:538-632 | with a fresh request id no raising path is taken, and credits are conserved: every rejected admission ends with the balances it started with, and only an accepted paying request keeps the cost |
| Admission.ChargeStepConserves | bot_api/handlers/generate.py:565-632 | from the charge on, the balances end unchanged unless the request is accepted from a paying user, who then pays exactly `cost` |
| Admission.LockStepSettles | bot_api/handlers/generate.py:576-632 | once the charge is taken, the lock and enqueue steps either keep it (accepted) or hand it back in full |
| Admission.RejectedAdmissionLeavesQueue | bot_api/handlers/generate.py:538-632 | unless the request is accepted, the locks, the list and the task records are as they were |
| Admission.ChargeStep | bot_api/handlers/generate.py:565-585 | a refused charge writes nothing to the store and only clears the conversation state; a successful charge goes on to the lock step, whose reply shape (lock taken under the request id, or left alone with the charge refunded) it passes through |
| PromptParse.RatioAt | bot_api/handlers/generate.py:79 | the alternative matched at one offset is the first of the listed ratios, from the given one on, that stands there as a whole token between `\b` boundaries; none matches only when no listed ratio stands there |
| PromptParse.FindRatio | bot_api/handlers/generate.py:86-87 | `search` returns the leftmost offset holding a whole-token ratio, and no offset before it holds one; no result means no offset holds one |
| PromptParse.RatioTokenUnique | bot_api/handlers/generate.py:79 | at any one offset at most one of the eight ratios stands as a whole token, so the order of the alternatives never changes the match |
| PromptParse.StripKeepsNonSpace | bot_api/handlers/generate.py:83 | `strip()` removes only whitespace: the non-whitespace characters of the text survive in order |
| PromptParse.CollapseSpaces | bot_api/handlers/generate.py:91 | `re.sub(r"\s{2,}", " ", …)` leaves no two whitespace characters side by side, keeps every non-whitespace character in order, empties only the empty text and keeps whether the text starts with whitespace |
| PromptParse.CutAndStrip | bot_api/handlers/generate.py:90 | removing the matched token (count=1) and stripping gives the two sides joined, stripped, with no leading whitespace |
| PromptParse.FirstRatioIsUnique | bot_api/handlers/generate.py:86-87 | the first ratio of a text is determined by the text: its offset and its token are unique |
| PromptParse.ParseStripped | bot_api/handlers/generate.py:86-92 | with no ratio the stripped text is returned unchanged; with one, the first ratio is returned and the prompt is the text with that token cut out, stripped and collapsed |
| PromptParse.ParsePromptAndRatio | bot_api/handlers/generate.py:82-92 | `None` gives an empty prompt and no ratio; with no ratio in the stripped text the prompt is the stripped text; with one, the ratio is the first whole-token match and the prompt is tidied |
| PromptParse.BlankParsesEmpty | bot_api/handlers/generate.py:83-85 | a text of whitespace only parses to an empty prompt and no ratio |
| PromptParse.RatioFoundIffPresent | bot_api/handlers/generate.py:86-87 | the ratio returned is exactly the first whole-token ratio of the stripped text |
| PromptParse.ParseIsTidied | bot_api/handlers/generate.py:89-92 | with the first ratio at a given offset, the prompt is the stripped text around that token, stripped again and collapsed |
| PromptParse.TidiedKeepsNonSpace | bot_api/handlers/generate.py:89-91 | cutting the ratio and tidying loses no visible character: the non-whitespace text before and after the token survives in order |
| Comfy.AfterLast | services/comfy_client.py:74 | `url.split("//")[-1]` is a suffix of the URL that holds no `//` |
| Comfy.AfterLastFollowsSeparator | services/comfy_client.py:74 | the last `//` piece is the whole URL exactly when the URL holds no `//`, and otherwise is preceded directly by `//` |
| Comfy.SeparatorBeforeLastPart | services/comfy_client.py:74 | the same fact stated on the piece's length: with no `//` the piece is as long as the URL, otherwise the two characters before it are both `/` |
| Comfy.BaseUrl | services/comfy_client.py:68-77 | the URL with trailing slashes stripped is kept as is when the part after its last `//` names a port, and gets `:port` appended otherwise; the result never ends in a slash |
| Comfy.AfterLastKeepsSlashFreeSuffix | services/comfy_client.py:74 | text without slashes appended to a URL ends up in its last `//` piece, which is why an appended port is seen on the next call |
| Comfy.BaseUrlIdempotent | services/comfy_client.py:68-77 | building the base URL again from a base URL changes nothing: the port is never appended twice |
| Comfy.SubmitOutcome | services/comfy_client.py:93-153 | a prompt id comes back exactly for a body with no `error` key and a non-empty `prompt_id`; an `error` key is a generation error; a timeout or any other failure is a connection error; a bad status code or a missing id is a plain client error; never a timeout or no-face error |
| Comfy.ClassifyPoll | services/comfy_client.py:225-254 | a failed request or an empty record means poll again; a record with `outputs` completes, checked before any error; an `error` key raises the no-face error exactly when its lower-cased text names a face not found or not detected, else a generation error; `status_str == "error"` is a generation error |
| Comfy.WaitForCompletion | services/comfy_client.py:184-270 | every poll is made within the timeout, and every poll but the last asked to continue; the loop times out exactly when the elapsed time read before a poll exceeds the timeout; it ends with the outcome of the last poll otherwise |
| Comfy.WaitMakesBoundedPolls | services/comfy_client.py:184-270 | when each poll starts at least one poll interval after the previous, at most timeout / interval + 1 polls are made |
| Comfy.ExtractOutputInfo | services/comfy_client.py:312-364 | no outputs, or no named file among them, is a client error; otherwise the file returned is the first candidate with a file name, taking nodes in order and per node the first image, then the first gif, then the first video |
| Comfy.ScanIsFirstNamedCandidate | services/comfy_client.py:327-362 | the node loop returns the first candidate with a file name, taking per node the first image, then the first gif, then the first video |
| Comfy.SdxlDimensions | services/comfy_client.py:413-424 | 16:9, 9:16, 4:3 and 3:4 get their SDXL sizes; any other or no ratio gives 1024×1024; every side is a multiple of 64 |
| Comfy.SdxlDimensionsSymmetric | services/comfy_client.py:413-424 | portrait sizes are the landscape ones turned on their side, and no canvas exceeds 1024×1024 by more than 1% |
| Comfy.ImageWaitBudget | services/comfy_client.py:534 | the image wait budget is the generation timeout capped at 600 seconds |
| Comfy.VideoWaitBudget | services/comfy_client.py:600 | the video wait budget is twice the generation timeout, capped at 600 seconds, and never below the image budget for a non-negative timeout |
| Comfy.CheckImageResult | services/comfy_client.py:548-553 | an image result is kept, unchanged, exactly when it has at least 1024 bytes |
| Comfy.CheckVideoResult | services/comfy_client.py:614-627 | a video result is kept, unchanged, exactly when it has at least 10240 bytes |
| Comfy.ShortVideoOnlyWarns | services/comfy_client.py:620-625 | a video shorter than 50 KiB per second of duration only logs a warning: it is still returned |
| Comfy.RunJob | services/comfy_client.py:492-565 | only the no-face error and the local timeout propagate, and once submitted they always do while every other wait failure returns nothing; a returned result is the downloaded data and meets the size floor; a failed submission returns nothing; a completed job whose output is found and whose download meets the size floor returns that download; a completed job always returns, with nothing when its output is missing, its download fails or the data is under the floor; the outcome is unfinished exactly when the polls run out while the job is still pending |
| Replicate.Or | services/replicate_client.py:79 | `a or b` is one of its operands, and it is truthy exactly when either operand is |
| Replicate.DictGet | services/replicate_client.py:85 | `dict.get` finds a value only under a key the dict holds, and gives `None` for a missing key |
| Replicate.ScanKeys | services/replicate_client.py:83-101 | the dict branch returns what the first of `output`, `image`, `image_url`, `url` that yields a string gives; it returns nothing only when none of them yields one |
| Replicate.KeyHit | services/replicate_client.py:83-101 | the key that decides the dict branch is the first that yields something, and every key before it yields nothing |
| Replicate.PickFirstUrl | services/replicate_client.py:49-107 | `None` stays `None`; an object with a string `url` gives that URL; a string is returned verbatim; of a list only the head counts: a head with a string `url` gives it, a string head is returned, a dict head gives its `url or href`, and an empty list or any other head gives `None`; any other object without a string `url` gives `None`; a dict gives the value of its first key that yields one, or `None` when no key does |
| Replicate.PickIgnoresListTail | services/replicate_client.py:66-79 | of a list output only the first element is looked at |
| Replicate.DictOutputKeyFirst | services/replicate_client.py:83-94 | an `output` key holding a string wins over every later key |
| Replicate.WaitFrom | services/replicate_client.py:110-161 | every status request but the last found a non-terminal status; the wait times out exactly when all 300 requests the 600-second budget admits at one per 2 seconds found one; success returns the output of the last record; `failed` and `canceled` raise with their messages |
| Replicate.WaitIsBounded | services/replicate_client.py:122-161 | at most 300 status requests are made, and a prediction that never ends uses all of them and times out |
| Replicate.FetchUrl | services/replicate_client.py:38-46 | only a string URL can be downloaded; anything else fails and gives nothing |
| Replicate.NanoInputs | services/replicate_client.py:185-205 | a Nano Banana request carries the prompt and the first eight images at most, and the aspect ratio exactly when it is asked for and non-empty |
| Replicate.RiverflowInputs | services/replicate_client.py:288-307 | a Riverflow request carries the instruction, `init_images` exactly when there are images (the first ten at most), and the aspect ratio exactly when it is non-empty |
| Replicate.Deliver | services/replicate_client.py:222-236 | after a successful wait a result is delivered exactly when the output yields a truthy URL whose download is non-empty, and it is that download |
| Replicate.NanoFrom | services/replicate_client.py:207-269 | from any attempt on, the first request carries the aspect ratio; the first attempt that settles (its wait succeeds, or it raises about the aspect ratio and the request without it completes) decides the result, and with none the result is nothing; every earlier attempt, a timeout, another error or a failed fallback, moves on and sends at least one request; at most two requests per remaining attempt, one without an aspect ratio |
| Replicate.FirstSettledAttempt | services/replicate_client.py:207-266 | the first attempt from a given one on that settles, every earlier one not settling |
| Replicate.NanoErrorRetries | services/replicate_client.py:244-266 | a raised error that does not point at the aspect ratio (or comes with no aspect ratio) is followed by the next attempt after this attempt's one request |
| Replicate.FailedFallbackRetries | services/replicate_client.py:249-266 | when the request without the aspect ratio fails too, the next attempt follows after both requests |
| Replicate.RunNanoBanana | services/replicate_client.py:164-269 | the first request carries the aspect ratio; the result is that of the first of the three attempts that settles, or nothing when none does, after at least one request per attempt made; at most six requests are sent, three without an aspect ratio, all to the given model with the given prompt |
| Replicate.NanoSuccessDelivers | services/replicate_client.py:222-235 | a successful wait with a URL whose download is non-empty ends the run with that download after the attempt's one request |
| Replicate.AspectRatioFallback | services/replicate_client.py:244-260 | an error mentioning the aspect ratio, when one was given, is followed by exactly one request without it; when that wait succeeds the run ends with its download, or with nothing when no URL comes back |
| Replicate.NoUrlStopsRetrying | services/replicate_client.py:224-228 | a successful wait whose output yields no URL ends the run with nothing after one request: no further attempt is made |
| Replicate.TimeoutsExhaustRetries | services/replicate_client.py:240-242 | three timed-out attempts give nothing, after exactly three requests and no fallback |
| Replicate.RiverflowFrom | services/replicate_client.py:309-352 | at most one request per remaining attempt, always the same Riverflow request; every failed attempt moves on, and the first attempt whose wait succeeds decides the result through its URL and download; with no such attempt the result is nothing |
| Replicate.EditImage | services/replicate_client.py:353-357 | the Riverflow model name sends only Riverflow requests; any other name sends Nano Banana requests to that model; at most six requests |
| Replicate.GenerateImage | services/replicate_client.py:360-364 | generation from text dispatches the same way and no request carries an image |
| Payments.ParseDecimalPart | services/payment_service.py:42-46 | the digits-and-point part of a `Decimal` literal gives a coefficient and a count of fraction digits shorter than the text |
| Payments.ParseSpecial | services/payment_service.py:42-46 | a text starting with a digit is never read as an infinity or a NaN |
| Payments.ParseFinite | services/payment_service.py:42-46 | a numeric literal read without a special value is always finite |
| Payments.PlainDigitsParse | services/payment_service.py:42-46 | a run of ASCII digits reads as the finite decimal of its value with exponent 0 |
| Payments.ZeroParses | services/payment_service.py:51 | the default amount text "0" reads as zero |
| Payments.CanonicalAmountParses | services/payment_service.py:87 | `f"{n}.00"` reads back as a finite decimal equal to n, so the expected amount is the amount the bot asked for |
| Payments.ExtractAmountCurrency | services/payment_service.py:49-53 | a missing amount object or value reads as "0"; a missing currency reads as ""; a present value is stripped and parsed; a present currency is stripped and upper-cased |
| Payments.RubCurrency | services/payment_service.py:52 | the currency "RUB" survives stripping and upper-casing |
| Payments.CreatePayment | services/payment_service.py:129-186 | a payment is stored only for a configured shop, a listed package and a known user, as one pending row with the package's credits under the id the provider returned; a provider failure stores nothing; reusing a stored id hits the unique constraint |
| Payments.MarkSucceeded | services/payment_service.py:109-110 | marking a payment paid changes only that row's status and paid time |
| Payments.ProcessSucceededPayment | services/payment_service.py:56-122 | an unknown payment answers false and changes nothing; a refusal changes nothing; a change happens only for a payment not yet succeeded whose stripped amount parses to its rouble amount in RUB, and it marks that one row succeeded; an already succeeded payment answers true with no change; an unparsable amount, or an amount or currency that does not match (other than a signalling NaN in RUB, which aborts), answers false with no change |
| Payments.MatchingPaymentIsCredited | services/payment_service.py:82-119 | a pending payment of a known user with the matching amount and no ("payment", id) row is credited exactly its credits under ("payment", id), with one new ledger row |
| Payments.ProcessPreservesValid | services/payment_service.py:56-122 | crediting a payment keeps every invariant of the store: balances equal ledger sums, each (reason, reference) at most once |
| Payments.ProcessTwiceCreditsOnce | services/payment_service.py:76-79 | processing a payment again after it was accepted answers true and changes nothing |
| Payments.PaymentIndexStable | services/payment_service.py:64-70 | marking a payment paid keeps the lookup by provider id |
| Payments.CreatedPaymentCreditsItsPackage | services/payment_service.py:129-186 | a payment the bot created, confirmed with the amount it was created for, is credited exactly its package once |
| Payments.CanonicalAmountIsAccepted | services/payment_service.py:82-93 | the amount object the provider echoes for a bot-created payment, `n.00` in RUB, passes the strict check |
| Payments.AcceptedWhenParsed | services/payment_service.py:82-93 | an amount in RUB whose stripped text parses to the expected value passes the check |
| Payments.ProcessWebhook | services/payment_service.py:189-232 | a webhook is accepted only for the event "payment.succeeded" with status "succeeded", a non-empty id and a provider lookup that says "succeeded"; otherwise it answers false and changes nothing; once accepted, the payment is processed with the provider's amount when it gives both value and currency, else the notification's, and the answer and store are those of the processing, an aborted transaction answering false |
| Payments.WebhookCreditsMatchingPayment | services/payment_service.py:189-232 | an accepted and confirmed notification of a pending payment whose chosen amount matches is answered true and credits the package once |
| Payments.VerifiedAmountReplacesWebhookAmount | services/payment_service.py:218-224 | when the provider reports both value and currency, the notification's own amount has no effect |
| Payments.ConfirmPayment | services/payment_service.py:235-270 | nothing is done when payments are disabled; anyone but the payment's owner, or a payment the provider does not confirm, gets false and no change; the owner of a confirmed payment gets the answer and store of processing it with the provider's amount ("0" and "RUB" standing in for missing parts), and an aborted transaction leaves the function |
| Payments.OwnerConfirmationCredits | services/payment_service.py:235-270 | the owner's confirmation of a pending payment the provider confirms with the matching amount is answered true and credits the package once |
| Payments.CountEligible | services/payment_service.py:297-301 | the rows reconciliation looks at are at most the rows returned |
| Payments.ReconcileFrom | services/payment_service.py:296-320 | the count of processed payments never exceeds the rows that have an id and are older than the cutoff; with none such, nothing changes |
| Payments.Reconcile | services/payment_service.py:273-322 | nothing happens when payments are disabled; the count returned never exceeds the eligible rows |
| ConfigEnv.EnvFirst | shared/config.py:163-169 | the first alias whose stripped value is non-blank gives that value; when every alias is blank the default is returned |
| ConfigEnv.EnvFirstSkipsBlank | shared/config.py:165-168 | a blank alias is skipped: the lookup falls through to the next name |
| ConfigEnv.FlaggedAmong | shared/config.py:172-195 | the reported variables are exactly the flagged ones among those checked, and they keep the check order: the report is a subsequence of the candidates |
| ConfigEnv.ReportOrderIsKept | shared/config.py:172-195 | a report listing the Redis URL before the bot token is not in check order, while the reverse is |
| ConfigEnv.CheckEnv | shared/config.py:172-205 | validation reports the bot token, the database URL, the Redis URL and the Replicate token when blank, the webhook secret when a webhook URL is set and the secret is blank or "changeme", and the YooKassa webhook secret when both YooKassa credentials are set and it is blank; nothing else; in that order |
| ConfigUrls.AsyncDatabaseUrl | shared/config.py:113-122 | the result always starts with `postgresql+asyncpg://`: `postgres://` and `postgresql://` are replaced, an asyncpg URL is kept, anything else is prefixed |
| ConfigUrls.SchemesExclusive | shared/config.py:116-121 | a URL starts with at most one of the three schemes, so the order of the tests does not matter |
| ConfigUrls.AsyncDatabaseUrlIdempotent | shared/config.py:113-122 | converting an already converted URL changes nothing |
| ConfigUrls.FullWebhookUrl | shared/config.py:130-136 | the webhook address is the base with its trailing slashes removed, then `/webhook/telegram/` and the secret |
| ConfigUrls.FullWebhookUrlIgnoresTrailingSlash | shared/config.py:134-136 | a trailing slash on the base never doubles the slash before the path |
| ConfigValues.ParseInt | shared/config.py:240-253 | `int()` accepts exactly the stripped text of ASCII digits with an optional `+` or `-` sign, gives the digits' value negated under a minus, and rejects everything else |
| ConfigValues.ParseIntOfIntToString | shared/config.py:240-253 | `int(str(i)) == i` for every integer |
| ConfigValues.RedisSslFlag | shared/config.py:231-232 | the flag is on exactly when the stripped, lower-cased value is "true", "1" or "yes" |
| ConfigValues.RedisSslFlagIgnoresLeadingBlank | shared/config.py:231 | surrounding blanks do not change the flag |
| ConfigValues.AdminParts | shared/config.py:226-229 | the ids kept are the parts that are ASCII digits once stripped, in order, each its value; when every part is such, one id per part |
| ConfigValues.AdminIds | shared/config.py:223-229 | a blank `ADMIN_IDS` gives no ids; otherwise the comma-separated numeric parts, each non-negative |
| ConfigValues.AdminIdsRoundTrip | shared/config.py:223-229 | ids written out comma-separated load back as the same ids |
| ConfigValues.AdminPartsAsWritten | shared/config.py:226-229 | the loop as written raises exactly when some stripped part passes `isdigit()` but is not ASCII digits; otherwise it keeps what the corrected parser keeps |
| ConfigValues.AdminIdsAsWritten | shared/config.py:223-229 | a blank value gives no ids; otherwise the loop as written raises, naming `ADMIN_IDS`, exactly when some stripped part passes `isdigit()` but is not ASCII digits, and when it does not raise it gives the corrected parser's ids |
| ConfigValues.SuperscriptAdminIdRaises | shared/config.py:228-229 | `ADMIN_IDS="²"` makes the loop as written raise, while the corrected parser skips the part |
| ConfigValues.ParseIntSettings | shared/config.py:240-253 | the integer settings convert exactly when each setting's text (variable or default) parses; the values are in order; a failure names the first setting that does not parse |
| Config.WebhookSecret | shared/config.py:219 | the secret used is never blank: it is the placeholder exactly when the stripped variable is blank or is the placeholder |
| Config.IntValues | shared/config.py:240-253 | the seven integer settings convert to seven values |
| Config.LoadConfig | shared/config.py:213-254 | loading as written succeeds exactly when validation is off or reports nothing, the `ADMIN_IDS` loop does not raise and every integer parses; a validation failure lists what validation reports; any other failure is the `ADMIN_IDS` error or, when that loop passes, the first bad integer setting; the admin ids loaded are the loop's |
| Config.LoadConfigCorrected | shared/config.py:213-254 | with the corrected `ADMIN_IDS` parser, loading fails only on validation or on an integer setting, and the admin ids are the corrected parser's |
| Config.CorrectionOnlyStopsAdminIdsRaise | shared/config.py:223-229 | where loading as written succeeds the corrected loader gives the same settings, and the two differ only where the `ADMIN_IDS` loop raises |
| Config.SuperscriptAdminIdStopsLoading | shared/config.py:223-229 | with `ADMIN_IDS="²"` alone, loading as written fails while the corrected loader starts with no administrators |
| Config.RedisTlsFromEnvironment | shared/config.py:125-127 | in loaded settings Redis uses TLS exactly when `REDIS_SSL` reads as true, one or yes after strip and lower-casing, or the first non-blank Redis URL alias starts with `rediss://`; with every alias blank only the flag can turn it on |
| Config.TlsFromTexts | shared/config.py:231-232 | the TLS decision from the raw `REDIS_SSL` text and a URL, and the local default URL never implies TLS |
| Config.WebhookSecretRequiredWithUrl | shared/config.py:189-190 | with a webhook URL set, the secret is reported exactly when its variable is blank or the placeholder, and then validated loading fails |
| Config.IntDefaults | shared/config.py:240-253 | unset integer settings take 3, 2, 3, 500, 300, 200 and 8080 |
| Config.EmptyEnvironmentDefaults | shared/config.py:213-254 | an empty environment loads unvalidated with no database URL, Redis at `redis://localhost:6379` without TLS, no admins, the placeholder secret, port 8080 and a global queue cap of 500 |
| DbUrl.ToDict | shared/database.py:58 | the dict built from the parsed query has no repeated name, each name maps to the last value the query gave it, and the names stand in the order of their first occurrence |
| DbUrl.PutKeyOrder | shared/database.py:58 | assigning to a present key keeps the key order; a new key goes last |
| DbUrl.Put | shared/database.py:58 | storing a key keeps keys unique, makes the key map to the new value and leaves every other key's value as it was |
| DbUrl.Pop | shared/database.py:62 | popping a key returns the value the dict held for it (none when absent), removes it, and leaves every other key's value unchanged |
| DbUrl.SslModeDecision | shared/database.py:62-68 | an absent or empty `sslmode` decides nothing; otherwise, after strip and lower-casing, `disable`/`allow`/`prefer` mean plain TCP, `require` means TLS, any other value decides nothing |
| DbUrl.SslParamDecision | shared/database.py:71-77 | `ssl=` is consulted only when present and nothing is decided yet; then `0`/`false`/`no`/`off`/`disable` mean plain TCP, `1`/`true`/`yes`/`on`/`require` mean TLS, anything else decides nothing |
| DbUrl.HostDefault | shared/database.py:79-81 | when nothing is decided, a host containing `railway.internal` gets plain TCP and any other host gets no argument; an earlier decision is kept |
| DbUrl.BuildEngineUrl | shared/database.py:37-92 | the cleaned URL keeps scheme, netloc, path and fragment, holds neither `sslmode` nor `ssl`, keeps every other parameter with its last value, and the `ssl` argument is the host default applied after the `ssl=` decision applied after the `sslmode` decision |
| DbUrl.SslModeWins | shared/database.py:62-81 | a recognised `sslmode` fixes the `ssl` argument whatever `ssl=` and the host say |
| DbUrl.SslParamDecidesOtherwise | shared/database.py:71-77 | without a recognised `sslmode`, a recognised `ssl=` value decides the argument |
| DbUrl.RailwayDefaultOnlyWhenUnset | shared/database.py:79-81 | on a Railway internal host the argument is plain TCP exactly when neither parameter decided |
| DbUrl.VerifyFullDecidesNothing | shared/database.py:64-68 | `sslmode=verify-full` is not recognised and decides nothing |
| DbUrl.CleaningIsIdempotent | shared/database.py:56-92 | cleaning an already cleaned URL returns the same URL, and its argument is then the host default alone |
| DbUrl.PopAbsent | shared/database.py:62 | popping a key the dict lacks returns nothing and the same dict |
| DbUrl.LastValueOfDict | shared/database.py:58 | in a query without repeated names the last value of a name is the one the dict finds |
| DbUrl.DictOfDict | shared/database.py:58 | building a dict from a dict's own items gives back the same dict |
| DbUrl.PutNewKey | shared/database.py:58 | storing a key the dict lacks appends it at the end |
| MaskClassifier.Classify | services/mask_generator.py:188-220 | the class is glasses exactly when an eye-accessory keyword occurs in the lower-cased prompt, hat exactly when none does and a head-accessory keyword occurs, background exactly when neither group occurs and a scene keyword does, and full otherwise |
| MaskClassifier.MaskFor | services/mask_generator.py:243-258 | without a face the whole image is masked and the type is full; with a face the type is never full, glasses and hat get the eye and head masks, and background and full both get the everything-but-the-face mask, the latter reported as background-preserve-face |
| MaskClassifier.FullOnlyWithoutFace | services/mask_generator.py:245-258 | the reported type is full exactly when no face was detected |
| MaskClassifier.AnyInLonger | services/mask_generator.py:200 | a keyword found in a text is still found after text is added before or after it |
| MaskClassifier.GlassesDominate | services/mask_generator.py:200-201 | a prompt classed as glasses stays glasses whatever is prepended or appended |
| MaskClassifier.ThatMeansHat | services/mask_generator.py:208-209 | since matching is by substring, a prompt containing "that" is classed as glasses or hat, never background or full |
| MaskClassifier.ClassifyIgnoresCase | services/mask_generator.py:193 | an upper-cased prompt is classed like the original |
| Users.Refresh | services/user_service.py:33-47 | a returning user's non-empty new username or first name replaces the stored one, an absent or empty one leaves it, the admin flag becomes membership in the admin ids, and no other field changes |
| Users.InsertUser | services/user_service.py:57-67 | the new row is stored under an id not used before, indexed by its telegram id, and the ledger and other rows are untouched |
| Users.ApplyReferralBonus | services/user_service.py:87-123 | the referral step keeps the store consistent and the telegram index unchanged; it fails only on a repeated ledger reason and reference or a missing newcomer row |
| Users.GetOrCreateUser | services/user_service.py:21-84 | registration fails only for a new user whose ledger write repeats a reason and reference; on success the store stays consistent, the user is created exactly when the telegram id was unknown, and the returned id is the one the index gives the telegram id |
| Users.ReturningUserUnchangedLedger | services/user_service.py:33-52 | a known user is not created again, the ledger, the set of rows and the balance are unchanged, and the admin flag follows the admin ids |
| Users.NewUserBalance | services/user_service.py:54-84 | a new user gets a fresh row with this telegram id, the balance is the welcome bonus plus the referral bonus exactly when the referrer is non-zero and someone else, and the admin flag follows the admin ids |
| Users.ReferrerCredited | services/user_service.py:78-80 | on a first contact every existing user keeps their balance except the named inviter, who gains the referral bonus exactly when the referral rule applies and the inviter is registered |
| Users.ReferralBonusMoves | services/user_service.py:93-114 | the referral step credits the newcomer and, when registered, the inviter, by the referral bonus each, and no one else |
| Users.RecordMovesOne | services/ledger_service.py:31-39 | a successful ledger write moves the named user's balance by the amount and no other balance |
| Users.InsertKeepsValid | services/user_service.py:57-67 | inserting a zero-balance row for an unknown telegram id keeps every balance equal to the sum of its ledger rows |
| Users.RegistrationPreservesValid | services/user_service.py:21-84 | registration, with its welcome and referral ledger writes, keeps every balance equal to the sum of its ledger rows |
| Users.SecondContactCreatesNothing | services/user_service.py:29-52 | registering the same telegram id twice creates once: the second call returns the same row id, not created, and writes no ledger row |
| Users.SetAdmin | services/user_service.py:159-165 | the result is true exactly when a row has this telegram id; those rows take the new admin flag, every other row and the ledger are untouched |
| Users.SetBanned | services/user_service.py:168-174 | the result is true exactly when a row has this telegram id; those rows take the new ban flag, every other row and the ledger are untouched |
| Users.SetAdminIdempotent | services/user_service.py:159-165 | setting the admin flag a second time changes nothing and reports the same |
| Support.MatchReply | bot_api/handlers/support.py:187 | a match of the command pattern yields the prefix, a non-empty alphanumeric ticket, a whitespace gap and a non-empty body ending the text, the body starting after the whole gap unless the gap runs to the end |
| Support.MatchReplyComplete | bot_api/handlers/support.py:187 | every text of the command's shape is matched, with exactly that ticket and body: together with the contract of the matcher, the pattern is matched if and only if the text has that shape |
| Support.CommandRoundTrip | bot_api/handlers/support.py:187 | `/reply_` followed by an alphanumeric ticket, one space and a body not starting with whitespace parses back to that ticket and body |
| Support.SendReplyByTicket | bot_api/handlers/support.py:258-297 | the answer is true exactly when the ticket exists; then only that ticket changes, taking the reply and its time, and the author is notified exactly when the author's row exists; an unknown ticket changes nothing |
| Support.ReplyCommand | bot_api/handlers/support.py:171-211 | a non-administrator changes nothing; a reply is written exactly when the sender is an administrator, the text matches and the stripped body is non-blank, and then it goes to the upper-cased ticket with the stripped body; the conversation state is never touched |
| Support.ReplyButton | bot_api/handlers/support.py:144-164 | a press without data is ignored; a non-administrator's press leaves the state; an administrator's press parks the data with its first `support_reply_` removed, under that prefix; the store is never touched |
| Support.ReplyText | bot_api/handlers/support.py:218-251 | without a parked reply state the message is ignored; a blank text keeps the state and writes nothing; otherwise the state is cleared and the stripped text is written to the parked ticket |
| Support.ButtonThenTextReachesTicket | bot_api/handlers/support.py:158-160 | an administrator's button for a ticket followed by a non-blank text writes that text, stripped, to exactly that ticket and clears the state |
| Support.CommandReachesTicket | bot_api/handlers/support.py:195-202 | a command naming a lower-case ticket answers the upper-case ticket, and the stored reply is the body |

## Left out

- I/O is not modelled: the Telegram messages, keyboards and texts, the HTTP, Replicate SDK and YooKassa SDK calls, the Redis connection and the database session. Their results are inputs to the model.
- Concurrency is not modelled: asyncio tasks, interleavings between non-atomic Redis calls, TTL expiry and sleeps. Each operation is one sequential transition.
- Clocks and identifiers are parameters: timestamps, request ids, ticket ids and referral codes are given, not generated.
- Task ids are uuid4 hex strings (services/generation_service.py:20) and so never empty. The cancel lemmas about a held lock assume a non-empty id, since `DoCancel` treats an empty lock value as no task, as the handler's `if not task_id` does.
- The URL split and percent-encoding (`urlsplit`, `parse_qsl`, `urlencode`) are not modelled; the URL arrives as its parts and its query as a list of name/value pairs.
- Mask geometry, PIL, numpy and InsightFace are not modelled; face detection is a boolean input and only the choice of mask is kept.
- Workflow template loading and JSON building for ComfyUI, the ComfyUI `edit_image` path and base64 data URIs are not modelled.
- Backoff delays, logging and error reporting are not modelled.
- Python's `int()` is modelled for ASCII digits, and `str.isdigit` for ASCII digits plus the superscript, subscript and circled digits; other Unicode digits and underscores in numbers are not.
- Lower- and upper-casing cover the ASCII and Cyrillic (U+0400 to U+045F) letters; other alphabets are left unchanged.
- The word-character test behind Python's `\b` covers ASCII, the Latin-1 supplement and the Cyrillic blocks; letters of other scripts are not word characters here.
- Payments.ParseDecimalPart: only bounds the fraction-digit count; the value it reads is stated by the payment-amount lemmas about canonical and plain-digit amounts, not here.
- Payments.ParseSpecial: states only that a text starting with a digit is never a special value; the exact spelling of infinities and NaNs is not restated.
- Payments.ParseFinite: states only that its result is finite; the value is stated by the payment-amount lemmas.
- Payments.Reconcile: the pending rows (status pending, oldest first, at most `limit` of them) are a parameter, and every row carries its creation time, which the database always fills in, so the source's skip of the age test for a row without one is not modelled; the contract bounds the count by the eligible rows rather than naming which rows succeed.
- Payments.ReconcileFrom: bounds the count by the eligible rows; which rows succeed is left to the contract of the payment processing it calls.
- The re-check of the per-user count in `enqueue_task` after its increment (shared/redis_client.py:362-366) can never fire once the earlier check has passed, and is not modelled.
- The Telegram UI handlers, the webhook endpoints, the RunPod service, face restoration, the cleanup and reconcile loops' scheduling, and the video, photo-animation and photo-edit handlers are outside this model.

## Findings

| source | as written | input that shows it | evidently intended | confidence | as-written member | corrected member |
|---|---|---|---|---|---|---|
| shared/config.py:223-229 | each comma-separated part of `ADMIN_IDS` that passes `str.isdigit` is converted with `int()` | `ADMIN_IDS="²"`: `isdigit` accepts the superscript digit, `int()` rejects it, and loading the configuration raises at import | only parts `int()` can convert are kept, so the ids written out round-trip | not executed | ConfigValues.AdminIdsAsWritten | ConfigValues.AdminIds |

=== FILE: admin_guard.dfy ===
/** Who is an administrator, and the rule that administrators are never charged. */
module AdminGuard {
  import opened Basics
  import opened Schema
  import opened Ledger
  import opened Generations

  /** The configuration-level check against `ADMIN_IDS`. */
  predicate IsAdminId(adminIds: seq<int>, telegramId: int) {
    telegramId in adminIds
  }

  /**
   The database flag decides for a known user; only a telegram id with no
   user row falls back to the configured list.
   */
  function IsAdminUser(db: Db, adminIds: seq<int>, telegramId: int): (r: bool)
    requires IndexConsistent(db)
    ensures (exists id :: id in db.users && db.users[id].telegramId == telegramId)
      ==> (r <==> exists id :: id in db.users && db.users[id].telegramId == telegramId && db.users[id].isAdmin)
    ensures (forall id :: id in db.users ==> db.users[id].telegramId != telegramId)
      ==> (r <==> telegramId in adminIds)
  {
    match UserByTelegram(db, telegramId)
    case Some(id) => db.users[id].isAdmin
    case None => IsAdminId(adminIds, telegramId)
  }

  /** Charge a generation unless the caller is an administrator. */
  function CheckAndCharge(db: Db, userId: int, isAdmin: bool, cost: int, tariff: string, requestId: string)
    : (r: Result<(bool, Db), LedgerError>)
    ensures isAdmin ==> r == Ok((true, db))
    ensures !isAdmin && !HasDebit(db.ledger, requestId) && (userId !in db.users || db.users[userId].balance < cost)
      ==> r == Ok((false, db))
    ensures !isAdmin && r.Ok? && r.value.1 != db ==>
      && r.value.0
      && userId in db.users && userId in r.value.1.users
      && r.value.1.users[userId].balance == db.users[userId].balance - cost
    ensures !isAdmin && HasDebit(db.ledger, requestId) ==> r == Ok((true, db))
    ensures !isAdmin && !HasDebit(db.ledger, requestId) && userId in db.users && db.users[userId].balance >= cost ==>
      (r.Err? <==> ReasonRefTaken(db.ledger, ReasonPro, Some(requestId)))
    ensures !isAdmin && !HasDebit(db.ledger, requestId) && userId in db.users && db.users[userId].balance >= cost
            && !ReasonRefTaken(db.ledger, ReasonPro, Some(requestId)) ==>
      && r.Ok? && r.value.0
      && userId in r.value.1.users
      && r.value.1.users[userId].balance == db.users[userId].balance - cost
      && r.value.1.ledger == db.ledger + [LedgerEntry(userId, -cost, ReasonPro, Some(requestId), db.users[userId].balance - cost)]
  {
    if isAdmin then Ok((true, db))
    else DeductForGeneration(db, userId, cost, tariff, requestId)
  }

  /** Refund a cancelled or failed generation unless the caller is an administrator. */
  function RefundIfNeeded(db: Db, userId: int, isAdmin: bool, cost: int, requestId: string, tariff: string)
    : (r: Result<Db, LedgerError>)
    ensures isAdmin ==> r == Ok(db)
    ensures !isAdmin && r.Ok? ==>
      && userId in db.users && userId in r.value.users
      && r.value.users[userId].balance == db.users[userId].balance + cost
      && |r.value.ledger| == |db.ledger| + 1
    ensures !isAdmin ==>
      (r.Err? <==> userId !in db.users || ReasonRefTaken(db.ledger, ReasonRefund, Some(RefundRef(requestId))))
  {
    if isAdmin then Ok(db)
    else RefundGeneration(db, userId, cost, requestId, tariff)
  }

  /** An administrator's charge followed by any refund leaves the store exactly as it was. */
  lemma AdminChargeAndRefundLeaveNoTrace(db: Db, userId: int, cost: int, tariff: string, requestId: string)
    ensures var c := CheckAndCharge(db, userId, true, cost, tariff, requestId);
      c == Ok((true, db)) && RefundIfNeeded(c.value.1, userId, true, cost, requestId, tariff) == Ok(db)
  {
  }
}

=== FILE: admission.dfy ===
/**
 Admission of an image generation request: charge first, then take the
 per-user lock, then write the generation row and enqueue the task. Each
 later failure compensates the earlier steps (refund, lock release, FSM
 reset). Also the tariff choice of the edit-model buttons.
 */
module Admission {
  import opened Basics
  import opened Strings
  import opened Schema
  import opened Ledger
  import opened Generations
  import opened AdminGuard
  import opened TaskQueue

  const TariffNano := "nano_banana_pro"
  const TariffRiverflow := "riverflow_pro"
  const TariffFlux := "flux_2_pro"

  /** The `GENERATION_COST` table. */
  function GenerationCost(tariff: string): (cost: Option<int>)
    ensures cost.Some? ==> cost.value > 0
    ensures cost.Some? <==> tariff in {TariffNano, TariffRiverflow, TariffFlux, "kling_video_5s", "kling_video_10s"}
    ensures tariff == TariffNano ==> cost == Some(19)
    ensures tariff == TariffRiverflow ==> cost == Some(45)
    ensures tariff == TariffFlux ==> cost == Some(9)
    ensures tariff == "kling_video_5s" ==> cost == Some(70)
    ensures tariff == "kling_video_10s" ==> cost == Some(140)
  {
    if tariff == TariffNano then Some(19)
    else if tariff == TariffRiverflow then Some(45)
    else if tariff == TariffFlux then Some(9)
    else if tariff == "kling_video_5s" then Some(70)
    else if tariff == "kling_video_10s" then Some(140)
    else None
  }

  /**
   Tariff and cost of a request from the FSM data: a stored value wins; a
   missing tariff is Nano Banana, a missing cost is the table price of the
   tariff, and a tariff without a price costs what Nano Banana costs.
   */
  function ChooseTariff(storedTariff: Option<string>, storedCost: Option<int>): (tc: (string, int))
    ensures storedTariff.Some? ==> tc.0 == storedTariff.value
    ensures storedTariff.None? ==> tc.0 == TariffNano
    ensures storedCost.Some? ==> tc.1 == storedCost.value
    ensures storedCost.None? && GenerationCost(tc.0).Some? ==> tc.1 == GenerationCost(tc.0).value
    ensures storedCost.None? && GenerationCost(tc.0).None? ==> tc.1 == 19
    ensures storedCost.None? ==> tc.1 > 0
  {
    var tariff := storedTariff.GetOr(TariffNano);
    (tariff, storedCost.GetOr(GenerationCost(tariff).GetOr(19)))
  }

  /** The edit-model button: substring tests in the order nano, riverflow, flux; Nano Banana otherwise. */
  function EditTariff(callbackData: string): (tariff: string)
    ensures Contains(callbackData, "nano_banana_pro") ==> tariff == TariffNano
    ensures tariff == TariffRiverflow <==>
      !Contains(callbackData, "nano_banana_pro") && Contains(callbackData, "riverflow_pro")
    ensures tariff == TariffFlux <==>
      !Contains(callbackData, "nano_banana_pro") && !Contains(callbackData, "riverflow_pro")
      && Contains(callbackData, "flux_2_pro")
    ensures tariff == TariffNano || tariff == TariffRiverflow || tariff == TariffFlux
    ensures GenerationCost(tariff).Some?
  {
    if Contains(callbackData, "nano_banana_pro") then TariffNano
    else if Contains(callbackData, "riverflow_pro") then TariffRiverflow
    else if Contains(callbackData, "flux_2_pro") then TariffFlux
    else TariffNano
  }

  datatype AdmissionOutcome =
    | NoUser                     // no user row: the user is sent to /start
    | InsufficientFunds          // the charge answered false
    | AlreadyActive              // the lock was held; the charge is refunded
    | QueueRejected(error: QueueError)  // the queue refused; refund, unlock, reset
    | Accepted(ahead: nat)       // enqueued behind `ahead` tasks
    | ChargeRaised               // the debit hit the unique constraint; the exception leaves the handler
    | RefundRaised               // a compensating refund raised
    | GenerationRaised           // inserting the generation row raised

  datatype AdmissionReply = AdmissionReply(outcome: AdmissionOutcome, db: Db, redis: Redis)

  /** The users table after `amount` credits land on `uid`. */
  function Credit(users: map<int, UserRow>, uid: int, amount: int): map<int, UserRow>
    requires uid in users
  {
    users[uid := users[uid].(balance := users[uid].balance + amount)]
  }

  /** A request id that has not touched the store yet: no charge, no refund, no generation row. */
  predicate FreshRequest(db: Db, requestId: string) {
    && !HasDebit(db.ledger, requestId)
    && !ReasonRefTaken(db.ledger, ReasonPro, Some(requestId))
    && !ReasonRefTaken(db.ledger, ReasonRefund, Some(RefundRef(requestId)))
    && !RequestIdUsed(db, requestId)
  }

  /** What is left for the compensating refund: the user row, a free refund slot and an unused request id. */
  predicate RefundOpen(db: Db, uid: int, requestId: string) {
    && uid in db.users
    && !ReasonRefTaken(db.ledger, ReasonRefund, Some(RefundRef(requestId)))
    && !RequestIdUsed(db, requestId)
  }

  /** A compensating refund of an open request credits exactly the cost, and nothing for an administrator. */
  lemma CompensationCredits(db: Db, uid: int, isAdmin: bool, cost: int, requestId: string, tariff: string)
    requires RefundOpen(db, uid, requestId)
    ensures var c := RefundIfNeeded(db, uid, isAdmin, cost, requestId, tariff);
      c.Ok? && c.value.users == (if isAdmin then db.users else Credit(db.users, uid, cost))
  {
  }

  /** Insert the generation row and enqueue; the caller holds the lock in `r1`. */
  function EnqueueStep(db1: Db, r1: Redis, limits: QueueLimits, telegramId: int, chatId: int, prompt: string,
                       aspectRatio: Option<string>, images: seq<Bytes>, requestId: string,
                       uid: int, isAdmin: bool, tariff: string, cost: int): (reply: AdmissionReply)
    requires GenerationsNumbered(db1)
    ensures reply.outcome.GenerationRaised? || reply.outcome.RefundRaised? || reply.outcome.QueueRejected? || reply.outcome.Accepted?
    ensures reply.outcome.QueueRejected? ==> reply.redis == ClearUserState(ReleaseLock(r1, telegramId), telegramId)
    ensures reply.outcome.Accepted? ==>
      && reply.outcome.ahead == |r1.queue|
      && reply.redis.locks == r1.locks
      && reply.redis.queue == r1.queue + [requestId]
      && requestId in reply.redis.tasks && reply.redis.tasks[requestId].status == Queued
      && reply.redis.tasks[requestId].payload.requestId == requestId
      && reply.redis.tasks[requestId].payload.telegramId == telegramId
      && telegramId !in reply.redis.fsmState && telegramId !in reply.redis.fsmData
    ensures RefundOpen(db1, uid, requestId) ==>
      && (reply.outcome.QueueRejected? || reply.outcome.Accepted?)
      && reply.db.users == (if reply.outcome.QueueRejected? && !isAdmin then Credit(db1.users, uid, cost) else db1.users)
  {
    match CreateGeneration(db1, uid, Some(prompt), tariff, cost, requestId)
    case Err(_) => AdmissionReply(GenerationRaised, db1, r1)
    case Ok((gid, db2)) =>
      var payload := TaskPayload(ImageTask, telegramId, chatId, uid, isAdmin, cost, requestId, tariff, gid,
                                 prompt, images, aspectRatio, 0);
      var (q, r2) := Enqueue(r1, limits, requestId, payload);
      match q
      case Err(e) =>
        (match RefundIfNeeded(db2, uid, isAdmin, cost, requestId, tariff)
         case Err(_) => AdmissionReply(RefundRaised, db2, r2)
         case Ok(db3) => AdmissionReply(QueueRejected(e), db3, ClearUserState(ReleaseLock(r2, telegramId), telegramId)))
      case Ok(ahead) => AdmissionReply(Accepted(ahead), db2, ClearUserState(r2, telegramId))
  }

  /** How the store looks after an admission that got past the charge, by outcome. */
  predicate LockedReplyShape(r: Redis, telegramId: int, requestId: string, reply: AdmissionReply) {
    && reply.outcome != NoUser && reply.outcome != InsufficientFunds
    && (reply.outcome == AlreadyActive ==> reply.redis == r && telegramId in r.locks)
    && (reply.outcome.QueueRejected? ==>
      && telegramId !in r.locks
      && reply.redis.locks == r.locks && reply.redis.queue == r.queue && reply.redis.tasks == r.tasks
      && telegramId !in reply.redis.fsmState && telegramId !in reply.redis.fsmData)
    && (reply.outcome.Accepted? ==>
      && telegramId !in r.locks
      && reply.outcome.ahead == |r.queue|
      && reply.redis.locks == r.locks[telegramId := requestId]
      && reply.redis.queue == r.queue + [requestId]
      && requestId in reply.redis.tasks && reply.redis.tasks[requestId].status == Queued
      && reply.redis.tasks[requestId].payload.requestId == requestId
      && reply.redis.tasks[requestId].payload.telegramId == telegramId
      && telegramId !in reply.redis.fsmState && telegramId !in reply.redis.fsmData)
  }

  /** Take the per-user lock under the request id; a held lock refunds the charge. */
  function LockStep(db1: Db, r: Redis, limits: QueueLimits, telegramId: int, chatId: int, prompt: string,
                    aspectRatio: Option<string>, images: seq<Bytes>, requestId: string,
                    uid: int, isAdmin: bool, tariff: string, cost: int): (reply: AdmissionReply)
    requires GenerationsNumbered(db1)
    ensures telegramId in r.locks ==> reply.redis == r && (reply.outcome.AlreadyActive? || reply.outcome.RefundRaised?)
    ensures telegramId !in r.locks ==>
      reply == EnqueueStep(db1, r.(locks := r.locks[telegramId := requestId]), limits, telegramId, chatId, prompt,
                           aspectRatio, images, requestId, uid, isAdmin, tariff, cost)
    ensures RefundOpen(db1, uid, requestId) && telegramId in r.locks ==>
      reply.outcome.AlreadyActive? && reply.db.users == (if isAdmin then db1.users else Credit(db1.users, uid, cost))
    ensures LockedReplyShape(r, telegramId, requestId, reply)
  {
    var (locked, r1) := AcquireLock(r, telegramId, requestId);
    if !locked then
      match RefundIfNeeded(db1, uid, isAdmin, cost, requestId, tariff)
      case Err(_) => AdmissionReply(RefundRaised, db1, r)
      case Ok(db2) => AdmissionReply(AlreadyActive, db2, r)
    else
      EnqueueStep(db1, r1, limits, telegramId, chatId, prompt, aspectRatio, images, requestId, uid, isAdmin, tariff, cost)
  }

  /**
   `_enqueue_generation`. The FSM data's stored tariff and cost are
   parameters, and so is the fresh request id the source draws from uuid4.
   */
  function Admit(db: Db, r: Redis, limits: QueueLimits, telegramId: int, chatId: int, prompt: string,
                 aspectRatio: Option<string>, images: seq<Bytes>, requestId: string,
                 storedTariff: Option<string>, storedCost: Option<int>): (reply: AdmissionReply)
    requires IndexConsistent(db) && GenerationsNumbered(db)
    ensures reply.outcome == NoUser <==> telegramId !in db.byTelegram
    ensures reply.outcome == NoUser ==> reply.db == db && reply.redis == r
    ensures reply.outcome == InsufficientFunds ==>
      reply.db == db && reply.redis == ClearUserState(r, telegramId)
    ensures reply.outcome == AlreadyActive ==> reply.redis == r && telegramId in r.locks
    ensures reply.outcome.QueueRejected? ==>
      && telegramId !in r.locks
      && reply.redis.locks == r.locks && reply.redis.queue == r.queue && reply.redis.tasks == r.tasks
      && telegramId !in reply.redis.fsmState && telegramId !in reply.redis.fsmData
    ensures reply.outcome.Accepted? ==>
      && telegramId !in r.locks
      && reply.outcome.ahead == |r.queue|
      && reply.redis.locks == r.locks[telegramId := requestId]
      && reply.redis.queue == r.queue + [requestId]
      && requestId in reply.redis.tasks && reply.redis.tasks[requestId].status == Queued
      && reply.redis.tasks[requestId].payload.requestId == requestId
      && reply.redis.tasks[requestId].payload.telegramId == telegramId
      && telegramId !in reply.redis.fsmState && telegramId !in reply.redis.fsmData
  {
    match UserByTelegram(db, telegramId)
    case None => AdmissionReply(NoUser, db, r)
    case Some(uid) =>
      var (tariff, cost) := ChooseTariff(storedTariff, storedCost);
      ChargeStep(db, r, limits, telegramId, chatId, prompt, aspectRatio, images, requestId, uid, db.users[uid].isAdmin, tariff, cost)
  }

  /** Charge first; an insufficient balance clears the conversation state and goes no further. */
  function ChargeStep(db: Db, r: Redis, limits: QueueLimits, telegramId: int, chatId: int, prompt: string,
                      aspectRatio: Option<string>, images: seq<Bytes>, requestId: string,
                      uid: int, isAdmin: bool, tariff: string, cost: int): (reply: AdmissionReply)
    requires GenerationsNumbered(db)
    ensures reply.outcome == InsufficientFunds ==> reply.db == db && reply.redis == ClearUserState(r, telegramId)
    ensures reply.outcome != InsufficientFunds && reply.outcome != ChargeRaised ==> LockedReplyShape(r, telegramId, requestId, reply)
  {
    match CheckAndCharge(db, uid, isAdmin, cost, tariff, requestId)
    case Err(_) => AdmissionReply(ChargeRaised, db, r)
    case Ok((charged, db1)) =>
      if !charged then AdmissionReply(InsufficientFunds, db, ClearUserState(r, telegramId))
      else LockStep(db1, r, limits, telegramId, chatId, prompt, aspectRatio, images, requestId, uid, isAdmin, tariff, cost)
  }

  /** The charge of a fresh request takes exactly the cost from a paying user and leaves the refund open. */
  lemma ChargeOfFreshRequest(db: Db, uid: int, isAdmin: bool, cost: int, tariff: string, requestId: string)
    requires FreshRequest(db, requestId) && uid in db.users
    ensures var c := CheckAndCharge(db, uid, isAdmin, cost, tariff, requestId);
      && c.Ok?
      && (c.value.0 ==>
           && RefundOpen(c.value.1, uid, requestId)
           && GenerationsNumbered(db) == GenerationsNumbered(c.value.1)
           && c.value.1.users == (if isAdmin then db.users else Credit(db.users, uid, -cost)))
  {
    var c := CheckAndCharge(db, uid, isAdmin, cost, tariff, requestId);
    var db1 := c.value.1;
    if !isAdmin && c.value.0 {
      assert RecordCreditChange(db, uid, -cost, ReasonPro, Some(requestId)) == Ok(db1);
      assert db1.ledger == db.ledger + [db1.ledger[|db.ledger|]];
      assert db1.ledger[|db.ledger|].reason == ReasonPro;
    }
  }

  /**
   Credits are conserved by every rejected admission: the charge and the
   compensating refund cancel out, and only an accepted paying request
   keeps the cost. With a fresh request id none of the raising paths is
   taken.
   */
  lemma AdmissionConservesCredits(db: Db, r: Redis, limits: QueueLimits, telegramId: int, chatId: int, prompt: string,
                                  aspectRatio: Option<string>, images: seq<Bytes>, requestId: string,
                                  storedTariff: Option<string>, storedCost: Option<int>)
    requires IndexConsistent(db) && GenerationsNumbered(db)
    requires FreshRequest(db, requestId)
    requires telegramId in db.byTelegram
    ensures var reply := Admit(db, r, limits, telegramId, chatId, prompt, aspectRatio, images, requestId, storedTariff, storedCost);
      var uid := db.byTelegram[telegramId];
      var cost := ChooseTariff(storedTariff, storedCost).1;
      && !reply.outcome.ChargeRaised? && !reply.outcome.RefundRaised? && !reply.outcome.GenerationRaised?
      && reply.db.users == (if reply.outcome.Accepted? && !db.users[uid].isAdmin then Credit(db.users, uid, -cost) else db.users)
  {
    var uid := db.byTelegram[telegramId];
    assert UserByTelegram(db, telegramId) == Some(uid);
    var tc := ChooseTariff(storedTariff, storedCost);
    ChargeStepConserves(db, r, limits, telegramId, chatId, prompt, aspectRatio, images, requestId, uid, db.users[uid].isAdmin, tc.0, tc.1);
  }

  /** The charge step and everything after it leave the balances as they were, unless the request is accepted from a paying user. */
  lemma ChargeStepConserves(db: Db, r: Redis, limits: QueueLimits, telegramId: int, chatId: int, prompt: string,
                            aspectRatio: Option<string>, images: seq<Bytes>, requestId: string,
                            uid: int, isAdmin: bool, tariff: string, cost: int)
    requires GenerationsNumbered(db) && FreshRequest(db, requestId) && uid in db.users
    ensures var reply := ChargeStep(db, r, limits, telegramId, chatId, prompt, aspectRatio, images, requestId, uid, isAdmin, tariff, cost);
      && !reply.outcome.ChargeRaised? && !reply.outcome.RefundRaised? && !reply.outcome.GenerationRaised?
      && reply.db.users == (if reply.outcome.Accepted? && !isAdmin then Credit(db.users, uid, -cost) else db.users)
  {
    ChargeOfFreshRequest(db, uid, isAdmin, cost, tariff, requestId);
    var c := CheckAndCharge(db, uid, isAdmin, cost, tariff, requestId);
    var reply := ChargeStep(db, r, limits, telegramId, chatId, prompt, aspectRatio, images, requestId, uid, isAdmin, tariff, cost);
    if c.value.0 {
      var db1 := c.value.1;
      assert reply == LockStep(db1, r, limits, telegramId, chatId, prompt, aspectRatio, images, requestId, uid, isAdmin, tariff, cost);
      LockStepSettles(db1, r, limits, telegramId, chatId, prompt, aspectRatio, images, requestId, uid, isAdmin, tariff, cost);
      if !isAdmin {
        CreditCancels(db.users, uid, cost);
      }
    } else {
      assert reply.outcome == InsufficientFunds && reply.db == db;
    }
  }

  /** A refund of the amount just charged restores the balances. */
  lemma CreditCancels(users: map<int, UserRow>, uid: int, cost: int)
    requires uid in users
    ensures Credit(Credit(users, uid, -cost), uid, cost) == users
  {
    var back := Credit(Credit(users, uid, -cost), uid, cost);
    assert back[uid] == users[uid];
    assert back.Keys == users.Keys;
  }

  /** Once the charge is taken, the lock and enqueue steps either keep it (accepted) or hand it back. */
  lemma LockStepSettles(db1: Db, r: Redis, limits: QueueLimits, telegramId: int, chatId: int, prompt: string,
                        aspectRatio: Option<string>, images: seq<Bytes>, requestId: string,
                        uid: int, isAdmin: bool, tariff: string, cost: int)
    requires GenerationsNumbered(db1) && RefundOpen(db1, uid, requestId)
    ensures var reply := LockStep(db1, r, limits, telegramId, chatId, prompt, aspectRatio, images, requestId, uid, isAdmin, tariff, cost);
      && (reply.outcome.AlreadyActive? || reply.outcome.QueueRejected? || reply.outcome.Accepted?)
      && reply.db.users == (if reply.outcome.Accepted? || isAdmin then db1.users else Credit(db1.users, uid, cost))
  {
  }

  /**
   The lock is the only thing admission leaves behind besides the task:
   unless the request is accepted, locks, queue and tasks are as before.
   */
  lemma RejectedAdmissionLeavesQueue(db: Db, r: Redis, limits: QueueLimits, telegramId: int, chatId: int, prompt: string,
                                     aspectRatio: Option<string>, images: seq<Bytes>, requestId: string,
                                     storedTariff: Option<string>, storedCost: Option<int>)
    requires IndexConsistent(db) && GenerationsNumbered(db)
    requires FreshRequest(db, requestId)
    ensures var reply := Admit(db, r, limits, telegramId, chatId, prompt, aspectRatio, images, requestId, storedTariff, storedCost);
      !reply.outcome.Accepted? ==>
        reply.redis.locks == r.locks && reply.redis.queue == r.queue && reply.redis.tasks == r.tasks
  {
    if telegramId in db.byTelegram {
      AdmissionConservesCredits(db, r, limits, telegramId, chatId, prompt, aspectRatio, images, requestId, storedTariff, storedCost);
    }
  }
}

=== FILE: basics.dfy ===
/** Small shared vocabulary: optional values, results with an error side, bytes. */
module Basics {

  /** A Python value that may be `None`. */
  datatype Option<T> = None | Some(value: T) {
    function GetOr(default: T): T {
      match this
      case Some(v) => v
      case None => default
    }
  }

  /** The outcome of an operation that either returns a value or raises. */
  datatype Result<T, E> = Ok(value: T) | Err(error: E)

  /** One octet of a downloaded or uploaded payload. */
  type Byte = b: int | 0 <= b < 256

  type Bytes = seq<Byte>

  function Min(a: int, b: int): int {
    if a <= b then a else b
  }

  function Abs(a: int): nat {
    if a < 0 then -a else a
  }
}

=== FILE: cancel_handler.dfy ===
/**
 The user-facing cancel: look up the task holding the user's generation
 lock, cancel it if it is still queued (refunding at once) or mark it
 cancelled if it is processing (the worker refunds), and in every case with
 a lock release the lock and clear the FSM state.
 */
module CancelHandler {
  import opened Basics
  import opened Schema
  import opened Ledger
  import opened Generations
  import opened AdminGuard
  import opened TaskQueue

  datatype CancelOutcome =
    | NoTask
    | CancelledQueued
    | CancelledProcessing
    | RefundRaised   // the refund inside the queued branch raised; the exception leaves the handler

  datatype CancelReply = CancelReply(outcome: CancelOutcome, db: Db, redis: Redis)

  /** The refund the payload of a task asks for. */
  function RefundForPayload(db: Db, p: TaskPayload): Result<Db, LedgerError> {
    RefundIfNeeded(db, p.userId, p.isAdmin, p.cost, p.requestId, p.tariff)
  }

  function DoCancel(db: Db, r: Redis, telegramId: int): (reply: CancelReply)
    ensures telegramId !in r.locks || r.locks[telegramId] == "" ==> reply == CancelReply(NoTask, db, r)
    ensures telegramId in r.locks && r.locks[telegramId] != "" && reply.outcome != RefundRaised ==>
      telegramId !in reply.redis.locks && telegramId !in reply.redis.fsmState && telegramId !in reply.redis.fsmData
    ensures reply.outcome == CancelledQueued <==>
      && telegramId in r.locks && r.locks[telegramId] != ""
      && GetTaskStatus(r, r.locks[telegramId]) == Some(Queued)
      && RefundForPayload(db, r.tasks[r.locks[telegramId]].payload).Ok?
    ensures reply.outcome == CancelledQueued ==>
      var taskId := r.locks[telegramId];
      && reply.db == RefundForPayload(db, r.tasks[taskId].payload).value
      && GetTaskStatus(reply.redis, taskId) == Some(Cancelled)
      && reply.redis.queue == RemoveFirst(r.queue, taskId)
    ensures reply.outcome == CancelledProcessing <==>
      telegramId in r.locks && r.locks[telegramId] != "" && GetTaskStatus(r, r.locks[telegramId]) == Some(Processing)
    ensures reply.outcome == CancelledProcessing ==>
      && reply.db == db
      && GetTaskStatus(reply.redis, r.locks[telegramId]) == Some(Cancelled)
      && reply.redis.queue == r.queue
    ensures reply.outcome == NoTask && telegramId in r.locks ==>
      reply.db == db && reply.redis.tasks == r.tasks && reply.redis.queue == r.queue
    ensures reply.outcome == RefundRaised ==> reply.db == db && telegramId in reply.redis.locks
  {
    match ActiveGeneration(r, telegramId)
    case None => CancelReply(NoTask, db, r)
    case Some(taskId) =>
      if taskId == "" then CancelReply(NoTask, db, r)
      else
        var (queuedOk, r1) := CancelTask(r, taskId);
        if queuedOk then
          match RefundForPayload(db, r1.tasks[taskId].payload)
          case Err(_) => CancelReply(RefundRaised, db, r1)
          case Ok(db1) => CancelReply(CancelledQueued, db1, ClearUserState(ReleaseLock(r1, telegramId), telegramId))
        else
          var (processingOk, r2) := CancelProcessingTask(r1, taskId);
          if processingOk then
            CancelReply(CancelledProcessing, db, ClearUserState(ReleaseLock(r2, telegramId), telegramId))
          else
            CancelReply(NoTask, db, ClearUserState(ReleaseLock(r2, telegramId), telegramId))
  }

  /**
   Cancelling a queued task of a paying user gives the cost back exactly
   once: the refund row is written, and a second cancel finds no lock.
   */
  lemma CancelQueuedRefundsOnce(db: Db, r: Redis, telegramId: int)
    requires telegramId in r.locks
    requires var taskId := r.locks[telegramId];
      && taskId != "" && taskId in r.tasks && r.tasks[taskId].status == Queued
      && var p := r.tasks[taskId].payload;
      && !p.isAdmin && p.userId in db.users
      && !ReasonRefTaken(db.ledger, ReasonRefund, Some(RefundRef(p.requestId)))
    ensures var reply := DoCancel(db, r, telegramId);
      var p := r.tasks[r.locks[telegramId]].payload;
      && reply.outcome == CancelledQueued
      && reply.db.users[p.userId].balance == db.users[p.userId].balance + p.cost
      && ReasonRefTaken(reply.db.ledger, ReasonRefund, Some(RefundRef(p.requestId)))
      && DoCancel(reply.db, reply.redis, telegramId) == CancelReply(NoTask, reply.db, reply.redis)
  {
    var p := r.tasks[r.locks[telegramId]].payload;
    var reply := DoCancel(db, r, telegramId);
    var d := reply.db;
    assert d.ledger[|db.ledger|].reason == ReasonRefund;
    assert d.ledger[|db.ledger|].referenceId == Some(RefundRef(p.requestId));
  }

  /** Cancelling a processing task writes nothing to the ledger: the worker owns that refund. */
  lemma CancelProcessingLeavesLedger(db: Db, r: Redis, telegramId: int)
    requires telegramId in r.locks && r.locks[telegramId] != ""
    requires GetTaskStatus(r, r.locks[telegramId]) == Some(Processing)
    ensures DoCancel(db, r, telegramId).outcome == CancelledProcessing
    ensures DoCancel(db, r, telegramId).db == db
  {
  }
}

=== FILE: comfy.dfy ===
/**
 The decision logic of the ComfyUI client: the base URL, the mapping of a
 submission response to a prompt id or an error, the poll loop over the
 history endpoint, the choice of the output file, the SDXL canvas size and
 the size checks on a downloaded result. HTTP calls are scripted inputs and
 the clock is the list of elapsed-second readings the loop takes.
 */
module Comfy {
  import opened Basics
  import opened Strings

  const MaxWaitTime := 600
  const MinImageBytes := 1024
  const MinVideoBytes := 10240

  /** The exception classes of the client. */
  datatype ComfyError =
    | ConnectionError   // unreachable, or the request itself failed
    | TimeoutError      // the local wait budget ran out
    | GenerationError   // ComfyUI reported the job as failed
    | NoFaceError       // ComfyUI reported that no face was found
    | ClientError       // the base class: bad status code, missing prompt id or output

  // ---------------------------------------------------------------------------
  // Base URL
  // ---------------------------------------------------------------------------

  /** `s.split(sep)[-1]`: what follows the last occurrence of `sep`, found left to right without overlap. */
  function AfterLast(s: string, sep: string): (r: string)
    requires |sep| > 0
    ensures |r| <= |s| && r == s[|s| - |r|..]
    ensures IndexOf(r, sep).None?
    decreases |s|
  {
    var m := IndexOf(s, sep);
    if m.None? then s
    else
      var i := m.value;
      assert i + |sep| <= |s|;
      var t := s[i + |sep|..];
      var r := AfterLast(t, sep);
      assert t[|t| - |r|..] == s[|s| - |r|..];
      r
  }

  /**
   The part after the scheme separator is the whole text exactly when `//`
   does not occur in it, and otherwise is preceded directly by `//`.
   */
  lemma AfterLastFollowsSeparator(s: string)
    ensures IndexOf(s, "//").None? <==> AfterLast(s, "//") == s
    ensures IndexOf(s, "//").Some? ==>
      var k := |s| - |AfterLast(s, "//")|;
      k >= 2 && s[k - 2] == '/' && s[k - 1] == '/'
  {
    SeparatorBeforeLastPart(s);
  }

  /** The same, stated on the length of the last part. */
  lemma {:induction false} SeparatorBeforeLastPart(s: string)
    ensures IndexOf(s, "//").None? ==> |AfterLast(s, "//")| == |s|
    ensures IndexOf(s, "//").Some? ==>
      var k := |s| - |AfterLast(s, "//")|;
      k >= 2 && s[k - 2] == '/' && s[k - 1] == '/'
    decreases |s|
  {
    match IndexOf(s, "//")
    case None =>
    case Some(i) =>
      assert s[i] == '/' && s[i + 1] == '/' by { assert s[i..i + 2] == "//"; }
      var t := s[i + 2..];
      var n := |AfterLast(t, "//")|;
      assert |AfterLast(s, "//")| == n;
      SeparatorBeforeLastPart(t);
      if IndexOf(t, "//").None? {
        assert |s| - n == i + 2;
      } else {
        var kt := |t| - n;
        assert t[kt - 2] == s[i + kt] && t[kt - 1] == s[i + kt + 1];
        assert |s| - n == i + 2 + kt;
      }
  }

  /**
   The URL of the ComfyUI server: the configured URL without trailing
   slashes, with the configured port appended unless the part after the
   scheme separator already names one.
   */
  function BaseUrl(apiUrl: string, port: int): (url: string)
    ensures var u := RStripChar(apiUrl, '/');
      && (':' in AfterLast(u, "//") ==> url == u)
      && (':' !in AfterLast(u, "//") ==> url == u + PortSuffix(port))
    ensures |url| > 0 ==> url[|url| - 1] != '/'
  {
    var u := RStripChar(apiUrl, '/');
    if ':' in AfterLast(u, "//") then u
    else
      PortSuffixShape(port);
      u + PortSuffix(port)
  }

  /** The `:port` text appended to a URL that names no port. */
  function PortSuffix(port: int): string {
    ":" + IntToString(port)
  }

  predicate SlashFree(b: string) {
    forall k :: 0 <= k < |b| ==> b[k] != '/'
  }

  lemma PortSuffixShape(port: int)
    ensures |PortSuffix(port)| > 1 && PortSuffix(port)[0] == ':'
    ensures SlashFree(PortSuffix(port))
  {
    var d := NatToString(if port < 0 then -port else port);
    var b := PortSuffix(port);
    if port < 0 {
      assert b == ":-" + d;
      assert forall k :: 2 <= k < |b| ==> b[k] == d[k - 2];
    } else {
      assert b == ":" + d;
      assert forall k :: 1 <= k < |b| ==> b[k] == d[k - 1];
    }
  }

  /** A suffix free of slashes survives the split: it ends the last piece. */
  lemma {:induction false} AfterLastKeepsSlashFreeSuffix(s: string, b: string)
    requires SlashFree(b)
    ensures var r := AfterLast(s + b, "//"); |b| <= |r| && r[|r| - |b|..] == b
    decreases |s|
  {
    var t := s + b;
    match IndexOf(t, "//")
    case None =>
    case Some(i) =>
      assert t[i] == '/' && t[i + 1] == '/' by { assert t[i..i + 2] == "//"; }
      assert i + 1 < |s|;
      assert t[i + 2..] == s[i + 2..] + b;
      assert AfterLast(t, "//") == AfterLast(s[i + 2..] + b, "//");
      AfterLastKeepsSlashFreeSuffix(s[i + 2..], b);
  }

  /** A string that does not end in the stripped character is left alone. */
  lemma RStripCharNoop(s: string, c: char)
    requires |s| == 0 || s[|s| - 1] != c
    ensures RStripChar(s, c) == s
  {
  }

  /** The base URL is a fixed point: building it again from itself changes nothing. */
  lemma BaseUrlIdempotent(apiUrl: string, port: int)
    ensures BaseUrl(BaseUrl(apiUrl, port), port) == BaseUrl(apiUrl, port)
  {
    var url := BaseUrl(apiUrl, port);
    var u := RStripChar(apiUrl, '/');
    RStripCharNoop(url, '/');
    if ':' !in AfterLast(u, "//") {
      var b := PortSuffix(port);
      PortSuffixShape(port);
      assert url == u + b;
      AfterLastKeepsSlashFreeSuffix(u, b);
      var r := AfterLast(url, "//");
      assert r[|r| - |b|..][0] == ':';
      assert ':' in r;
    }
  }

  // ---------------------------------------------------------------------------
  // Submission
  // ---------------------------------------------------------------------------

  /** What the POST to `/prompt` gave back. */
  datatype SubmitResponse =
    | SubmitTimedOut                                   // the HTTP client timed out
    | SubmitHttpStatus(code: int)                      // `raise_for_status` fired
    | SubmitBody(hasError: bool, promptId: Option<string>)  // a JSON body; `promptId` is the `prompt_id` key
    | SubmitFailed                                     // any other failure (connection, bad JSON)

  /**
   `_submit_workflow`: a JSON `error` key is a generation error, a missing or
   empty `prompt_id` is a client error, a timeout or any other failure is a
   connection error, a bad status code is a client error.
   */
  function SubmitOutcome(resp: SubmitResponse): (r: Result<string, ComfyError>)
    ensures r.Ok? <==> resp.SubmitBody? && !resp.hasError && resp.promptId.Some? && resp.promptId.value != ""
    ensures r.Ok? ==> r.value == resp.promptId.value && r.value != ""
    ensures r == Err(GenerationError) <==> resp.SubmitBody? && resp.hasError
    ensures r == Err(ConnectionError) <==> resp.SubmitTimedOut? || resp.SubmitFailed?
    ensures r.Err? ==> r.error != TimeoutError && r.error != NoFaceError
  {
    match resp
    case SubmitTimedOut => Err(ConnectionError)
    case SubmitHttpStatus(_) => Err(ClientError)
    case SubmitFailed => Err(ConnectionError)
    case SubmitBody(hasError, promptId) =>
      if hasError then Err(GenerationError)
      else if promptId.None? || promptId.value == "" then Err(ClientError)
      else Ok(promptId.value)
  }

  // ---------------------------------------------------------------------------
  // Waiting for completion
  // ---------------------------------------------------------------------------

  /** One entry of an output list: the `filename`, `subfolder` and `type` keys, each possibly absent. */
  datatype FileInfo = FileInfo(filename: Option<string>, subfolder: Option<string>, folderType: Option<string>)

  /** One output node: the `images`, `gifs` and `videos` lists, each possibly absent. */
  datatype OutputNode = OutputNode(images: Option<seq<FileInfo>>, gifs: Option<seq<FileInfo>>, videos: Option<seq<FileInfo>>)

  /**
   A non-empty history record of one prompt. `outputs` is the `outputs` key
   (nodes in dictionary order), `error` the text of the `error` key, and
   `statusStr` the `status.status_str` value, "" when absent.
   */
  datatype HistoryEntry = HistoryEntry(outputs: Option<seq<OutputNode>>, error: Option<string>, statusStr: string)

  /** One status check: the request failed, or the record came back (`None` for an empty record). */
  datatype Poll = PollFailed | PollRecord(entry: Option<HistoryEntry>)

  /** Does an error text report a missing face? Matched on the lower-cased text. */
  predicate IsNoFaceMessage(msg: string) {
    var m := Lower(msg);
    Contains(m, "face") && (Contains(m, "not found") || Contains(m, "not detected") || Contains(m, "no face"))
  }

  /**
   One poll classified: `None` to keep polling, `Some(Ok(entry))` when the
   record has outputs (checked before any error), `Some(Err(_))` for a
   reported failure.
   */
  function ClassifyPoll(p: Poll): (c: Option<Result<HistoryEntry, ComfyError>>)
    ensures p.PollFailed? || p.entry.None? ==> c.None?
    ensures p.PollRecord? && p.entry.Some? && p.entry.value.outputs.Some? ==> c == Some(Ok(p.entry.value))
    ensures c.Some? && c.value.Ok? ==> p.PollRecord? && p.entry == Some(c.value.value) && c.value.value.outputs.Some?
    ensures c.Some? && c.value.Err? ==> c.value.error == GenerationError || c.value.error == NoFaceError
    ensures c == Some(Err(NoFaceError)) <==>
      p.PollRecord? && p.entry.Some? && p.entry.value.outputs.None? && p.entry.value.error.Some?
      && IsNoFaceMessage(p.entry.value.error.value)
    ensures c.None? && p.PollRecord? && p.entry.Some? ==>
      p.entry.value.outputs.None? && p.entry.value.error.None? && p.entry.value.statusStr != "error"
  {
    match p
    case PollFailed => None
    case PollRecord(None) => None
    case PollRecord(Some(e)) =>
      if e.outputs.Some? then Some(Ok(e))
      else if e.error.Some? then
        if IsNoFaceMessage(e.error.value) then Some(Err(NoFaceError)) else Some(Err(GenerationError))
      else if e.statusStr == "error" then Some(Err(GenerationError))
      else None
  }

  datatype WaitOutcome =
    | Completed(entry: HistoryEntry)
    | WaitFailed(error: ComfyError)
    | StillWaiting   // the scripted polls ran out before the loop ended

  /**
   `_wait_for_completion`: before each poll the elapsed seconds are read
   (`clock[k]` for the k-th poll) and the loop gives up once they exceed the
   timeout; failed status requests are retried. Returns the outcome and the
   number of polls made.
   */
  function WaitForCompletion(clock: seq<int>, polls: seq<Poll>, timeout: int): (res: (WaitOutcome, nat))
    requires |clock| == |polls|
    ensures res.1 <= |polls|
    ensures forall k :: 0 <= k < res.1 ==> clock[k] <= timeout
    ensures forall k :: 0 <= k < res.1 - 1 ==> ClassifyPoll(polls[k]).None?
    ensures res.0 == WaitFailed(TimeoutError) <==>
      res.1 < |polls| && clock[res.1] > timeout && (res.1 == 0 || ClassifyPoll(polls[res.1 - 1]).None?)
    ensures res.0.StillWaiting? <==> res.1 == |polls| && (res.1 == 0 || ClassifyPoll(polls[res.1 - 1]).None?)
    ensures res.0.Completed? ==> res.1 > 0 && ClassifyPoll(polls[res.1 - 1]) == Some(Ok(res.0.entry))
    ensures res.0.WaitFailed? && res.0.error != TimeoutError ==>
      res.1 > 0 && ClassifyPoll(polls[res.1 - 1]) == Some(Err(res.0.error))
    decreases |polls|
  {
    if |polls| == 0 then (StillWaiting, 0)
    else if clock[0] > timeout then (WaitFailed(TimeoutError), 0)
    else match ClassifyPoll(polls[0])
      case Some(Ok(e)) => (Completed(e), 1)
      case Some(Err(err)) => (WaitFailed(err), 1)
      case None =>
        var (o, n) := WaitForCompletion(clock[1..], polls[1..], timeout);
        (o, n + 1)
  }

  /**
   The local timeout bounds the loop: when each poll interval is at least
   one second of sleep, so that the k-th reading is at least
   `k * interval`, at most `timeout / interval + 1` polls are made.
   */
  lemma WaitMakesBoundedPolls(clock: seq<int>, polls: seq<Poll>, timeout: int, interval: int)
    requires |clock| == |polls| && interval > 0 && timeout >= 0
    requires forall k :: 0 <= k < |clock| ==> clock[k] >= k * interval
    ensures WaitForCompletion(clock, polls, timeout).1 <= timeout / interval + 1
  {
    var n := WaitForCompletion(clock, polls, timeout).1;
    if n > 0 {
      var last := n - 1;
      assert last * interval <= clock[last] <= timeout;
      DivisionBound(last, interval, timeout);
    }
  }

  lemma NegativeFactor(x: int, d: int)
    requires d > 0 && x * d < 0
    ensures x < 0
  {
  }

  lemma DivisionBound(a: nat, d: int, t: int)
    requires d > 0 && a * d <= t
    ensures a <= t / d
  {
    var q := t / d + 1;
    assert q * d == (t / d) * d + d;
    assert a * d < q * d;
    assert (a - q) * d < 0;
    NegativeFactor(a - q, d);
  }

  // ---------------------------------------------------------------------------
  // Output extraction
  // ---------------------------------------------------------------------------

  /** A list that is present and non-empty offers its first entry. */
  function FirstOf(l: Option<seq<FileInfo>>): seq<FileInfo> {
    if l.Some? && |l.value| > 0 then [l.value[0]] else []
  }

  /** The candidates in the order they are inspected: per node, first image, first gif, first video. */
  function Candidates(nodes: seq<OutputNode>): seq<FileInfo> {
    if |nodes| == 0 then []
    else NodeCandidates(nodes[0]) + Candidates(nodes[1..])
  }

  predicate Named(f: FileInfo) {
    f.filename.Some? && f.filename.value != ""
  }

  /** The (filename, subfolder, type) triple of a candidate, with the defaults of the source. */
  function Triple(f: FileInfo): (string, string, string) {
    (f.filename.GetOr(""), f.subfolder.GetOr(""), f.folderType.GetOr("output"))
  }

  /** The first entry of a list, when it has a file name. */
  function TryFile(l: Option<seq<FileInfo>>): Option<(string, string, string)> {
    if l.Some? && |l.value| > 0 && Named(l.value[0]) then Some(Triple(l.value[0])) else None
  }

  /** One node: its first image, else its first gif, else its first video. */
  function ScanNode(n: OutputNode): Option<(string, string, string)> {
    if TryFile(n.images).Some? then TryFile(n.images)
    else if TryFile(n.gifs).Some? then TryFile(n.gifs)
    else TryFile(n.videos)
  }

  /** The node loop of `_extract_output_info`. */
  function ScanNodes(nodes: seq<OutputNode>): Option<(string, string, string)> {
    if |nodes| == 0 then None
    else if ScanNode(nodes[0]).Some? then ScanNode(nodes[0])
    else ScanNodes(nodes[1..])
  }

  /**
   `_extract_output_info`: missing or empty outputs, or no candidate with a
   file name, is a client error; otherwise the first named candidate wins.
   */
  function ExtractOutputInfo(entry: HistoryEntry): (r: Result<(string, string, string), ComfyError>)
    ensures entry.outputs.None? || |entry.outputs.value| == 0 ==> r == Err(ClientError)
    ensures r.Err? ==> r.error == ClientError
    ensures r.Ok? ==> r.value.0 != ""
    ensures r.Ok? <==> entry.outputs.Some? && PickOf(Candidates(entry.outputs.value)).Some?
    ensures r.Ok? ==> Some(r.value) == PickOf(Candidates(entry.outputs.value))
  {
    if entry.outputs.None? || |entry.outputs.value| == 0 then Err(ClientError)
    else
      ScanIsFirstNamedCandidate(entry.outputs.value);
      match ScanNodes(entry.outputs.value)
      case None => Err(ClientError)
      case Some(t) =>
        ScanNodesNamed(entry.outputs.value);
        Ok(t)
  }

  lemma {:induction false} ScanNodesNamed(nodes: seq<OutputNode>)
    ensures ScanNodes(nodes).Some? ==> ScanNodes(nodes).value.0 != ""
  {
    if |nodes| > 0 {
      ScanNodesNamed(nodes[1..]);
    }
  }

  /** Index of the first named candidate. */
  function FirstNamed(c: seq<FileInfo>): (k: Option<nat>)
    ensures k.Some? ==> k.value < |c| && Named(c[k.value]) && forall j :: 0 <= j < k.value ==> !Named(c[j])
    ensures k.None? ==> forall j :: 0 <= j < |c| ==> !Named(c[j])
  {
    if |c| == 0 then None
    else if Named(c[0]) then Some(0)
    else match FirstNamed(c[1..])
      case None => None
      case Some(k) => Some(k + 1)
  }

  lemma FirstNamedConcat(a: seq<FileInfo>, b: seq<FileInfo>)
    ensures FirstNamed(a + b) ==
      (if FirstNamed(a).Some? then FirstNamed(a)
       else match FirstNamed(b) case None => None case Some(k) => Some(|a| + k))
  {
    if FirstNamed(a).None? && FirstNamed(b).Some? {
      var k := FirstNamed(b).value;
      assert (a + b)[|a| + k] == b[k];
      assert forall j :: 0 <= j < |a| ==> (a + b)[j] == a[j];
      assert forall j :: |a| <= j < |a| + k ==> (a + b)[j] == b[j - |a|];
    } else if FirstNamed(a).None? {
      assert forall j :: 0 <= j < |a + b| ==> (a + b)[j] == if j < |a| then a[j] else b[j - |a|];
    } else {
      var k := FirstNamed(a).value;
      assert (a + b)[k] == a[k];
    }
  }

  function NodeCandidates(n: OutputNode): seq<FileInfo> {
    FirstOf(n.images) + FirstOf(n.gifs) + FirstOf(n.videos)
  }

  /** The picked file of a candidate list. */
  function PickOf(c: seq<FileInfo>): Option<(string, string, string)> {
    match FirstNamed(c) case None => None case Some(k) => Some(Triple(c[k]))
  }

  lemma PickOfConcat(a: seq<FileInfo>, b: seq<FileInfo>)
    ensures PickOf(a + b) == if PickOf(a).Some? then PickOf(a) else PickOf(b)
  {
    FirstNamedConcat(a, b);
    if FirstNamed(a).Some? {
      assert (a + b)[FirstNamed(a).value] == a[FirstNamed(a).value];
    } else if FirstNamed(b).Some? {
      assert (a + b)[|a| + FirstNamed(b).value] == b[FirstNamed(b).value];
    }
  }

  lemma TryFileIsPick(l: Option<seq<FileInfo>>)
    ensures TryFile(l) == PickOf(FirstOf(l))
  {
  }

  lemma ScanNodeIsPick(n: OutputNode)
    ensures ScanNode(n) == PickOf(NodeCandidates(n))
  {
    TryFileIsPick(n.images);
    TryFileIsPick(n.gifs);
    TryFileIsPick(n.videos);
    PickOfConcat(FirstOf(n.images), FirstOf(n.gifs));
    PickOfConcat(FirstOf(n.images) + FirstOf(n.gifs), FirstOf(n.videos));
  }

  /**
   The scan returns exactly the first candidate with a file name, in
   node order and, within a node, images before gifs before videos.
   */
  lemma {:induction false} ScanIsFirstNamedCandidate(nodes: seq<OutputNode>)
    ensures ScanNodes(nodes) == PickOf(Candidates(nodes))
  {
    if |nodes| > 0 {
      ScanIsFirstNamedCandidate(nodes[1..]);
      ScanNodeIsPick(nodes[0]);
      assert Candidates(nodes) == NodeCandidates(nodes[0]) + Candidates(nodes[1..]);
      PickOfConcat(NodeCandidates(nodes[0]), Candidates(nodes[1..]));
    }
  }

  // ---------------------------------------------------------------------------
  // Canvas and result checks
  // ---------------------------------------------------------------------------

  /** The SDXL latent size for an aspect ratio; anything unlisted is square. */
  function SdxlDimensions(aspectRatio: Option<string>): (wh: (int, int))
    ensures wh.0 % 64 == 0 && wh.1 % 64 == 0
    ensures aspectRatio == Some("16:9") ==> wh == (1344, 768)
    ensures aspectRatio == Some("9:16") ==> wh == (768, 1344)
    ensures aspectRatio == Some("4:3") ==> wh == (1152, 896)
    ensures aspectRatio == Some("3:4") ==> wh == (896, 1152)
    ensures aspectRatio !in {Some("16:9"), Some("9:16"), Some("4:3"), Some("3:4")} ==> wh == (1024, 1024)
  {
    if aspectRatio == Some("16:9") then (1344, 768)
    else if aspectRatio == Some("9:16") then (768, 1344)
    else if aspectRatio == Some("4:3") then (1152, 896)
    else if aspectRatio == Some("3:4") then (896, 1152)
    else (1024, 1024)
  }

  /** Portrait sizes are the landscape ones turned on their side, and no canvas exceeds 1024×1024 by more than 1%. */
  lemma SdxlDimensionsSymmetric()
    ensures SdxlDimensions(Some("9:16")) == (SdxlDimensions(Some("16:9")).1, SdxlDimensions(Some("16:9")).0)
    ensures SdxlDimensions(Some("3:4")) == (SdxlDimensions(Some("4:3")).1, SdxlDimensions(Some("4:3")).0)
    ensures forall ar: Option<string> :: 100 * SdxlDimensions(ar).0 * SdxlDimensions(ar).1 <= 101 * 1024 * 1024
  {
  }

  /** The wait budget of an image job. */
  function ImageWaitBudget(generationTimeout: int): (t: int)
    ensures t <= MaxWaitTime && (t == generationTimeout || t == MaxWaitTime)
    ensures generationTimeout <= MaxWaitTime ==> t == generationTimeout
  {
    Min(generationTimeout, MaxWaitTime)
  }

  /** The wait budget of a video job: twice the generation timeout, capped the same way. */
  function VideoWaitBudget(generationTimeout: int): (t: int)
    ensures t <= MaxWaitTime && (t == 2 * generationTimeout || t == MaxWaitTime)
    ensures t >= ImageWaitBudget(generationTimeout) || generationTimeout < 0
  {
    Min(2 * generationTimeout, MaxWaitTime)
  }

  /** An image result under one KiB counts as a failure. */
  function CheckImageResult(data: Bytes): (r: Option<Bytes>)
    ensures r.Some? <==> |data| >= MinImageBytes
    ensures r.Some? ==> r.value == data
  {
    if |data| < MinImageBytes then None else Some(data)
  }

  /**
   A video result under ten KiB counts as a failure. A video shorter than
   50 KiB per requested second is only logged: it is still returned.
   */
  function CheckVideoResult(data: Bytes, durationSeconds: int): (r: Option<Bytes>)
    ensures r.Some? <==> |data| >= MinVideoBytes
    ensures r.Some? ==> r.value == data
  {
    if |data| < MinVideoBytes then None else Some(data)
  }

  /** A short video for its duration passes the check anyway. */
  lemma ShortVideoOnlyWarns(data: Bytes, durationSeconds: int)
    requires MinVideoBytes <= |data| < durationSeconds * 50 * 1024
    ensures CheckVideoResult(data, durationSeconds) == Some(data)
  {
  }

  // ---------------------------------------------------------------------------
  // The whole job
  // ---------------------------------------------------------------------------

  /** The download of the output file: the bytes, or a failed request. */
  datatype Download = Downloaded(data: Bytes) | DownloadFailed

  datatype JobOutcome =
    | Raised(error: ComfyError)   // only a missing face or the local timeout leave the client
    | Returned(result: Option<Bytes>)
    | Unfinished                  // the scripted polls ran out

  /**
   `generate_image` / `generate_video`: submit, wait, pick the output,
   download and check the size. Only `NoFaceError` and `TimeoutError`
   propagate; every other failure returns nothing.
   */
  function RunJob(submit: SubmitResponse, clock: seq<int>, polls: seq<Poll>, timeout: int,
                  download: Download, video: bool, durationSeconds: int): (o: JobOutcome)
    requires |clock| == |polls|
    ensures o.Raised? ==> o.error == NoFaceError || o.error == TimeoutError
    ensures o.Returned? && o.result.Some? ==>
      download.Downloaded? && o.result.value == download.data
      && |o.result.value| >= (if video then MinVideoBytes else MinImageBytes)
    ensures !(submit.SubmitBody? && !submit.hasError && submit.promptId.Some? && submit.promptId.value != "") ==>
      o == Returned(None)
    ensures SubmitOutcome(submit).Ok? && WaitForCompletion(clock, polls, timeout).0.WaitFailed? ==>
      var e := WaitForCompletion(clock, polls, timeout).0.error;
      (e == NoFaceError || e == TimeoutError <==> o == Raised(e)) && (o.Raised? || o == Returned(None))
    ensures (&& SubmitOutcome(submit).Ok? && WaitForCompletion(clock, polls, timeout).0.Completed?
             && ExtractOutputInfo(WaitForCompletion(clock, polls, timeout).0.entry).Ok?
             && download.Downloaded? && |download.data| >= (if video then MinVideoBytes else MinImageBytes)) ==>
      o == Returned(Some(download.data))
    ensures SubmitOutcome(submit).Ok? && WaitForCompletion(clock, polls, timeout).0.Completed? ==> o.Returned?
    ensures o.Raised? ==>
      SubmitOutcome(submit).Ok? && WaitForCompletion(clock, polls, timeout).0 == WaitFailed(o.error)
    ensures o.Unfinished? <==> SubmitOutcome(submit).Ok? && WaitForCompletion(clock, polls, timeout).0.StillWaiting?
  {
    match SubmitOutcome(submit)
    case Err(_) => Returned(None)
    case Ok(_) =>
      match WaitForCompletion(clock, polls, timeout).0
      case StillWaiting => Unfinished
      case WaitFailed(e) => if e == NoFaceError || e == TimeoutError then Raised(e) else Returned(None)
      case Completed(entry) =>
        match ExtractOutputInfo(entry)
        case Err(_) => Returned(None)
        case Ok(_) =>
          match download
          case DownloadFailed => Returned(None)
          case Downloaded(data) =>
            Returned(if video then CheckVideoResult(data, durationSeconds) else CheckImageResult(data))
  }
}

=== FILE: config.dfy ===
/**
 Start-up configuration read from the process environment.

 The environment is a map from variable name to value; `os.getenv(name, d)`
 is `Getenv`. A loaded configuration is a `Settings` record, and the two ways
 loading can raise are `ConfigError`s: the validation failure listing the
 missing variables, and `int()` rejecting a numeric setting.
 */
module Config {
  import opened Basics
  import opened Strings
  import opened ConfigEnv
  import opened ConfigUrls
  import opened ConfigValues

  const DefaultRedisUrl := "redis://localhost:6379"

  /** The names a deployment may use for the database and Redis URLs, in lookup order. */
  const DatabaseAliases: seq<string> := ["DATABASE_URL", "POSTGRES_URL", "POSTGRESQL_URL", "PGDATABASE_URL"]
  const RedisAliases: seq<string> := ["REDIS_URL", "REDIS_PRIVATE_URL", "REDIS_PUBLIC_URL"]

  /** Queue and generation limits used when their variables are unset. */
  const DefaultMaxQueuedTasksPerUser: nat := 3
  const DefaultMaxGlobalQueueSize: nat := 500
  const DefaultGenerationLockTtl: nat := 300
  const DefaultGenerationTimeout: nat := 200

  /** The integer settings with their textual defaults, in the order the loader converts them. */
  const IntSettings: seq<(string, string)> := [
    ("DB_POOL_SIZE", "3"),
    ("DB_MAX_OVERFLOW", "2"),
    ("MAX_QUEUED_TASKS_PER_USER", NatToString(DefaultMaxQueuedTasksPerUser)),
    ("MAX_GLOBAL_QUEUE_SIZE", NatToString(DefaultMaxGlobalQueueSize)),
    ("GENERATION_LOCK_TTL", NatToString(DefaultGenerationLockTtl)),
    ("GENERATION_TIMEOUT", NatToString(DefaultGenerationTimeout)),
    ("PORT", "8080")
  ]

  datatype Settings = Settings(
    botToken: string,
    webhookUrl: string,
    webhookSecret: string,
    replicateToken: string,
    databaseUrl: string,
    dbPoolSize: int,
    dbMaxOverflow: int,
    redisUrl: string,
    redisSsl: bool,
    yookassaShopId: string,
    yookassaSecretKey: string,
    yookassaWebhookSecret: string,
    adminIds: seq<int>,
    supportUrl: string,
    maxQueuedPerUser: int,
    maxGlobalQueue: int,
    lockTtl: int,
    generationTimeout: int,
    port: int)

  // ---------------------------------------------------------------------------
  // Loading
  // ---------------------------------------------------------------------------

  /** The webhook secret the loader uses: the stripped variable, or the placeholder when blank. */
  function WebhookSecret(env: Env): (r: string)
    ensures r != ""
    ensures r == DefaultWebhookSecret <==> EnvValue(env, "TELEGRAM_WEBHOOK_SECRET") in {"", DefaultWebhookSecret}
  {
    var s := EnvValue(env, "TELEGRAM_WEBHOOK_SECRET");
    if s != "" then s else DefaultWebhookSecret
  }

  function DatabaseUrl(env: Env): string {
    EnvFirst(env, DatabaseAliases, "")
  }

  function RedisUrl(env: Env): string {
    EnvFirst(env, RedisAliases, DefaultRedisUrl)
  }

  /** What validation reports for this environment. */
  function Validation(env: Env): seq<Missing> {
    CheckEnv(env, DatabaseUrl(env), RedisUrl(env), EnvValue(env, "TELEGRAM_WEBHOOK_URL"), WebhookSecret(env))
  }

  /** The settings record once every integer has been converted. */
  function Build(env: Env, v: seq<int>): Settings
    requires |v| == 7
  {
    Settings(
      botToken := EnvValue(env, "TELEGRAM_BOT_TOKEN"),
      webhookUrl := EnvValue(env, "TELEGRAM_WEBHOOK_URL"),
      webhookSecret := WebhookSecret(env),
      replicateToken := EnvValue(env, "REPLICATE_API_TOKEN"),
      databaseUrl := DatabaseUrl(env),
      dbPoolSize := v[0],
      dbMaxOverflow := v[1],
      redisUrl := RedisUrl(env),
      redisSsl := RedisSslFlag(Getenv(env, "REDIS_SSL", "")),
      yookassaShopId := EnvValue(env, "YOOKASSA_SHOP_ID"),
      yookassaSecretKey := EnvValue(env, "YOOKASSA_SECRET_KEY"),
      yookassaWebhookSecret := EnvValue(env, "YOOKASSA_WEBHOOK_SECRET"),
      adminIds := AdminIds(Getenv(env, "ADMIN_IDS", "")),
      supportUrl := EnvValue(env, "SUPPORT_TG_URL"),
      maxQueuedPerUser := v[2],
      maxGlobalQueue := v[3],
      lockTtl := v[4],
      generationTimeout := v[5],
      port := v[6])
  }

  /** The integer settings converted in order, or the first `int()` failure. */
  function IntValues(env: Env): (r: Result<seq<int>, ConfigError>)
    ensures r.Ok? ==> |r.value| == 7
  {
    ParseIntSettings(env, IntSettings)
  }

  /** The `ADMIN_IDS` variable as read by the loader. */
  function AdminIdsRaw(env: Env): string {
    Getenv(env, "ADMIN_IDS", "")
  }

  /**
   Loads the settings as the loader is written. With `validate`, a non-empty
   report aborts before anything else is read; then the `ADMIN_IDS` loop can
   raise on a part `isdigit()` accepts and `int()` refuses; then the integer
   conversions can raise.
   */
  function LoadConfig(env: Env, validate: bool): (r: Result<Settings, ConfigError>)
    ensures r.Ok? <==>
      (!validate || Validation(env) == []) && AdminIdsAsWritten(AdminIdsRaw(env)).Ok? && IntValues(env).Ok?
    ensures r.Err? && r.error.MissingVariables? ==> validate && r.error.names == Validation(env)
    ensures r.Err? && !r.error.MissingVariables? ==>
      (AdminIdsAsWritten(AdminIdsRaw(env)) == Err(r.error))
      || (AdminIdsAsWritten(AdminIdsRaw(env)).Ok? && IntValues(env) == Err(r.error))
    ensures r.Ok? ==> r.value == Build(env, IntValues(env).value) && r.value.adminIds == AdminIdsAsWritten(AdminIdsRaw(env)).value
  {
    var missing := Validation(env);
    var admins := AdminIdsAsWritten(AdminIdsRaw(env));
    if validate && missing != [] then Err(MissingVariables(missing))
    else if admins.Err? then Err(admins.error)
    else
      var built := LoadConfigCorrected(env, validate);
      assert built.Ok? ==> built.value.adminIds == admins.value;
      built
  }

  /**
   The loader with the corrected `ADMIN_IDS` parser, which skips a part
   `int()` cannot convert instead of raising.
   */
  function LoadConfigCorrected(env: Env, validate: bool): (r: Result<Settings, ConfigError>)
    ensures r.Ok? <==> (!validate || Validation(env) == []) && IntValues(env).Ok?
    ensures r.Err? && r.error.MissingVariables? ==> validate && r.error.names == Validation(env)
    ensures r.Err? && !r.error.MissingVariables? ==> IntValues(env) == Err(r.error)
    ensures r.Ok? ==> r.value == Build(env, IntValues(env).value) && r.value.adminIds == AdminIds(AdminIdsRaw(env))
  {
    var missing := Validation(env);
    if validate && missing != [] then Err(MissingVariables(missing))
    else
      match IntValues(env)
      case Err(e) => Err(e)
      case Ok(v) => Ok(Build(env, v))
  }

  /**
   The correction changes nothing where the loader as written succeeds, and
   where it differs the loader as written raises on `ADMIN_IDS` alone.
   */
  lemma CorrectionOnlyStopsAdminIdsRaise(env: Env, validate: bool)
    ensures LoadConfig(env, validate).Ok? ==> LoadConfigCorrected(env, validate) == LoadConfig(env, validate)
    ensures LoadConfig(env, validate) != LoadConfigCorrected(env, validate) ==>
      && AdminIdsAsWritten(AdminIdsRaw(env)).Err?
      && LoadConfig(env, validate) == Err(AdminIdsAsWritten(AdminIdsRaw(env)).error)
  {
  }

  /** `ADMIN_IDS="²"` alone stops the loader as written, while the corrected loader starts with no administrators. */
  lemma SuperscriptAdminIdStopsLoading()
    ensures LoadConfig(map["ADMIN_IDS" := "\U{B2}"], false).Err?
    ensures var r := LoadConfigCorrected(map["ADMIN_IDS" := "\U{B2}"], false); r.Ok? && r.value.adminIds == []
  {
    var env: Env := map["ADMIN_IDS" := "\U{B2}"];
    SuperscriptAdminIdRaises();
    assert AdminIdsRaw(env) == "\U{B2}";
    forall i | 0 <= i < |IntSettings| ensures IntSettings[i].0 !in env {
      assert IntSettings[i].0 != "ADMIN_IDS" by {
        assert IntSettings[i].0[0] != 'A';
      }
    }
    IntDefaults(env);
  }

  /** TLS as decided from the flag text and the chosen URL, before any setting is loaded. */
  lemma TlsFromTexts(flagText: string, url: string)
    ensures RedisSslEnabled(RedisSslFlag(flagText), url) <==>
      (var v := Lower(Strip(flagText)); v == "true" || v == "1" || v == "yes")
      || (|url| >= 9 && url[..9] == "rediss://")
    ensures url == DefaultRedisUrl ==> (RedisSslEnabled(RedisSslFlag(flagText), url) <==> RedisSslFlag(flagText))
  {
    if url == DefaultRedisUrl {
      assert url[..9][5] == ':' != "rediss://"[5];
    }
  }

  /**
   Redis TLS for loaded settings: on exactly when `REDIS_SSL` reads as true
   or the first non-blank Redis URL alias uses the `rediss://` scheme; with
   every alias blank the local default URL never turns it on.
   */
  lemma RedisTlsFromEnvironment(env: Env, validate: bool)
    requires LoadConfig(env, validate).Ok?
    ensures var s := LoadConfig(env, validate).value;
      RedisSslEnabled(s.redisSsl, s.redisUrl) <==>
        (var v := Lower(Strip(Getenv(env, "REDIS_SSL", ""))); v == "true" || v == "1" || v == "yes")
        || (|RedisUrl(env)| >= 9 && RedisUrl(env)[..9] == "rediss://")
    ensures var s := LoadConfig(env, validate).value;
      BlankBefore(env, RedisAliases, |RedisAliases|) ==> (RedisSslEnabled(s.redisSsl, s.redisUrl) <==> s.redisSsl)
  {
    var s := LoadConfig(env, validate).value;
    assert s.redisSsl == RedisSslFlag(Getenv(env, "REDIS_SSL", "")) && s.redisUrl == RedisUrl(env);
    TlsFromTexts(Getenv(env, "REDIS_SSL", ""), RedisUrl(env));
  }

  /**
   Because a blank secret has already become the placeholder, a configured
   webhook URL is reported exactly when the secret variable is blank or is
   the placeholder itself; the emptiness test in validation never fires.
   */
  lemma WebhookSecretRequiredWithUrl(env: Env)
    requires EnvValue(env, "TELEGRAM_WEBHOOK_URL") != ""
    ensures WebhookSecretVar in Validation(env)
      <==> EnvValue(env, "TELEGRAM_WEBHOOK_SECRET") in {"", DefaultWebhookSecret}
    ensures EnvValue(env, "TELEGRAM_WEBHOOK_SECRET") in {"", DefaultWebhookSecret} ==> LoadConfig(env, true).Err?
  {
    assert WebhookSecretVar in Validation(env) ==> Validation(env) != [];
  }

  /** The literal defaults are the decimal texts of their values. */
  lemma LiteralDefaults()
    ensures NatToString(3) == "3" && NatToString(2) == "2" && NatToString(8080) == "8080"
  {
    assert NatToString(80) == "80";
    assert NatToString(808) == "808";
  }

  /** Integer settings left unset take their documented defaults. */
  lemma IntDefaults(env: Env)
    requires forall i :: 0 <= i < |IntSettings| ==> IntSettings[i].0 !in env
    ensures ParseIntSettings(env, IntSettings) == Ok([3, 2, 3, 500, 300, 200, 8080])
  {
    var ns: seq<nat> := [3, 2, 3, 500, 300, 200, 8080];
    LiteralDefaults();
    forall i | 0 <= i < |IntSettings| ensures ParseInt(SettingText(env, IntSettings[i])) == Some(ns[i] as int) {
      assert SettingText(env, IntSettings[i]) == NatToString(ns[i]);
      ParseIntOfIntToString(ns[i]);
    }
    var r := ParseIntSettings(env, IntSettings);
    assert r.Ok?;
    assert |r.value| == 7;
    var expected: seq<int> := [3, 2, 3, 500, 300, 200, 8080];
    assert forall i :: 0 <= i < 7 ==> r.value[i] == ns[i] == expected[i];
    assert r.value == expected;
  }

  /** In an empty environment every variable reads as blank. */
  lemma EmptyEnvironmentBlank(names: seq<string>)
    ensures BlankBefore(map[], names, |names|)
  {
    assert Strip("") == "";
  }

  /** An empty environment loads without validation: no database URL, local Redis with the TLS flag off, no admins, the default limits. */
  lemma EmptyEnvironmentDefaults()
    ensures var r := LoadConfig(map[], false);
      && r.Ok? && r.value.databaseUrl == "" && r.value.redisUrl == DefaultRedisUrl
      && !r.value.redisSsl
      && r.value.adminIds == [] && r.value.webhookSecret == DefaultWebhookSecret
      && r.value.port == 8080 && r.value.maxGlobalQueue == 500
  {
    var env: Env := map[];
    IntDefaults(env);
    EmptyEnvironmentBlank(DatabaseAliases);
    EmptyEnvironmentBlank(RedisAliases);
    assert Strip("") == "" && Lower("") == "";
    var s := Build(env, [3, 2, 3, 500, 300, 200, 8080]);
    assert LoadConfig(env, false) == Ok(s);
    assert s.databaseUrl == "" && s.redisUrl == DefaultRedisUrl;
    assert !s.redisSsl && s.adminIds == [] && s.webhookSecret == DefaultWebhookSecret;
  }
}

=== FILE: config_env.dfy ===
/**
 The process environment as the start-up code reads it: a map from variable
 name to value, looked up with a default (`os.getenv`), alias lists, and the
 validation that lists missing or unsafe variables.
 */
module ConfigEnv {
  import opened Strings

  type Env = map<string, string>

  const DefaultWebhookSecret := "changeme"

  function Getenv(env: Env, name: string, default: string): string {
    if name in env then env[name] else default
  }

  /** `os.getenv(name, "").strip()`. */
  function EnvValue(env: Env, name: string): string {
    Strip(Getenv(env, name, ""))
  }

  /** The first `n` names all have blank values. */
  predicate BlankBefore(env: Env, names: seq<string>, n: int)
    requires n <= |names|
  {
    forall j :: 0 <= j < n ==> EnvValue(env, names[j]) == ""
  }

  /** The first alias with a non-blank value (stripped), else `default`. */
  function EnvFirst(env: Env, names: seq<string>, default: string): (r: string)
    ensures BlankBefore(env, names, |names|) ==> r == default
    ensures forall i ::
      (0 <= i < |names| && EnvValue(env, names[i]) != "" && BlankBefore(env, names, i)) ==> r == EnvValue(env, names[i])
    decreases |names|
  {
    if |names| == 0 then default
    else
      var v := EnvValue(env, names[0]);
      if v != "" then v
      else
        var r := EnvFirst(env, names[1..], default);
        assert forall i :: 1 <= i <= |names| ==> BlankBefore(env, names, i) == BlankBefore(env, names[1..], i - 1) by {
          forall i | 1 <= i <= |names| ensures BlankBefore(env, names, i) == BlankBefore(env, names[1..], i - 1) {
            assert forall j :: 1 <= j < i ==> names[j] == names[1..][j - 1];
          }
        }
        r
  }

  /** A blank alias is skipped: the lookup falls through to the next name. */
  lemma {:induction false} EnvFirstSkipsBlank(env: Env, name: string, rest: seq<string>, default: string)
    requires EnvValue(env, name) == ""
    ensures EnvFirst(env, [name] + rest, default) == EnvFirst(env, rest, default)
  {
    assert ([name] + rest)[1..] == rest;
  }

  /** The YooKassa credentials are both present. */
  predicate PaymentsConfigured(env: Env) {
    EnvValue(env, "YOOKASSA_SHOP_ID") != "" && EnvValue(env, "YOOKASSA_SECRET_KEY") != ""
  }

  /** A variable validation can report, each standing for its line in the start-up error. */
  datatype Missing = BotToken | DatabaseUrl | RedisUrl | ReplicateToken | WebhookSecretVar | YookassaWebhookSecret

  /** A webhook URL is configured but its secret is blank or still the placeholder. */
  predicate WebhookSecretRejected(webhookUrl: string, webhookSecret: string) {
    webhookUrl != "" && (webhookSecret == "" || webhookSecret == DefaultWebhookSecret)
  }

  /** Payments are configured but the secret that authenticates their notifications is not. */
  predicate PaymentsSecretMissing(env: Env) {
    PaymentsConfigured(env) && EnvValue(env, "YOOKASSA_WEBHOOK_SECRET") == ""
  }

  /** Whether validation reports `m`, given the resolved URLs and webhook secret. */
  predicate Flagged(env: Env, databaseUrl: string, redisUrl: string, webhookUrl: string, webhookSecret: string, m: Missing) {
    match m
    case BotToken => EnvValue(env, "TELEGRAM_BOT_TOKEN") == ""
    case DatabaseUrl => databaseUrl == ""
    case RedisUrl => redisUrl == ""
    case ReplicateToken => EnvValue(env, "REPLICATE_API_TOKEN") == ""
    case WebhookSecretVar => WebhookSecretRejected(webhookUrl, webhookSecret)
    case YookassaWebhookSecret => PaymentsSecretMissing(env)
  }

  /** Every reportable variable, in the order the checks run. */
  const ReportOrder: seq<Missing> := [BotToken, DatabaseUrl, RedisUrl, ReplicateToken, WebhookSecretVar, YookassaWebhookSecret]

  /** `a` is `b` with some elements left out and the rest in their original order. */
  predicate SubsequenceOf<T(==)>(a: seq<T>, b: seq<T>)
    decreases |b|
  {
    |a| == 0 || (|b| > 0 && if a[0] == b[0] then SubsequenceOf(a[1..], b[1..]) else SubsequenceOf(a, b[1..]))
  }

  /** The flagged variables among `candidates`, keeping their order. */
  function FlaggedAmong(env: Env, databaseUrl: string, redisUrl: string, webhookUrl: string, webhookSecret: string, candidates: seq<Missing>): (r: seq<Missing>)
    ensures forall m :: m in r <==> m in candidates && Flagged(env, databaseUrl, redisUrl, webhookUrl, webhookSecret, m)
    ensures |r| <= |candidates|
    ensures SubsequenceOf(r, candidates)
  {
    if |candidates| == 0 then []
    else
      var rest := FlaggedAmong(env, databaseUrl, redisUrl, webhookUrl, webhookSecret, candidates[1..]);
      assert forall m :: m in candidates <==> m == candidates[0] || m in candidates[1..];
      if Flagged(env, databaseUrl, redisUrl, webhookUrl, webhookSecret, candidates[0]) then
        assert ([candidates[0]] + rest)[1..] == rest;
        [candidates[0]] + rest
      else
        assert |rest| > 0 ==> rest[0] in rest && rest[0] != candidates[0];
        rest
  }

  /** A report never lists a later variable of the check order before an earlier one. */
  lemma ReportOrderIsKept()
    ensures !SubsequenceOf([RedisUrl, BotToken], ReportOrder)
    ensures SubsequenceOf([BotToken, RedisUrl], ReportOrder)
  {
    assert ReportOrder[1..][1..] == [RedisUrl, ReplicateToken, WebhookSecretVar, YookassaWebhookSecret];
  }

  /** The variables validation reports as missing or unsafe, in report order: exactly the flagged ones. */
  function CheckEnv(env: Env, databaseUrl: string, redisUrl: string, webhookUrl: string, webhookSecret: string): (missing: seq<Missing>)
    ensures forall m :: m in missing <==> Flagged(env, databaseUrl, redisUrl, webhookUrl, webhookSecret, m)
    ensures |missing| <= 6
    ensures SubsequenceOf(missing, ReportOrder)
  {
    FlaggedAmong(env, databaseUrl, redisUrl, webhookUrl, webhookSecret, ReportOrder)
  }
}

=== FILE: config_urls.dfy ===
/** Addresses derived from the loaded settings: the asyncpg database URL, Redis TLS, the webhook URL. */
module ConfigUrls {
  import opened Basics
  import opened Strings

  const AsyncScheme := "postgresql+asyncpg://"
  const WebhookPrefix := "/webhook/telegram/"

  /** The asyncpg form of the database URL: the two plain PostgreSQL schemes are rewritten, an asyncpg URL is kept, anything else is prefixed. */
  function AsyncDatabaseUrl(url: string): (r: string)
    ensures StartsWith(r, AsyncScheme)
    ensures StartsWith(url, "postgres://") ==> r == AsyncScheme + url[|"postgres://"|..]
    ensures StartsWith(url, "postgresql://") ==> r == AsyncScheme + url[|"postgresql://"|..]
    ensures StartsWith(url, AsyncScheme) ==> r == url
    ensures !StartsWith(url, "postgres://") && !StartsWith(url, "postgresql://") && !StartsWith(url, AsyncScheme)
      ==> r == AsyncScheme + url
  {
    SchemesExclusive(url);
    if StartsWith(url, "postgres://") then
      assert IndexOf(url, "postgres://") == Some(0);
      ReplaceFirst(url, "postgres://", AsyncScheme)
    else if StartsWith(url, "postgresql://") then
      assert IndexOf(url, "postgresql://") == Some(0);
      ReplaceFirst(url, "postgresql://", AsyncScheme)
    else if !StartsWith(url, AsyncScheme) then
      AsyncScheme + url
    else
      url
  }

  /** A URL starts with at most one of the three recognised schemes. */
  lemma SchemesExclusive(url: string)
    ensures StartsWith(url, "postgres://") ==> !StartsWith(url, "postgresql://") && !StartsWith(url, AsyncScheme)
    ensures StartsWith(url, "postgresql://") ==> !StartsWith(url, AsyncScheme)
  {
    if StartsWith(url, "postgres://") {
      assert url[8] == "postgres://"[8];
    }
    if StartsWith(url, "postgresql://") {
      assert url[10] == "postgresql://"[10];
    }
  }

  /** Converting an already converted URL changes nothing. */
  lemma AsyncDatabaseUrlIdempotent(url: string)
    ensures AsyncDatabaseUrl(AsyncDatabaseUrl(url)) == AsyncDatabaseUrl(url)
  {
    var r := AsyncDatabaseUrl(url);
    assert StartsWith(r, AsyncScheme);
    assert r[..|"postgres://"|] != "postgres://" by { assert r[8] == AsyncScheme[8]; }
    assert r[..|"postgresql://"|] != "postgresql://" by { assert r[10] == AsyncScheme[10]; }
  }

  /** TLS for Redis: the explicit flag or the `rediss://` scheme. */
  function RedisSslEnabled(flag: bool, redisUrl: string): (r: bool)
    ensures r <==> flag || (|redisUrl| >= 9 && redisUrl[..9] == "rediss://")
  {
    flag || StartsWith(redisUrl, "rediss://")
  }

  function WebhookPath(secret: string): string {
    WebhookPrefix + secret
  }

  /** The public webhook address: the base without trailing slashes, then the secret path. */
  function FullWebhookUrl(base: string, secret: string): (r: string)
    ensures exists k ::
      && 0 <= k <= |base| && r == base[..k] + WebhookPrefix + secret
      && (k == 0 || base[k - 1] != '/')
      && (forall i :: k <= i < |base| ==> base[i] == '/')
  {
    var b := RStripChar(base, '/');
    assert b == base[..|b|];
    b + WebhookPath(secret)
  }

  /** Trailing slashes on the base never reach the URL: the path is joined with exactly one slash. */
  lemma FullWebhookUrlIgnoresTrailingSlash(base: string, secret: string)
    ensures FullWebhookUrl(base + "/", secret) == FullWebhookUrl(base, secret)
  {
    assert (base + "/")[..|base|] == base;
  }
}

=== FILE: config_values.dfy ===
/** The parsers the loader applies to individual variables: `int()`, the TLS flag and the admin id list. */
module ConfigValues {
  import opened Basics
  import opened Strings
  import opened ConfigEnv

  /** Validation's `RuntimeError` (naming each missing variable) or `int()`'s `ValueError`. */
  datatype ConfigError = MissingVariables(names: seq<Missing>) | InvalidInteger(name: string)


  predicate AsciiDigits(s: string) {
    |s| > 0 && forall i :: 0 <= i < |s| ==> IsAsciiDigit(s[i])
  }

  /**
   `int(s)` on text: surrounding whitespace, an optional sign, then ASCII
   digits; `None` is the `ValueError`.
   */
  function ParseInt(s: string): (r: Option<int>)
    ensures r.Some? ==> |Strip(s)| > 0 && IsAsciiDigit(Strip(s)[|Strip(s)| - 1])
    ensures r.Some? && r.value < 0 ==> Strip(s)[0] == '-'
    ensures AsciiDigits(Strip(s)) ==> r == Some(DigitsValue(Strip(s)) as int)
    ensures r.Some? <==>
      AsciiDigits(Strip(s)) || (|Strip(s)| > 0 && Strip(s)[0] in "+-" && AsciiDigits(Strip(s)[1..]))
    ensures |Strip(s)| > 0 && Strip(s)[0] in "+-" && AsciiDigits(Strip(s)[1..]) ==>
      r == Some(if Strip(s)[0] == '-' then -(DigitsValue(Strip(s)[1..]) as int) else DigitsValue(Strip(s)[1..]) as int)
  {
    var t := Strip(s);
    if |t| > 0 && (t[0] == '+' || t[0] == '-') then
      var d := t[1..];
      if AsciiDigits(d) then
        var v: int := DigitsValue(d);
        assert t[|t| - 1] == d[|d| - 1];
        Some(if t[0] == '-' then -v else v)
      else None
    else if AsciiDigits(t) then Some(DigitsValue(t) as int)
    else None
  }

  /** `int(str(i)) == i`. */
  lemma ParseIntOfIntToString(i: int)
    ensures ParseInt(IntToString(i)) == Some(i)
  {
    var s := IntToString(i);
    if i < 0 {
      var d := NatToString(-i);
      StripFixed(s);
      assert s[1..] == d;
      DigitsValueOfNatToString(-i);
    } else {
      StripFixed(s);
      DigitsValueOfNatToString(i);
    }
  }

  /** `REDIS_SSL` after strip and lower, against the accepted spellings of "on". */
  function RedisSslFlag(raw: string): (r: bool)
    ensures var v := Lower(Strip(raw)); r <==> v == "true" || v == "1" || v == "yes"
  {
    Lower(Strip(raw)) in ["true", "1", "yes"]
  }

  /** Blanks around the flag do not matter: a leading space leaves the decision unchanged. */
  lemma RedisSslFlagIgnoresLeadingBlank(raw: string)
    ensures RedisSslFlag(" " + raw) == RedisSslFlag(raw)
  {
    assert (" " + raw)[1..] == raw;
  }

  // ---------------------------------------------------------------------------
  // ADMIN_IDS
  // ---------------------------------------------------------------------------

  /**
   Characters Python's `str.isdigit` accepts that are not decimal digits, so
   `int()` refuses them: superscripts, subscripts and circled digits.
   */
  predicate IsNonDecimalDigit(c: char) {
    || c == '\U{B2}' || c == '\U{B3}' || c == '\U{B9}' || c == '\U{2070}'
    || ('\U{2074}' <= c <= '\U{2079}')
    || ('\U{2080}' <= c <= '\U{2089}')
    || ('\U{2460}' <= c <= '\U{2468}')
  }

  /** `s.isdigit()`. */
  predicate PyIsDigit(s: string) {
    |s| > 0 && forall i :: 0 <= i < |s| ==> IsAsciiDigit(s[i]) || IsNonDecimalDigit(s[i])
  }

  /** The ids the corrected parser keeps from the comma-separated parts: those that are ASCII digits once stripped, in order. */
  function AdminParts(parts: seq<string>): (r: seq<int>)
    ensures |r| <= |parts|
    ensures forall k :: 0 <= k < |r| ==> r[k] >= 0
    ensures (forall i :: 0 <= i < |parts| ==> AsciiDigits(Strip(parts[i])))
      ==> |r| == |parts| && forall i :: 0 <= i < |parts| ==> r[i] == DigitsValue(Strip(parts[i]))
    decreases |parts|
  {
    if |parts| == 0 then []
    else
      var p := Strip(parts[0]);
      var rest := AdminParts(parts[1..]);
      assert forall i :: 1 <= i < |parts| ==> parts[i] == parts[1..][i - 1];
      if AsciiDigits(p) then [DigitsValue(p) as int] + rest else rest
  }

  /** `ADMIN_IDS` as it is meant to be read: blank text gives no ids, otherwise the numeric parts. */
  function AdminIds(raw: string): (r: seq<int>)
    ensures Strip(raw) == "" ==> r == []
    ensures forall k :: 0 <= k < |r| ==> r[k] >= 0
  {
    if Strip(raw) == "" then [] else AdminParts(Split(raw, ','))
  }

  /** The decimal texts of a list of ids. */
  function IdTexts(ids: seq<nat>): (r: seq<string>)
    ensures |r| == |ids|
  {
    if |ids| == 0 then [] else [NatToString(ids[0])] + IdTexts(ids[1..])
  }

  /** The comma-separated decimal text of a list of ids. */
  function IdsText(ids: seq<nat>): string {
    Join(IdTexts(ids), ',')
  }

  /** `str(n)` is digits only: its own `strip()`, free of commas, and read back as `n`. */
  lemma IdTextFacts(n: nat)
    ensures Strip(NatToString(n)) == NatToString(n) && AsciiDigits(NatToString(n))
    ensures ',' !in NatToString(n) && DigitsValue(NatToString(n)) == n
  {
    var s := NatToString(n);
    assert IsAsciiDigit(s[0]) && IsAsciiDigit(s[|s| - 1]);
    StripFixed(s);
    DigitsValueOfNatToString(n);
  }

  lemma {:induction false} IdTextsCommaFree(ids: seq<nat>)
    ensures forall i :: 0 <= i < |ids| ==> ',' !in IdTexts(ids)[i]
    decreases |ids|
  {
    if |ids| > 0 {
      IdTextsCommaFree(ids[1..]);
      IdTextFacts(ids[0]);
      var parts := IdTexts(ids);
      forall i | 1 <= i < |ids| ensures ',' !in parts[i] {
        assert parts[i] == IdTexts(ids[1..])[i - 1];
      }
    }
  }

  lemma {:induction false} AdminPartsOfIdTexts(ids: seq<nat>)
    ensures AdminParts(IdTexts(ids)) == ids
    decreases |ids|
  {
    if |ids| > 0 {
      AdminPartsOfIdTexts(ids[1..]);
      IdTextFacts(ids[0]);
      var parts := IdTexts(ids);
      assert parts[1..] == IdTexts(ids[1..]);
      assert [ids[0]] + ids[1..] == ids;
    }
  }

  /** Writing ids out comma-separated and loading them back gives the same ids. */
  lemma AdminIdsRoundTrip(ids: seq<nat>)
    ensures AdminIds(IdsText(ids)) == ids
  {
    if |ids| > 0 {
      var parts := IdTexts(ids);
      AdminPartsOfIdTexts(ids);
      IdTextsCommaFree(ids);
      SplitOfJoin(parts, ',');
      IdTextFacts(ids[0]);
      var t := IdsText(ids);
      assert t[0] == parts[0][0] by {
        assert t == parts[0] || t == parts[0] + [','] + Join(parts[1..], ',');
      }
      assert !IsSpace(t[0]);
      assert LStrip(t) == t;
      RStripKeepsHead(t);
    }
  }

  /**
   The loop as written: a stripped part passing `isdigit()` is handed to
   `int()`, which raises on a non-decimal digit.
   */
  function AdminPartsAsWritten(parts: seq<string>): (r: Result<seq<int>, ConfigError>)
    ensures r.Err? <==> exists i :: 0 <= i < |parts| && PyIsDigit(Strip(parts[i])) && !AsciiDigits(Strip(parts[i]))
    ensures r.Ok? ==> r.value == AdminParts(parts)
    ensures r.Err? ==> r.error == InvalidInteger("ADMIN_IDS")
    decreases |parts|
  {
    if |parts| == 0 then Ok([])
    else
      var p := Strip(parts[0]);
      var rest := AdminPartsAsWritten(parts[1..]);
      assert forall i :: 1 <= i < |parts| ==> parts[i] == parts[1..][i - 1];
      if PyIsDigit(p) then
        if AsciiDigits(p) then
          match rest
          case Ok(ids) => Ok([DigitsValue(p) as int] + ids)
          case Err(e) => Err(e)
        else Err(InvalidInteger("ADMIN_IDS"))
      else rest
  }

  function AdminIdsAsWritten(raw: string): (r: Result<seq<int>, ConfigError>)
    ensures r.Ok? ==> r.value == AdminIds(raw)
    ensures r.Err? <==> Strip(raw) != "" && exists p :: p in Split(raw, ',') && PyIsDigit(Strip(p)) && !AsciiDigits(Strip(p))
    ensures r.Err? ==> r.error == InvalidInteger("ADMIN_IDS")
  {
    if Strip(raw) == "" then Ok([]) else AdminPartsAsWritten(Split(raw, ','))
  }

  /** A superscript two among the ids makes the loop as written raise, while the corrected parser skips it. */
  lemma SuperscriptAdminIdRaises()
    ensures AdminIdsAsWritten("\U{B2}").Err?
    ensures AdminIds("\U{B2}") == []
  {
    var raw := "\U{B2}";
    StripFixed(raw);
    SplitWithoutSeparator(raw, ',');
    assert Split(raw, ',') == [raw];
    assert PyIsDigit(Strip(raw)) && !AsciiDigits(Strip(raw));
  }

  // ---------------------------------------------------------------------------
  // Integer settings
  // ---------------------------------------------------------------------------

  /** The text `int()` receives for a setting given as (variable, default text). */
  function SettingText(env: Env, spec: (string, string)): string {
    Getenv(env, spec.0, spec.1)
  }

  predicate SettingParses(env: Env, spec: (string, string)) {
    ParseInt(SettingText(env, spec)).Some?
  }

  /** Setting `i` is the first one `int()` rejects. */
  predicate FirstFailure(env: Env, specs: seq<(string, string)>, i: int) {
    && 0 <= i < |specs|
    && !SettingParses(env, specs[i])
    && forall j :: 0 <= j < i ==> SettingParses(env, specs[j])
  }

  /** Behind a setting that parses, the first failure of the rest is the first failure of the whole. */
  lemma FirstFailureShifts(env: Env, specs: seq<(string, string)>)
    requires |specs| > 0 && SettingParses(env, specs[0])
    ensures forall i :: FirstFailure(env, specs[1..], i) ==> FirstFailure(env, specs, i + 1)
  {
    forall i | FirstFailure(env, specs[1..], i) ensures FirstFailure(env, specs, i + 1) {
      forall j | 0 <= j < i + 1 ensures SettingParses(env, specs[j]) {
        if j > 0 {
          assert specs[j] == specs[1..][j - 1];
        }
      }
      assert specs[i + 1] == specs[1..][i];
    }
  }

  /** Converts each integer setting in order; the first that `int()` rejects is the error. */
  function ParseIntSettings(env: Env, specs: seq<(string, string)>): (r: Result<seq<int>, ConfigError>)
    ensures r.Ok? <==> forall i :: 0 <= i < |specs| ==> SettingParses(env, specs[i])
    ensures r.Ok? ==> |r.value| == |specs|
    ensures r.Ok? ==> forall i :: 0 <= i < |specs| ==> ParseInt(SettingText(env, specs[i])) == Some(r.value[i])
    ensures r.Err? ==> exists i :: FirstFailure(env, specs, i) && r.error == InvalidInteger(specs[i].0)
    decreases |specs|
  {
    if |specs| == 0 then Ok([])
    else
      match ParseInt(SettingText(env, specs[0]))
      case None =>
        assert FirstFailure(env, specs, 0);
        Err(InvalidInteger(specs[0].0))
      case Some(v) =>
        match ParseIntSettings(env, specs[1..])
        case Ok(vs) =>
          var r := [v] + vs;
          assert forall i :: 0 < i < |specs| ==> specs[i] == specs[1..][i - 1] && r[i] == vs[i - 1];
          Ok(r)
        case Err(e) =>
          FirstFailureShifts(env, specs);
          var k :| FirstFailure(env, specs[1..], k) && e == InvalidInteger(specs[1..][k].0);
          assert FirstFailure(env, specs, k + 1) && specs[1..][k] == specs[k + 1];
          Err(e)
  }
}

=== FILE: db_url.dfy ===
/**
 Preparing the database URL for the asyncpg driver.

 The driver refuses a `sslmode` keyword, so the query's `sslmode` and `ssl`
 parameters are taken out of the URL and turned into one boolean `ssl`
 connect argument, with a plain-TCP default for private Railway hosts. The
 URL arrives already split (`urlsplit`, `parse_qsl`); its query is the list
 of (name, value) pairs in order.
 */
module DbUrl {
  import opened Basics
  import opened Strings

  type Pairs = seq<(string, string)>

  datatype UrlParts = UrlParts(scheme: string, netloc: string, path: string, query: Pairs, fragment: string, hostname: Option<string>)

  // ---------------------------------------------------------------------------
  // The query as a Python dict
  // ---------------------------------------------------------------------------

  predicate UniqueKeys(d: Pairs) {
    forall i, j :: 0 <= i < j < |d| ==> d[i].0 != d[j].0
  }

  /** `d.get(k)`. */
  function Get(d: Pairs, k: string): (r: Option<string>)
    ensures r.None? <==> forall i :: 0 <= i < |d| ==> d[i].0 != k
  {
    if |d| == 0 then None
    else if d[0].0 == k then Some(d[0].1)
    else
      var r := Get(d[1..], k);
      assert forall i :: 0 <= i < |d| - 1 ==> d[1..][i] == d[i + 1];
      r
  }

  lemma GetCons(p: (string, string), rest: Pairs, k: string)
    ensures Get([p] + rest, k) == if p.0 == k then Some(p.1) else Get(rest, k)
  {
    assert ([p] + rest)[1..] == rest;
  }

  lemma UniqueTail(d: Pairs)
    requires UniqueKeys(d) && |d| > 0
    ensures UniqueKeys(d[1..])
  {
    var tail := d[1..];
    forall i, j | 0 <= i < j < |tail| ensures tail[i].0 != tail[j].0 {
      assert tail[i] == d[i + 1] && tail[j] == d[j + 1];
    }
  }

  lemma UniqueCons(p: (string, string), rest: Pairs)
    requires UniqueKeys(rest) && Get(rest, p.0).None?
    ensures UniqueKeys([p] + rest)
  {
    var d := [p] + rest;
    forall i, j | 0 <= i < j < |d| ensures d[i].0 != d[j].0 {
      if i > 0 {
        assert d[i] == rest[i - 1] && d[j] == rest[j - 1];
      } else {
        assert d[j] == rest[j - 1];
      }
    }
  }

  /** The value a dict built from `pairs` keeps for `k`: the last one given. */
  function LastValue(pairs: Pairs, k: string): Option<string> {
    if |pairs| == 0 then None
    else if pairs[|pairs| - 1].0 == k then Some(pairs[|pairs| - 1].1)
    else LastValue(pairs[..|pairs| - 1], k)
  }

  /** `d[k] = v`: an existing key keeps its place and takes the new value; a new key goes last. */
  function Put(d: Pairs, k: string, v: string): (r: Pairs)
    requires UniqueKeys(d)
    ensures UniqueKeys(r)
    ensures Get(r, k) == Some(v)
    ensures forall k' :: k' != k ==> Get(r, k') == Get(d, k')
    decreases |d|
  {
    if |d| == 0 then [(k, v)]
    else
      var head, tail := d[0], d[1..];
      assert d == [head] + tail;
      UniqueTail(d);
      assert forall k' :: Get(d, k') == if head.0 == k' then Some(head.1) else Get(tail, k') by {
        forall k' ensures Get(d, k') == if head.0 == k' then Some(head.1) else Get(tail, k') {
          GetCons(head, tail, k');
        }
      }
      assert Get(tail, head.0).None? by {
        forall i | 0 <= i < |tail| ensures tail[i].0 != head.0 {
          assert tail[i] == d[i + 1];
        }
      }
      if head.0 == k then
        UniqueCons((k, v), tail);
        forall k' ensures Get([(k, v)] + tail, k') == if k == k' then Some(v) else Get(tail, k') {
          GetCons((k, v), tail, k');
        }
        [(k, v)] + tail
      else
        var rest := Put(tail, k, v);
        UniqueCons(head, rest);
        forall k' ensures Get([head] + rest, k') == if head.0 == k' then Some(head.1) else Get(rest, k') {
          GetCons(head, rest, k');
        }
        [head] + rest
  }

  /** The keys of a list of pairs, in order. */
  function KeysOf(d: Pairs): (ks: seq<string>)
    ensures |ks| == |d|
  {
    if |d| == 0 then [] else [d[0].0] + KeysOf(d[1..])
  }

  lemma {:induction false} KeysOfSnoc(a: Pairs, p: (string, string))
    ensures KeysOf(a + [p]) == KeysOf(a) + [p.0]
    decreases |a|
  {
    if |a| > 0 {
      assert (a + [p])[1..] == a[1..] + [p];
      KeysOfSnoc(a[1..], p);
    }
  }

  /** The distinct elements of `ks`, each at the place of its first occurrence. */
  function FirstOccurrences(ks: seq<string>): seq<string> {
    if |ks| == 0 then []
    else
      var before := FirstOccurrences(ks[..|ks| - 1]);
      if ks[|ks| - 1] in before then before else before + [ks[|ks| - 1]]
  }

  /** Storing under a present key keeps the key order; a new key goes last. */
  lemma {:induction false} PutKeyOrder(d: Pairs, k: string, v: string)
    requires UniqueKeys(d)
    ensures KeysOf(Put(d, k, v)) == if k in KeysOf(d) then KeysOf(d) else KeysOf(d) + [k]
    decreases |d|
  {
    if |d| > 0 {
      UniqueTail(d);
      PutUnfold(d, k, v);
      if d[0].0 == k {
        KeysOfCons((k, v), d[1..]);
        KeysOfCons(d[0], d[1..]);
        assert d == [d[0]] + d[1..];
      } else {
        PutKeyOrder(d[1..], k, v);
        KeyOrderStep(d[0], d[1..], Put(d[1..], k, v), k);
        assert d == [d[0]] + d[1..];
      }
    }
  }

  /** The inductive step of `PutKeyOrder`, over the keys alone. */
  lemma KeyOrderStep(head: (string, string), tail: Pairs, put: Pairs, k: string)
    requires head.0 != k
    requires KeysOf(put) == if k in KeysOf(tail) then KeysOf(tail) else KeysOf(tail) + [k]
    ensures KeysOf([head] + put)
         == if k in KeysOf([head] + tail) then KeysOf([head] + tail) else KeysOf([head] + tail) + [k]
  {
    KeysOfCons(head, tail);
    KeysOfCons(head, put);
  }

  /** One step of `Put`: the head key is overwritten in place, or the key is put into the tail. */
  lemma PutUnfold(d: Pairs, k: string, v: string)
    requires UniqueKeys(d) && |d| > 0
    ensures UniqueKeys(d[1..])
    ensures Put(d, k, v) == if d[0].0 == k then [(k, v)] + d[1..] else [d[0]] + Put(d[1..], k, v)
  {
    UniqueTail(d);
  }

  lemma KeysOfCons(p: (string, string), rest: Pairs)
    ensures KeysOf([p] + rest) == [p.0] + KeysOf(rest)
  {
    assert ([p] + rest)[1..] == rest;
  }

  lemma {:induction false} FirstOccurrencesHas(ks: seq<string>, k: string)
    ensures k in FirstOccurrences(ks) <==> k in ks
  {
    if |ks| > 0 {
      FirstOccurrencesHas(ks[..|ks| - 1], k);
      assert ks == ks[..|ks| - 1] + [ks[|ks| - 1]];
    }
  }

  /** `dict(pairs)`: each key keeps its first position and takes its last value. */
  function ToDict(pairs: Pairs): (d: Pairs)
    ensures UniqueKeys(d)
    ensures forall k :: Get(d, k) == LastValue(pairs, k)
    ensures KeysOf(d) == FirstOccurrences(KeysOf(pairs))
  {
    if |pairs| == 0 then []
    else
      var last := pairs[|pairs| - 1];
      var init := pairs[..|pairs| - 1];
      assert pairs == init + [last];
      KeysOfSnoc(init, last);
      FirstOccurrencesHas(KeysOf(init), last.0);
      PutKeyOrder(ToDict(init), last.0, last.1);
      Put(ToDict(init), last.0, last.1)
  }

  /** `d.pop(k, None)`: the value held for `k`, and the dict without it. */
  function Pop(d: Pairs, k: string): (r: (Option<string>, Pairs))
    requires UniqueKeys(d)
    ensures r.0 == Get(d, k)
    ensures UniqueKeys(r.1) && Get(r.1, k).None?
    ensures forall k' :: k' != k ==> Get(r.1, k') == Get(d, k')
    decreases |d|
  {
    if |d| == 0 then (None, d)
    else
      var head, tail := d[0], d[1..];
      assert d == [head] + tail;
      assert UniqueKeys(tail) by {
        forall i, j | 0 <= i < j < |tail| ensures tail[i].0 != tail[j].0 {
          assert tail[i] == d[i + 1] && tail[j] == d[j + 1];
        }
      }
      assert forall k' :: Get(d, k') == if head.0 == k' then Some(head.1) else Get(tail, k') by {
        forall k' ensures Get(d, k') == if head.0 == k' then Some(head.1) else Get(tail, k') {
          GetCons(head, tail, k');
        }
      }
      assert Get(tail, head.0).None? by {
        forall i | 0 <= i < |tail| ensures tail[i].0 != head.0 {
          assert tail[i] == d[i + 1];
        }
      }
      if head.0 == k then (Some(head.1), tail)
      else
        var rest := Pop(tail, k);
        UniqueCons(head, rest.1);
        forall k' ensures Get([head] + rest.1, k') == if head.0 == k' then Some(head.1) else Get(rest.1, k') {
          GetCons(head, rest.1, k');
        }
        (rest.0, [head] + rest.1)
  }

  // ---------------------------------------------------------------------------
  // The ssl decision
  // ---------------------------------------------------------------------------

  /** `sslmode` values, after strip and lower, that mean plain TCP. */
  predicate ModeMeansOff(v: string) {
    v == "disable" || v == "allow" || v == "prefer"
  }

  /** What `sslmode` decides: off for disable/allow/prefer, on for require, nothing otherwise (an absent or empty value included). */
  function SslModeDecision(sslmode: Option<string>): (r: Option<bool>)
    ensures sslmode.None? || sslmode == Some("") ==> r.None?
    ensures sslmode.Some? && sslmode.value != "" ==>
      (r == Some(false) <==> ModeMeansOff(Lower(Strip(sslmode.value))))
      && (r == Some(true) <==> Lower(Strip(sslmode.value)) == "require")
  {
    match sslmode
    case None => None
    case Some(s) =>
      if s == "" then None
      else
        var v := Lower(Strip(s));
        if ModeMeansOff(v) then Some(false)
        else if v == "require" then Some(true)
        else None
  }

  predicate ParamMeansOff(v: string) {
    v == "0" || v == "false" || v == "no" || v == "off" || v == "disable"
  }

  predicate ParamMeansOn(v: string) {
    v == "1" || v == "true" || v == "yes" || v == "on" || v == "require"
  }

  /** The `ssl=` parameter, consulted only while nothing is decided yet. */
  function SslParamDecision(ssl: Option<string>, decided: Option<bool>): (r: Option<bool>)
    ensures decided.Some? || ssl.None? ==> r == decided
    ensures decided.None? && ssl.Some? ==>
      (r == Some(false) <==> ParamMeansOff(Lower(Strip(ssl.value))))
      && (r == Some(true) <==> ParamMeansOn(Lower(Strip(ssl.value))))
  {
    if ssl.Some? && decided.None? then
      var v := Lower(Strip(ssl.value));
      if ParamMeansOff(v) then Some(false)
      else if ParamMeansOn(v) then Some(true)
      else None
    else decided
  }

  predicate IsRailwayInternal(host: string) {
    Contains(host, "railway.internal")
  }

  /** The private-network default: plain TCP for Railway internal hosts when nothing else decided. */
  function HostDefault(host: string, decided: Option<bool>): (r: Option<bool>)
    ensures decided.Some? ==> r == decided
    ensures decided.None? ==> (r == Some(false) <==> IsRailwayInternal(host)) && (r.None? <==> !IsRailwayInternal(host))
  {
    if IsRailwayInternal(host) && decided.None? then Some(false) else decided
  }

  /** The cleaned URL and the `ssl` connect argument (`None` when the argument is left out). */
  datatype EngineUrl = EngineUrl(url: UrlParts, ssl: Option<bool>)

  function BuildEngineUrl(parts: UrlParts): (r: EngineUrl)
    ensures r.url == parts.(query := r.url.query)
    ensures UniqueKeys(r.url.query)
    ensures Get(r.url.query, "sslmode").None? && Get(r.url.query, "ssl").None?
    ensures forall k :: k != "sslmode" && k != "ssl" ==> Get(r.url.query, k) == LastValue(parts.query, k)
    ensures r.ssl == HostDefault(parts.hostname.GetOr(""),
      SslParamDecision(LastValue(parts.query, "ssl"), SslModeDecision(LastValue(parts.query, "sslmode"))))
  {
    var query := ToDict(parts.query);
    var (sslmode, q1) := Pop(query, "sslmode");
    var (ssl, q2) := Pop(q1, "ssl");
    assert "ssl" != "sslmode";
    assert sslmode == LastValue(parts.query, "sslmode");
    assert ssl == Get(query, "ssl") == LastValue(parts.query, "ssl");
    assert Get(q2, "sslmode") == Get(q1, "sslmode");
    var decided := SslParamDecision(ssl, SslModeDecision(sslmode));
    var host := parts.hostname.GetOr("");
    EngineUrl(parts.(query := q2), HostDefault(host, decided))
  }

  // ---------------------------------------------------------------------------
  // Properties of the decision
  // ---------------------------------------------------------------------------

  /** A decisive `sslmode` fixes the connect argument, whatever `ssl=` and the host say. */
  lemma SslModeWins(parts: UrlParts)
    requires SslModeDecision(LastValue(parts.query, "sslmode")).Some?
    ensures BuildEngineUrl(parts).ssl == SslModeDecision(LastValue(parts.query, "sslmode"))
  {
  }

  /** Without a decisive `sslmode`, a recognised `ssl=` value decides. */
  lemma SslParamDecidesOtherwise(parts: UrlParts)
    requires SslModeDecision(LastValue(parts.query, "sslmode")).None?
    requires LastValue(parts.query, "ssl").Some?
    requires var v := Lower(Strip(LastValue(parts.query, "ssl").value)); ParamMeansOff(v) || ParamMeansOn(v)
    ensures BuildEngineUrl(parts).ssl == Some(ParamMeansOn(Lower(Strip(LastValue(parts.query, "ssl").value))))
  {
  }

  /** The Railway default applies exactly when neither parameter decided. */
  lemma RailwayDefaultOnlyWhenUnset(parts: UrlParts)
    requires IsRailwayInternal(parts.hostname.GetOr(""))
    ensures var mode := SslModeDecision(LastValue(parts.query, "sslmode"));
      var decided := SslParamDecision(LastValue(parts.query, "ssl"), mode);
      BuildEngineUrl(parts).ssl == (if decided.None? then Some(false) else decided)
  {
  }

  /** Stricter libpq modes are not recognised: `sslmode=verify-full` decides nothing and leaves TLS to `ssl=` or the host default. */
  lemma VerifyFullDecidesNothing()
    ensures SslModeDecision(Some("verify-full")) == None
  {
    var v := "verify-full";
    StripFixed(v);
    LowerFixed(v);
  }

  /** A URL already cleaned has no parameter left to decide, and cleaning it again changes nothing. */
  lemma CleaningIsIdempotent(parts: UrlParts)
    ensures var once := BuildEngineUrl(parts);
      var twice := BuildEngineUrl(once.url);
      twice.url == once.url && twice.ssl == HostDefault(parts.hostname.GetOr(""), None)
  {
    var once := BuildEngineUrl(parts);
    var q := once.url.query;
    DictOfDict(q);
    PopAbsent(q, "sslmode");
    PopAbsent(q, "ssl");
    var twice := BuildEngineUrl(once.url);
    assert twice.url.query == q;
  }

  /** Popping a key the dict does not hold returns nothing and leaves the dict as it was. */
  lemma {:induction false} PopAbsent(d: Pairs, k: string)
    requires UniqueKeys(d) && Get(d, k).None?
    ensures Pop(d, k) == (None, d)
    decreases |d|
  {
    if |d| > 0 {
      assert d[0] == d[0] && d == [d[0]] + d[1..];
      GetCons(d[0], d[1..], k);
      assert UniqueKeys(d[1..]) by {
        forall i, j | 0 <= i < j < |d[1..]| ensures d[1..][i].0 != d[1..][j].0 {
          assert d[1..][i] == d[i + 1] && d[1..][j] == d[j + 1];
        }
      }
      PopAbsent(d[1..], k);
    }
  }

  /** The last value a dict without repeated keys gives a key is the one `get` finds. */
  lemma {:induction false} LastValueOfDict(d: Pairs, k: string)
    requires UniqueKeys(d)
    ensures LastValue(d, k) == Get(d, k)
    decreases |d|
  {
    if |d| > 0 {
      var init := d[..|d| - 1];
      LastValueOfDict(init, k);
      GetAppend(init, d[|d| - 1], k);
      assert init + [d[|d| - 1]] == d;
    }
  }

  lemma {:induction false} GetAppend(d: Pairs, p: (string, string), k: string)
    requires UniqueKeys(d + [p])
    ensures Get(d + [p], k) == (if p.0 == k then Some(p.1) else Get(d, k))
    decreases |d|
  {
    if |d| > 0 {
      assert (d + [p])[1..] == d[1..] + [p];
      assert (d + [p])[0] == d[0];
      GetAppend(d[1..], p, k);
    } else {
      assert d + [p] == [p];
    }
  }

  /** Turning a dict's items back into a dict gives the same dict. */
  lemma {:induction false} DictOfDict(d: Pairs)
    requires UniqueKeys(d)
    ensures ToDict(d) == d
    decreases |d|
  {
    if |d| > 0 {
      var init := d[..|d| - 1];
      DictOfDict(init);
      PutNewKey(init, d[|d| - 1].0, d[|d| - 1].1);
      assert init + [d[|d| - 1]] == d;
    }
  }

  /** Putting a key the dict does not hold appends it. */
  lemma {:induction false} PutNewKey(d: Pairs, k: string, v: string)
    requires UniqueKeys(d) && forall i :: 0 <= i < |d| ==> d[i].0 != k
    ensures Put(d, k, v) == d + [(k, v)]
    decreases |d|
  {
    if |d| > 0 {
      UniqueTail(d);
      assert d[0].0 != k;
      assert Put(d, k, v) == [d[0]] + Put(d[1..], k, v);
      PutNewKey(d[1..], k, v);
      assert [d[0]] + (d[1..] + [(k, v)]) == d + [(k, v)];
    }
  }
}

=== FILE: generations.dfy ===
/** Generation rows and the charge and refund that belong to one generation request. */
module Generations {
  import opened Basics
  import opened Schema
  import opened Ledger

  const StatusPending := "pending"

  datatype GenerationError =
    | DuplicateRequestId   // `generations.request_id` is unique
    | MissingUser          // `generations.user_id` references `users.id`

  /** Auto-increment ids: every stored generation id is below the next one handed out. */
  predicate GenerationsNumbered(db: Db) {
    forall id :: id in db.generations ==> id < db.nextGenerationId
  }

  predicate RequestIdUsed(db: Db, requestId: string) {
    exists id :: id in db.generations && db.generations[id].requestId == requestId
  }

  /** Insert a pending generation row and return its new id. */
  function CreateGeneration(db: Db, userId: int, prompt: Option<string>, tariff: string, cost: int, requestId: string)
    : (r: Result<(int, Db), GenerationError>)
    requires GenerationsNumbered(db)
    ensures r.Err? <==> userId !in db.users || RequestIdUsed(db, requestId)
    ensures r.Ok? ==>
      var (id, d) := r.value;
      && id !in db.generations
      && d.generations.Keys == db.generations.Keys + {id}
      && (forall g :: g in db.generations ==> d.generations[g] == db.generations[g])
      && d.generations[id] == GenerationRow(requestId, userId, tariff, prompt, cost, StatusPending, None)
      && GenerationsNumbered(d)
      && d.users == db.users && d.ledger == db.ledger && d.payments == db.payments
  {
    if userId !in db.users then Err(MissingUser)
    else if RequestIdUsed(db, requestId) then Err(DuplicateRequestId)
    else
      var id := db.nextGenerationId;
      Ok((id, db.(generations := db.generations[id := GenerationRow(requestId, userId, tariff, prompt, cost, StatusPending, None)],
                  nextGenerationId := id + 1)))
  }

  /** Set the final status and completion time of a generation; an unknown id changes nothing. */
  function CompleteGeneration(db: Db, generationId: int, status: string, now: int): (d: Db)
    ensures generationId !in db.generations ==> d == db
    ensures generationId in db.generations ==>
      && d.generations.Keys == db.generations.Keys
      && d.generations[generationId].status == status
      && d.generations[generationId].completedAt == Some(now)
      && d.generations[generationId].requestId == db.generations[generationId].requestId
      && d.generations[generationId].cost == db.generations[generationId].cost
      && (forall g :: g in db.generations && g != generationId ==> d.generations[g] == db.generations[g])
    ensures d.users == db.users && d.ledger == db.ledger && d.payments == db.payments
  {
    if generationId in db.generations then
      db.(generations := db.generations[generationId := db.generations[generationId].(status := status, completedAt := Some(now))])
    else db
  }

  /**
   Completing a generation frees no request id and keeps the numbering, so a
   request created and then completed still blocks a second creation under
   the same request id.
   */
  lemma CompletionKeepsRequestIds(db: Db, generationId: int, status: string, now: int, requestId: string)
    ensures var d := CompleteGeneration(db, generationId, status, now);
      && (RequestIdUsed(d, requestId) <==> RequestIdUsed(db, requestId))
      && (GenerationsNumbered(db) ==> GenerationsNumbered(d))
  {
    var d := CompleteGeneration(db, generationId, status, now);
    if RequestIdUsed(d, requestId) {
      var id :| id in d.generations && d.generations[id].requestId == requestId;
      assert id in db.generations && db.generations[id].requestId == requestId;
    }
    if RequestIdUsed(db, requestId) {
      var id :| id in db.generations && db.generations[id].requestId == requestId;
      assert id in d.generations && d.generations[id].requestId == requestId;
    }
  }

  /** A created generation, once completed, holds its final status and its original request, tariff and cost. */
  lemma CreateThenComplete(db: Db, userId: int, prompt: Option<string>, tariff: string, cost: int, requestId: string,
                           status: string, now: int)
    requires GenerationsNumbered(db)
    requires userId in db.users && !RequestIdUsed(db, requestId)
    ensures var c := CreateGeneration(db, userId, prompt, tariff, cost, requestId);
      && c.Ok?
      && var d := CompleteGeneration(c.value.1, c.value.0, status, now);
      && d.generations[c.value.0] == GenerationRow(requestId, userId, tariff, prompt, cost, status, Some(now))
      && CreateGeneration(d, userId, prompt, tariff, cost, requestId) == Err(DuplicateRequestId)
      && d.users == db.users && d.ledger == db.ledger
  {
    var c := CreateGeneration(db, userId, prompt, tariff, cost, requestId);
    var (id, d0) := c.value;
    CompletionKeepsRequestIds(d0, id, status, now, requestId);
    assert d0.generations[id].requestId == requestId;
  }

  /**
   The idempotent charge of one generation. Every tariff is booked under the
   single reason "pro" with the request id as reference.
   */
  function DeductForGeneration(db: Db, userId: int, cost: int, tariff: string, requestId: string)
    : (r: Result<(bool, Db), LedgerError>)
    ensures r.Ok? && r.value.1 != db ==>
      && r.value.0
      && |r.value.1.ledger| == |db.ledger| + 1
      && r.value.1.ledger[|db.ledger|].reason == ReasonPro
      && r.value.1.ledger[|db.ledger|].referenceId == Some(requestId)
      && r.value.1.ledger[|db.ledger|].amount == -cost
    ensures HasDebit(db.ledger, requestId) ==> r == Ok((true, db))
    ensures !HasDebit(db.ledger, requestId) && (userId !in db.users || db.users[userId].balance < cost)
      ==> r == Ok((false, db))
    ensures !HasDebit(db.ledger, requestId) && userId in db.users && db.users[userId].balance >= cost ==>
      (r.Err? <==> ReasonRefTaken(db.ledger, ReasonPro, Some(requestId)))
    ensures !HasDebit(db.ledger, requestId) && userId in db.users && db.users[userId].balance >= cost
            && !ReasonRefTaken(db.ledger, ReasonPro, Some(requestId)) ==>
      && r.Ok? && r.value.0
      && userId in r.value.1.users
      && r.value.1.users[userId].balance == db.users[userId].balance - cost
      && r.value.1.ledger == db.ledger + [LedgerEntry(userId, -cost, ReasonPro, Some(requestId), db.users[userId].balance - cost)]
  {
    DeductCreditsIdempotent(db, userId, cost, ReasonPro, requestId)
  }

  /** The reference id of the refund row of a request. */
  function RefundRef(requestId: string): string {
    "refund_" + requestId
  }

  /** Give the cost of a generation back with one "refund" row. */
  function RefundGeneration(db: Db, userId: int, cost: int, requestId: string, tariff: string)
    : (r: Result<Db, LedgerError>)
    ensures r.Err? <==> userId !in db.users || ReasonRefTaken(db.ledger, ReasonRefund, Some(RefundRef(requestId)))
    ensures r.Ok? ==>
      && userId in db.users && userId in r.value.users
      && r.value.users[userId].balance == db.users[userId].balance + cost
      && |r.value.ledger| == |db.ledger| + 1
      && r.value.ledger[|db.ledger|].reason == ReasonRefund
      && r.value.ledger[|db.ledger|].referenceId == Some(RefundRef(requestId))
      && r.value.ledger[|db.ledger|].amount == cost
  {
    RecordCreditChange(db, userId, cost, ReasonRefund, Some(RefundRef(requestId)))
  }

  /** A request is refunded at most once: the second refund hits the unique constraint. */
  lemma RefundAtMostOnce(db: Db, userId: int, cost: int, requestId: string, tariff: string, cost2: int, tariff2: string)
    ensures var r := RefundGeneration(db, userId, cost, requestId, tariff);
      r.Ok? ==> RefundGeneration(r.value, userId, cost2, requestId, tariff2) == Err(DuplicateReasonRef)
  {
    RepeatedReasonRefRejected(db, userId, cost, ReasonRefund, RefundRef(requestId), cost2);
  }

  /** Charging and then refunding one request puts the balance back where it was. */
  lemma ChargeThenRefundRestoresBalance(db: Db, userId: int, cost: int, requestId: string, tariff: string)
    requires !HasDebit(db.ledger, requestId)
    requires !ReasonRefTaken(db.ledger, ReasonPro, Some(requestId))
    requires !ReasonRefTaken(db.ledger, ReasonRefund, Some(RefundRef(requestId)))
    requires userId in db.users && db.users[userId].balance >= cost
    ensures var c := DeductForGeneration(db, userId, cost, tariff, requestId);
      && c.Ok? && c.value.0
      && var f := RefundGeneration(c.value.1, userId, cost, requestId, tariff);
      && f.Ok?
      && f.value.users[userId].balance == db.users[userId].balance
  {
    var c := DeductForGeneration(db, userId, cost, tariff, requestId);
    var d := c.value.1;
    assert d.ledger == db.ledger + [d.ledger[|db.ledger|]];
  }
}

=== FILE: gpu_gate.dfy ===
/**
 The GPU slot gate: a counter `gpu:active_jobs` bounded by `MAX_GPU_JOBS`
 and one token key `gpu:job:<task>` per holder. The check-and-increment and
 the decrement each run as one atomic script, so each is one step here.
 */
module GpuGate {
  import opened Basics

  const MaxGpuJobs := 1

  /** `count` is the stored counter (a missing key reads as 0); `tokens` are the task ids with a token key. */
  datatype GpuState = GpuState(count: int, tokens: set<string>)

  /** The counter agrees with the live tokens and stays within capacity. */
  predicate GateInvariant(g: GpuState) {
    g.count == |g.tokens| && 0 <= g.count <= MaxGpuJobs
  }

  /**
   Take a slot when the counter is below capacity. `storeUp` false stands for
   a failing Redis call: the gate then fails open and lets the task through
   without recording anything.
   */
  function AcquireGpuSlot(g: GpuState, taskId: string, storeUp: bool): (res: (bool, GpuState))
    ensures !storeUp ==> res == (true, g)
    ensures storeUp ==> (res.0 <==> g.count < MaxGpuJobs)
    ensures storeUp && !res.0 ==> res.1 == g
    ensures storeUp && res.0 ==> res.1.count == g.count + 1 && res.1.tokens == g.tokens + {taskId}
  {
    if !storeUp then (true, g)
    else if g.count >= MaxGpuJobs then (false, g)
    else (true, GpuState(g.count + 1, g.tokens + {taskId}))
  }

  /** Give a slot back: only a task holding a token decrements, and never below zero. */
  function ReleaseGpuSlot(g: GpuState, taskId: string): (g': GpuState)
    ensures taskId !in g.tokens ==> g' == g
    ensures taskId in g.tokens ==>
      && g'.tokens == g.tokens - {taskId}
      && g'.count == (if g.count > 0 then g.count - 1 else g.count)
    ensures g.count >= 0 ==> g'.count >= 0
    ensures taskId !in g'.tokens
  {
    if taskId !in g.tokens then g
    else GpuState(if g.count > 0 then g.count - 1 else g.count, g.tokens - {taskId})
  }

  /** Resynchronise the counter with the live tokens; report how far off it was. */
  function CleanupStaleGpuJobs(g: GpuState): (res: (nat, GpuState))
    ensures res.1.count == |g.tokens| && res.1.tokens == g.tokens
    ensures res.0 == Abs(g.count - |g.tokens|)
    ensures res.0 == 0 <==> g.count == |g.tokens|
  {
    var actual := |g.tokens|;
    if actual != g.count then (Abs(g.count - actual), GpuState(actual, g.tokens))
    else (0, g)
  }

  /** 0 while a slot is free, otherwise how many holders are ahead beyond capacity, plus one. */
  function GpuQueuePosition(g: GpuState): (pos: int)
    ensures g.count < MaxGpuJobs ==> pos == 0
    ensures g.count >= MaxGpuJobs ==> pos >= 1 && pos + MaxGpuJobs - 1 == g.count
  {
    if g.count >= MaxGpuJobs then g.count - MaxGpuJobs + 1 else 0
  }

  /**
   The position is a forecast of the gate: 0 exactly when an acquire would
   be granted now, and each holder's release moves a waiting task one place
   forward.
   */
  lemma QueuePositionPredictsAcquire(g: GpuState, holder: string, taskId: string)
    ensures GpuQueuePosition(g) == 0 <==> AcquireGpuSlot(g, taskId, true).0
    ensures GateInvariant(g) && holder in g.tokens && GpuQueuePosition(g) > 0 ==>
      GpuQueuePosition(ReleaseGpuSlot(g, holder)) == GpuQueuePosition(g) - 1
  {
  }

  /** With the store up, acquiring with a fresh task id keeps the counter equal to the tokens and within capacity. */
  lemma AcquirePreservesInvariant(g: GpuState, taskId: string)
    requires GateInvariant(g) && taskId !in g.tokens
    ensures GateInvariant(AcquireGpuSlot(g, taskId, true).1)
  {
  }

  lemma ReleasePreservesInvariant(g: GpuState, taskId: string)
    requires GateInvariant(g)
    ensures GateInvariant(ReleaseGpuSlot(g, taskId))
  {
    if taskId in g.tokens {
      assert |g.tokens - {taskId}| == |g.tokens| - 1;
    }
  }

  /** Releasing twice decrements once: the second release finds no token. */
  lemma DoubleReleaseDecrementsOnce(g: GpuState, taskId: string)
    ensures ReleaseGpuSlot(ReleaseGpuSlot(g, taskId), taskId) == ReleaseGpuSlot(g, taskId)
  {
  }

  /** Cleanup restores the invariant whenever the live tokens fit the capacity, and a second cleanup reports nothing. */
  lemma CleanupRepairs(g: GpuState)
    requires |g.tokens| <= MaxGpuJobs
    ensures GateInvariant(CleanupStaleGpuJobs(g).1)
    ensures CleanupStaleGpuJobs(CleanupStaleGpuJobs(g).1) == (0, CleanupStaleGpuJobs(g).1)
  {
  }

  /** Failing open: a store outage lets a second task through while the one slot is taken. */
  lemma FailOpenExceedsCapacity(g: GpuState, taskId: string)
    requires GateInvariant(g) && g.count == MaxGpuJobs
    ensures !AcquireGpuSlot(g, taskId, true).0
    ensures AcquireGpuSlot(g, taskId, false).0
  {
  }
}

=== FILE: ledger.dfy ===
/**
 The credit ledger: every balance change is one row in `credit_ledger`,
 written in the same transaction as the new balance, and debits are
 idempotent per reference id.
 */
module Ledger {
  import opened Basics
  import opened Schema

  /** Why a ledger transaction rolls back. */
  datatype LedgerError =
    | UnknownUser          // the row lock found no user
    | DuplicateReasonRef   // the `(reason, reference_id)` unique constraint fired

  /** Is there already a debit (negative row) with this reference id, whatever its reason? */
  predicate HasDebit(ledger: seq<LedgerEntry>, ref: string) {
    exists i :: 0 <= i < |ledger| && ledger[i].referenceId == Some(ref) && ledger[i].amount < 0
  }

  /** Total credits taken by debits carrying this reference id. */
  function DebitTotal(ledger: seq<LedgerEntry>, ref: string): int {
    if |ledger| == 0 then 0
    else
      var e := ledger[|ledger| - 1];
      DebitTotal(ledger[..|ledger| - 1], ref) + (if e.referenceId == Some(ref) && e.amount < 0 then -e.amount else 0)
  }

  /**
   Change one user's balance by `amount` and append the matching ledger row,
   atomically: on any failure nothing is written.
   */
  function RecordCreditChange(db: Db, userId: int, amount: int, reason: string, ref: Option<string>)
    : (r: Result<Db, LedgerError>)
    ensures r.Err? <==> userId !in db.users || ReasonRefTaken(db.ledger, reason, ref)
    ensures r.Err? && userId !in db.users ==> r.error == UnknownUser
    ensures r.Ok? ==>
      var d := r.value;
      && userId in d.users
      && d.users[userId].balance == db.users[userId].balance + amount
      && |d.ledger| == |db.ledger| + 1
      && d.ledger[..|db.ledger|] == db.ledger
      && d.ledger[|db.ledger|] == LedgerEntry(userId, amount, reason, ref, d.users[userId].balance)
      && d.users.Keys == db.users.Keys
      && (forall id :: id in db.users && id != userId ==> d.users[id] == db.users[id])
      && d.users[userId] == db.users[userId].(balance := d.users[userId].balance)
      && d.byTelegram == db.byTelegram && d.nextUserId == db.nextUserId
      && d.generations == db.generations && d.nextGenerationId == db.nextGenerationId
      && d.payments == db.payments && d.tickets == db.tickets
  {
    if userId !in db.users then Err(UnknownUser)
    else if ReasonRefTaken(db.ledger, reason, ref) then Err(DuplicateReasonRef)
    else
      var u := db.users[userId];
      var newBalance := u.balance + amount;
      Ok(db.(users := db.users[userId := u.(balance := newBalance)],
             ledger := db.ledger + [LedgerEntry(userId, amount, reason, ref, newBalance)]))
  }

  lemma SumForAppend(ledger: seq<LedgerEntry>, e: LedgerEntry, userId: int)
    ensures SumFor(ledger + [e], userId) == SumFor(ledger, userId) + (if e.userId == userId then e.amount else 0)
  {
    assert (ledger + [e])[..|ledger|] == ledger;
  }

  lemma DebitTotalAppend(ledger: seq<LedgerEntry>, e: LedgerEntry, ref: string)
    ensures DebitTotal(ledger + [e], ref)
      == DebitTotal(ledger, ref) + (if e.referenceId == Some(ref) && e.amount < 0 then -e.amount else 0)
  {
    assert (ledger + [e])[..|ledger|] == ledger;
  }

  /** Every successful ledger write keeps the store consistent: balances stay the sums of their rows. */
  lemma RecordPreservesValid(db: Db, userId: int, amount: int, reason: string, ref: Option<string>)
    requires Valid(db)
    ensures var r := RecordCreditChange(db, userId, amount, reason, ref);
      r.Ok? ==> Valid(r.value)
  {
    var r := RecordCreditChange(db, userId, amount, reason, ref);
    if r.Ok? {
      var d := r.value;
      var e := LedgerEntry(userId, amount, reason, ref, d.users[userId].balance);
      assert d.ledger == db.ledger + [e];
      forall id | id in d.users
        ensures d.users[id].balance == SumFor(d.ledger, id)
      {
        SumForAppend(db.ledger, e, id);
      }
      forall i | 0 <= i < |d.ledger|
        ensures d.ledger[i].balanceAfter == SumFor(d.ledger[..i + 1], d.ledger[i].userId)
      {
        if i < |db.ledger| {
          assert d.ledger[..i + 1] == db.ledger[..i + 1];
        } else {
          assert d.ledger[..i + 1] == d.ledger;
          SumForAppend(db.ledger, e, userId);
        }
      }
      forall i, j | 0 <= i < j < |d.ledger| && d.ledger[i].referenceId.Some?
        ensures !(d.ledger[i].reason == d.ledger[j].reason && d.ledger[i].referenceId == d.ledger[j].referenceId)
      {
        if j == |db.ledger| {
          assert !ReasonRefTaken(db.ledger, reason, ref);
        }
      }
    }
  }

  /**
   Debit `amount` once per reference id: a debit already carrying `ref`
   answers true without writing; a missing user or a short balance answers
   false without writing; otherwise one row of `-amount` is recorded.
   The `Err` side is the rollback of the unique constraint.
   */
  function DeductCreditsIdempotent(db: Db, userId: int, amount: int, reason: string, ref: string)
    : (r: Result<(bool, Db), LedgerError>)
    ensures HasDebit(db.ledger, ref) ==> r == Ok((true, db))
    ensures !HasDebit(db.ledger, ref) && (userId !in db.users || db.users[userId].balance < amount)
      ==> r == Ok((false, db))
    ensures r.Ok? && !r.value.0 ==> r.value.1 == db
    ensures r.Err? ==> r.error == DuplicateReasonRef && ReasonRefTaken(db.ledger, reason, Some(ref))
    ensures r.Ok? && r.value.1 != db ==>
      && r.value.0
      && userId in db.users && db.users[userId].balance >= amount
      && RecordCreditChange(db, userId, -amount, reason, Some(ref)) == Ok(r.value.1)
      && r.value.1.users[userId].balance == db.users[userId].balance - amount
      && DebitTotal(r.value.1.ledger, ref) == DebitTotal(db.ledger, ref) + (if amount > 0 then amount else 0)
    ensures !HasDebit(db.ledger, ref) && userId in db.users && db.users[userId].balance >= amount ==>
      (r.Err? <==> ReasonRefTaken(db.ledger, reason, Some(ref)))
    ensures !HasDebit(db.ledger, ref) && userId in db.users && db.users[userId].balance >= amount
            && !ReasonRefTaken(db.ledger, reason, Some(ref)) ==>
      && r.Ok? && r.value.0
      && userId in r.value.1.users
      && r.value.1.users[userId].balance == db.users[userId].balance - amount
      && r.value.1.ledger == db.ledger + [LedgerEntry(userId, -amount, reason, Some(ref), db.users[userId].balance - amount)]
  {
    if HasDebit(db.ledger, ref) then Ok((true, db))
    else if userId !in db.users || db.users[userId].balance < amount then Ok((false, db))
    else
      match RecordCreditChange(db, userId, -amount, reason, Some(ref))
      case Ok(d) =>
        assert d.ledger == db.ledger + [LedgerEntry(userId, -amount, reason, Some(ref), d.users[userId].balance)];
        DebitTotalAppend(db.ledger, d.ledger[|db.ledger|], ref);
        Ok((true, d))
      case Err(e) => Err(e)
  }

  /**
   The property the whole charging path rests on: calling the debit twice
   with one reference id takes the credits at most once. For a positive
   amount the second call is a no-op answering true.
   */
  lemma DeductTwiceDebitsOnce(db: Db, userId: int, amount: int, reason: string, ref: string)
    requires amount > 0
    requires !HasDebit(db.ledger, ref)
    ensures var r1 := DeductCreditsIdempotent(db, userId, amount, reason, ref);
      r1.Ok? ==>
        var r2 := DeductCreditsIdempotent(r1.value.1, userId, amount, reason, ref);
        && r2.Ok? && r2.value.1 == r1.value.1
        && r2.value.0 == r1.value.0
        && DebitTotal(r2.value.1.ledger, ref) <= DebitTotal(db.ledger, ref) + amount
  {
    var r1 := DeductCreditsIdempotent(db, userId, amount, reason, ref);
    if r1.Ok? && r1.value.1 != db {
      var d := r1.value.1;
      assert d.ledger[|db.ledger|].referenceId == Some(ref) && d.ledger[|db.ledger|].amount < 0;
      assert HasDebit(d.ledger, ref);
    }
  }

  /** A credit (amount >= 0) never makes a reference id look already debited. */
  lemma CreditIsNotDebit(db: Db, userId: int, amount: int, reason: string, ref: Option<string>, other: string)
    requires amount >= 0
    ensures var r := RecordCreditChange(db, userId, amount, reason, ref);
      r.Ok? ==> (HasDebit(r.value.ledger, other) <==> HasDebit(db.ledger, other))
  {
    var r := RecordCreditChange(db, userId, amount, reason, ref);
    if r.Ok? {
      var d := r.value;
      if HasDebit(d.ledger, other) {
        var i :| 0 <= i < |d.ledger| && d.ledger[i].referenceId == Some(other) && d.ledger[i].amount < 0;
        assert i < |db.ledger|;
        assert db.ledger[i] == d.ledger[i];
      }
      if HasDebit(db.ledger, other) {
        var i :| 0 <= i < |db.ledger| && db.ledger[i].referenceId == Some(other) && db.ledger[i].amount < 0;
        assert d.ledger[i] == db.ledger[i];
      }
    }
  }

  /** Writing a row whose `(reason, reference_id)` is already present always rolls back. */
  lemma RepeatedReasonRefRejected(db: Db, userId: int, amount: int, reason: string, ref: string, amount2: int)
    ensures var r := RecordCreditChange(db, userId, amount, reason, Some(ref));
      r.Ok? ==> RecordCreditChange(r.value, userId, amount2, reason, Some(ref)) == Err(DuplicateReasonRef)
  {
    var r := RecordCreditChange(db, userId, amount, reason, Some(ref));
    if r.Ok? {
      assert r.value.ledger[|db.ledger|].reason == reason;
      assert ReasonRefTaken(r.value.ledger, reason, Some(ref));
    }
  }

  /** In a consistent store a debit that succeeds never drives the balance negative. */
  lemma DeductKeepsBalanceNonNegative(db: Db, userId: int, amount: int, reason: string, ref: string)
    requires amount >= 0
    requires userId in db.users && db.users[userId].balance >= 0
    ensures var r := DeductCreditsIdempotent(db, userId, amount, reason, ref);
      r.Ok? ==> userId in r.value.1.users && r.value.1.users[userId].balance >= 0
  {
  }
}

=== FILE: mask.dfy ===
/**
 Choosing the inpainting mask for a photo edit.

 The prompt is lower-cased and searched for keywords: eye accessories first,
 then head accessories, then scene words. The search is for substrings, not
 words. Face detection then decides whether a face-aware mask is possible;
 the mask geometry itself is not modelled, only which mask is drawn and the
 type reported with it.
 */
module MaskClassifier {
  import opened Basics
  import opened Strings

  datatype PromptClass = GlassesClass | HatClass | BackgroundClass | FullClass

  const GlassesKeywords: seq<string> := [
    "sunglasses", "glasses", "очки", "солнечные очки", "eyeglasses",
    "spectacles", "goggles", "shades", "очки от солнца"]

  const HatKeywords: seq<string> := [
    "hat", "cap", "шляпа", "шапка", "кепка", "берет", "crown", "корона",
    "helmet", "шлем", "hood", "капюшон", "beret", "fedora", "baseball cap"]

  const BackgroundKeywords: seq<string> := [
    "background", "фон", "backdrop", "scene", "сцена", "setting",
    "environment", "окружение", "place", "место", "location"]

  /** `any(kw in text for kw in keywords)`. */
  predicate AnyIn(text: string, keywords: seq<string>) {
    exists i :: 0 <= i < |keywords| && Contains(text, keywords[i])
  }

  /** `_classify_prompt`: the first keyword group with a hit in the lower-cased prompt. */
  function Classify(prompt: string): (r: PromptClass)
    ensures r == GlassesClass <==> AnyIn(Lower(prompt), GlassesKeywords)
    ensures r == HatClass <==> !AnyIn(Lower(prompt), GlassesKeywords) && AnyIn(Lower(prompt), HatKeywords)
    ensures r == BackgroundClass <==>
      !AnyIn(Lower(prompt), GlassesKeywords) && !AnyIn(Lower(prompt), HatKeywords) && AnyIn(Lower(prompt), BackgroundKeywords)
  {
    var text := Lower(prompt);
    if AnyIn(text, GlassesKeywords) then GlassesClass
    else if AnyIn(text, HatKeywords) then HatClass
    else if AnyIn(text, BackgroundKeywords) then BackgroundClass
    else FullClass
  }

  /** The drawn mask: which region is repainted. */
  datatype MaskShape = WholeImage | EyeBand | HeadBand | AllButFace

  /** The mask type reported back to the caller. */
  datatype MaskType = Full | Glasses | Hat | Background | BackgroundPreserveFace

  /** The mask-type dispatch of `generate_mask`, given whether a face was detected. */
  function MaskFor(prompt: string, faceFound: bool): (r: (MaskShape, MaskType))
    ensures !faceFound ==> r == (WholeImage, Full)
    ensures faceFound ==> r.1 != Full && r.0 != WholeImage
    ensures faceFound ==> (r.1 == BackgroundPreserveFace <==> Classify(prompt) == FullClass)
    ensures faceFound && Classify(prompt) == GlassesClass ==> r == (EyeBand, Glasses)
    ensures faceFound && Classify(prompt) == HatClass ==> r == (HeadBand, Hat)
    ensures faceFound ==> (r.0 == AllButFace <==> Classify(prompt) in {BackgroundClass, FullClass})
  {
    if !faceFound then (WholeImage, Full)
    else
      match Classify(prompt)
      case GlassesClass => (EyeBand, Glasses)
      case HatClass => (HeadBand, Hat)
      case BackgroundClass => (AllButFace, Background)
      case FullClass => (AllButFace, BackgroundPreserveFace)
  }

  // ---------------------------------------------------------------------------
  // Properties
  // ---------------------------------------------------------------------------

  /** The reported type is "full" exactly when no face was found. */
  lemma FullOnlyWithoutFace(prompt: string, faceFound: bool)
    ensures MaskFor(prompt, faceFound).1 == Full <==> !faceFound
  {
  }

  lemma OccursInLonger(s: string, sub: string, i: int, t: string)
    requires OccursAt(s, sub, i)
    ensures OccursAt(s + t, sub, i) && OccursAt(t + s, sub, |t| + i)
  {
    assert (s + t)[i..i + |sub|] == s[i..i + |sub|];
    assert (t + s)[|t| + i..|t| + i + |sub|] == s[i..i + |sub|];
  }

  /** A keyword found in a text is still found once more text is added on either side. */
  lemma AnyInLonger(s: string, t: string, keywords: seq<string>)
    requires AnyIn(s, keywords)
    ensures AnyIn(s + t, keywords) && AnyIn(t + s, keywords)
  {
    var i :| 0 <= i < |keywords| && Contains(s, keywords[i]);
    var j := IndexOf(s, keywords[i]).value;
    OccursInLonger(s, keywords[i], j, t);
    assert Contains(s + t, keywords[i]);
    assert Contains(t + s, keywords[i]);
  }

  lemma LowerConcat(s: string, t: string)
    ensures Lower(s + t) == Lower(s) + Lower(t)
  {
  }

  /** An eye-accessory word decides the class whatever else the prompt says. */
  lemma GlassesDominate(p: string, q: string)
    requires Classify(p) == GlassesClass
    ensures Classify(p + q) == GlassesClass && Classify(q + p) == GlassesClass
  {
    LowerConcat(p, q);
    LowerConcat(q, p);
    AnyInLonger(Lower(p), Lower(q), GlassesKeywords);
  }

  /** Substring matching: any word containing "hat", such as "that", asks for a hat unless an eye accessory is named. */
  lemma ThatMeansHat(prompt: string)
    requires Contains(Lower(prompt), "that")
    ensures Classify(prompt) in {GlassesClass, HatClass}
  {
    var t := Lower(prompt);
    var i := IndexOf(t, "that").value;
    assert t[i + 1..i + 4] == t[i..i + 4][1..];
    assert OccursAt(t, "hat", i + 1);
    assert Contains(t, HatKeywords[0]);
  }

  lemma LowerUpperChar(c: char)
    ensures LowerChar(UpperChar(c)) == LowerChar(c)
  {
  }

  /** Case never matters: an upper-cased prompt is classified like the original. */
  lemma ClassifyIgnoresCase(prompt: string)
    ensures Classify(Upper(prompt)) == Classify(prompt)
  {
    forall i | 0 <= i < |prompt| ensures Lower(Upper(prompt))[i] == Lower(prompt)[i] {
      LowerUpperChar(prompt[i]);
    }
    assert Lower(Upper(prompt)) == Lower(prompt);
  }
}

=== FILE: payments.dfy ===
/**
 YooKassa top-ups: the creation of a pending payment for a credit package,
 the strict amount and currency check, the idempotent crediting of a
 verified payment, and the three entry points that feed it: the webhook
 (fail-closed, it only proceeds after the payment is confirmed by the
 provider), the user-initiated confirmation and the reconciliation of old
 pending payments. Calls to the provider are scripted inputs; times are
 whole seconds.
 */
module Payments {
  import opened Basics
  import opened Strings
  import opened Schema
  import opened Ledger

  const StatusPending := "pending"
  const StatusSucceeded := "succeeded"

  /** The packages on sale: roubles paid to credits granted. */
  const CreditPackages: map<int, int> := map[100 := 100, 200 := 200, 300 := 300, 500 := 500]

  // ---------------------------------------------------------------------------
  // Decimal amounts
  // ---------------------------------------------------------------------------

  /** A `Decimal`: a finite `coefficient * 10^exponent`, an infinity, or a quiet or signalling NaN. */
  datatype Dec = Finite(coefficient: int, exponent: int) | Infinite(negative: bool) | QuietNaN | SignalingNaN

  function Pow10(k: nat): (p: nat)
    ensures p >= 1
  {
    if k == 0 then 1 else 10 * Pow10(k - 1)
  }

  /** Does a finite decimal have the value of the whole number `n`? (`Decimal` equality is by value.) */
  predicate FiniteEquals(c: int, e: int, n: int) {
    if e >= 0 then c * Pow10(e) == n else c == n * Pow10(-e)
  }

  predicate AllDigits(s: string) {
    forall i :: 0 <= i < |s| ==> IsAsciiDigit(s[i])
  }

  /** `digits '.' [digits] | ['.'] digits`: the coefficient and the number of fraction digits. */
  function ParseDecimalPart(s: string): (r: Option<(nat, nat)>)
    ensures r.Some? ==> r.value.1 < |s|
  {
    match IndexOf(s, ".")
    case None => if |s| > 0 && AllDigits(s) then Some((DigitsValue(s), 0)) else None
    case Some(i) =>
      var a, b := s[..i], s[i + 1..];
      if |a| + |b| > 0 && AllDigits(a) && AllDigits(b) then Some((DigitsValue(a + b), |b|)) else None
  }

  /** `[sign] digits` after the exponent indicator. */
  function ParseExponent(s: string): Option<int> {
    if |s| > 1 && (s[0] == '+' || s[0] == '-') && AllDigits(s[1..]) then
      var magnitude: int := DigitsValue(s[1..]);
      Some(if s[0] == '-' then -magnitude else magnitude)
    else if |s| > 0 && AllDigits(s) then Some(DigitsValue(s))
    else None
  }

  /** Infinity and NaN, matched on the lower-cased text; `None` for anything else. */
  function ParseSpecial(l: string, negative: bool): (r: Option<Dec>)
    ensures |l| > 0 && IsAsciiDigit(l[0]) ==> r.None?
  {
    if l == "inf" || l == "infinity" then Some(Infinite(negative))
    else if StartsWith(l, "nan") && AllDigits(l[3..]) then Some(QuietNaN)
    else if StartsWith(l, "snan") && AllDigits(l[4..]) then Some(SignalingNaN)
    else None
  }

  /** `decimal-part [exponent-part]`. */
  function ParseFinite(s: string, negative: bool): (r: Option<Dec>)
    ensures r.Some? ==> r.value.Finite?
  {
    var mantissa := Mantissa(s);
    var exp := Exponent(s);
    var part := ParseDecimalPart(mantissa);
    if part.Some? && exp.Some? then
      var c: int := part.value.0;
      Some(Finite(if negative then -c else c, exp.value - part.value.1))
    else None
  }

  /** The text before the first `e` or `E`, or all of it. */
  function Mantissa(s: string): string {
    match IndexOf(Lower(s), "e")
    case None => s
    case Some(i) => s[..i]
  }

  /** The exponent after the first `e` or `E`, zero when there is none. */
  function Exponent(s: string): Option<int> {
    match IndexOf(Lower(s), "e")
    case None => Some(0)
    case Some(i) => ParseExponent(s[i + 1..])
  }

  /** The numeric value after the sign. */
  function ParseUnsigned(s: string, negative: bool): Option<Dec> {
    if ParseSpecial(Lower(s), negative).Some? then ParseSpecial(Lower(s), negative) else ParseFinite(s, negative)
  }

  /** `Decimal(text)`: `None` where the constructor raises `InvalidOperation`. */
  function ParseDecimal(text: string): Option<Dec> {
    if |text| > 0 && (text[0] == '+' || text[0] == '-') then ParseUnsigned(text[1..], text[0] == '-')
    else ParseUnsigned(text, false)
  }

  /** The amount object of a payment: the `value` and `currency` keys as text, each possibly absent. */
  datatype AmountObj = AmountObj(value: Option<string>, currency: Option<string>)

  /**
   `_extract_amount_currency`: the value (text "0" when absent) parsed after
   stripping, and the currency stripped and upper-cased ("" when absent). A
   missing or empty amount object counts as an empty one.
   */
  function ExtractAmountCurrency(amount: Option<AmountObj>): (r: (Option<Dec>, string))
    ensures (amount.None? || amount.value.value.None?) ==> r.0 == Some(Finite(0, 0))
    ensures (amount.None? || amount.value.currency.None?) ==> r.1 == ""
    ensures amount.Some? && amount.value.value.Some? ==> r.0 == ParseDecimal(Strip(amount.value.value.value))
    ensures amount.Some? && amount.value.currency.Some? ==> r.1 == Upper(Strip(amount.value.currency.value))
  {
    var a := amount.GetOr(AmountObj(None, None));
    ZeroParses();
    (ParseDecimal(Strip(a.value.GetOr("0"))), Upper(Strip(a.currency.GetOr(""))))
  }

  /** A character that does not occur is not found. */
  lemma NotFound(s: string, c: char)
    requires forall k :: 0 <= k < |s| ==> s[k] != c
    ensures IndexOf(s, [c]).None?
  {
    forall j ensures !OccursAt(s, [c], j) {
      if 0 <= j < |s| {
        assert s[j..j + 1][0] == s[j];
      }
    }
  }

  /** The first dot after a run of digits is the one right after them. */
  lemma DotAfterDigits(ds: string, rest: string)
    requires AllDigits(ds)
    ensures IndexOf(ds + "." + rest, ".") == Some(|ds|)
  {
    var s := ds + "." + rest;
    assert OccursAt(s, ".", |ds|) by { assert s[|ds|..|ds| + 1] == "."; }
    forall j | 0 <= j < |ds| ensures !OccursAt(s, ".", j) {
      assert s[j..j + 1][0] == ds[j];
    }
  }

  lemma DigitsValueTimesTen(s: string)
    requires AllDigits(s)
    ensures AllDigits(s + "0") && DigitsValue(s + "0") == DigitsValue(s) * 10
  {
    assert (s + "0")[..|s|] == s;
  }

  /** A run of digits with no sign, exponent or letter reads as a finite decimal. */
  lemma PlainDigitsParse(s: string, value: nat)
    requires |s| > 0 && AllDigits(s) && DigitsValue(s) == value
    ensures ParseDecimal(s) == Some(Finite(value, 0))
  {
    assert IsAsciiDigit(s[0]);
    assert ParseDecimal(s) == ParseUnsigned(s, false);
    DigitsAreNotSpecial(s);
    DigitsAreFinite(s, value);
  }

  /** Lower-casing leaves digits alone, so a digit-led text is never an infinity or a NaN. */
  lemma DigitsAreNotSpecial(s: string)
    requires |s| > 0 && AllDigits(s)
    ensures ParseUnsigned(s, false) == ParseFinite(s, false)
  {
    forall k | 0 <= k < |s| ensures LowerChar(s[k]) == s[k] { assert IsAsciiDigit(s[k]); }
    LowerFixed(s);
    assert IsAsciiDigit(Lower(s)[0]);
  }

  lemma DigitsAreFinite(s: string, value: nat)
    requires |s| > 0 && AllDigits(s) && DigitsValue(s) == value
    ensures ParseFinite(s, false) == Some(Finite(value, 0))
  {
    NoLetterE(s);
    NoDot(s);
    var part := ParseDecimalPart(Mantissa(s));
    assert part == Some((value, 0));
  }

  /** Digits hold no exponent: the mantissa is the whole text and the exponent is zero. */
  lemma NoLetterE(s: string)
    requires AllDigits(s)
    ensures Mantissa(s) == s && Exponent(s) == Some(0)
  {
    forall k | 0 <= k < |s| ensures LowerChar(s[k]) == s[k] && s[k] != 'e' { assert IsAsciiDigit(s[k]); }
    LowerFixed(s);
    NotFound(s, 'e');
    assert "e" == ['e'];
  }

  lemma NoDot(s: string)
    requires AllDigits(s)
    ensures IndexOf(s, ".").None?
  {
    forall k | 0 <= k < |s| ensures s[k] != '.' { assert IsAsciiDigit(s[k]); }
    NotFound(s, '.');
    assert "." == ['.'];
  }

  /** The default amount text "0" strips to itself and reads as zero. */
  lemma ZeroParses()
    ensures ParseDecimal(Strip("0")) == Some(Finite(0, 0))
  {
    StripFixed("0");
    assert DigitsValue("0") == 0;
    PlainDigitsParse("0", 0);
  }

  /** `f"{n}.00"` parses back to the value `n`: the amount the bot asks for is the amount it accepts. */
  lemma CanonicalAmountParses(n: nat)
    ensures var d := ParseDecimal(NatToString(n) + ".00"); d.Some? && d.value.Finite? && FiniteEquals(d.value.coefficient, d.value.exponent, n)
  {
    var ds := NatToString(n);
    var s := ds + "." + "00";
    assert s == NatToString(n) + ".00";
    var hundred: nat := n * 100;
    CanonicalFinite(n);
    assert IsAsciiDigit(s[0]);
    assert s[0] != '+' && s[0] != '-';
    assert ParseDecimal(s) == ParseUnsigned(s, false);
    assert ParseSpecial(Lower(s), false).None? by {
      assert Lower(s)[0] == LowerChar(s[0]);
    }
    assert ParseDecimal(s) == Some(Finite(hundred, -2));
    assert Pow10(2) == 100;
    assert FiniteEquals(hundred, -2, n);
  }

  lemma CanonicalFinite(n: nat)
    ensures ParseFinite(NatToString(n) + ".00", false) == Some(Finite(n * 100, -2))
  {
    var s := NatToString(n) + ".00";
    CanonicalMantissa(n);
    assert NatToString(n) + "." + "00" == s;
    assert Mantissa(s) == s && Exponent(s) == Some(0);
    var part := ParseDecimalPart(Mantissa(s));
    assert part.Some? && part.value.0 == n * 100 && part.value.1 == 2;
  }

  lemma CanonicalMantissa(n: nat)
    ensures var ds := NatToString(n); var s := ds + "." + "00";
      IndexOf(Lower(s), "e").None? && ParseDecimalPart(s).Some? && ParseDecimalPart(s).value.0 == n * 100 && ParseDecimalPart(s).value.1 == 2
  {
    var ds := NatToString(n);
    var s := ds + "." + "00";
    forall k | 0 <= k < |s| ensures LowerChar(s[k]) == s[k] && s[k] != 'e' {
      if k < |ds| { assert IsAsciiDigit(s[k]); }
    }
    LowerFixed(s);
    NotFound(s, 'e');
    assert "e" == ['e'];
    DotAfterDigits(ds, "00");
    assert s[..|ds|] == ds && s[|ds| + 1..] == "00";
    DigitsValueTimesTen(ds);
    DigitsValueTimesTen(ds + "0");
    assert ds + "0" + "0" == ds + "00";
    DigitsValueOfNatToString(n);
  }

  // ---------------------------------------------------------------------------
  // Creating a payment
  // ---------------------------------------------------------------------------

  /** What the provider gave back for a creation request: the new payment id, or an exception. */
  datatype ProviderCreate = CreatedRemotely(paymentId: string) | CreateFailed

  datatype CreateOutcome =
    | PaymentCreated(db: Db, paymentId: string, credits: int)
    | NotCreated                 // payments disabled, unknown package or user, or the provider failed
    | InsertRaised               // the payment id is already stored: the unique constraint fires

  /**
   `create_payment`: only for a configured shop, a listed package and a known
   user; the provider is asked for `amount.00` RUB and the payment is stored
   as pending under the id it returns.
   */
  function CreatePayment(db: Db, enabled: bool, telegramId: int, amountRub: int, remote: ProviderCreate, now: int): (o: CreateOutcome)
    ensures o.PaymentCreated? ==>
      && enabled && amountRub in CreditPackages && UserByTelegram(db, telegramId).Some?
      && o.credits == CreditPackages[amountRub]
      && o.db == db.(payments := db.payments + [PaymentRow(UserByTelegram(db, telegramId).value, amountRub, o.credits, StatusPending, Some(o.paymentId), now, None)])
    ensures !enabled || amountRub !in CreditPackages || UserByTelegram(db, telegramId).None? || remote.CreateFailed? ==> o == NotCreated
    ensures o == InsertRaised <==>
      && enabled && amountRub in CreditPackages && UserByTelegram(db, telegramId).Some?
      && remote.CreatedRemotely? && PaymentIndex(db.payments, remote.paymentId).Some?
  {
    if !enabled || amountRub !in CreditPackages then NotCreated
    else match UserByTelegram(db, telegramId)
      case None => NotCreated
      case Some(uid) =>
        match remote
        case CreateFailed => NotCreated
        case CreatedRemotely(pid) =>
          if PaymentIndex(db.payments, pid).Some? then InsertRaised
          else
            var credits := CreditPackages[amountRub];
            PaymentCreated(db.(payments := db.payments + [PaymentRow(uid, amountRub, credits, StatusPending, Some(pid), now, None)]), pid, credits)
  }

  // ---------------------------------------------------------------------------
  // Crediting a succeeded payment
  // ---------------------------------------------------------------------------

  /** The transaction either ran to its end, or raised and was rolled back. */
  datatype Applied = Applied(ok: bool, db: Db) | Aborted

  /** The row of payment `k` marked as paid. */
  function MarkSucceeded(db: Db, k: nat, paidAt: int): (d: Db)
    requires k < |db.payments|
    ensures |d.payments| == |db.payments| && d.payments[k].status == StatusSucceeded
    ensures d.payments[k] == db.payments[k].(status := StatusSucceeded, paidAt := Some(paidAt))
    ensures forall j :: 0 <= j < |db.payments| && j != k ==> d.payments[j] == db.payments[j]
    ensures d == db.(payments := d.payments)
  {
    db.(payments := db.payments[k := db.payments[k].(status := StatusSucceeded, paidAt := Some(paidAt))])
  }

  /**
   `_process_succeeded_payment`: an unknown payment is refused; an already
   succeeded one is accepted without change. Otherwise the amount must parse,
   the currency must be RUB and the value must equal the stored rouble
   amount. A payment already present in the ledger is only marked paid;
   any other is marked paid and its credits are recorded under
   ("payment", id), in one transaction.
   */
  function ProcessSucceededPayment(db: Db, yookassaId: string, amount: Option<AmountObj>, now: int): (a: Applied)
    ensures PaymentIndex(db.payments, yookassaId).None? ==> a == Applied(false, db)
    ensures a.Applied? && !a.ok ==> a.db == db
    ensures a.Applied? && a.ok && a.db != db ==>
      var k := PaymentIndex(db.payments, yookassaId).value;
      var p := db.payments[k];
      var (dec, cur) := ExtractAmountCurrency(amount);
      && p.status != StatusSucceeded
      && cur == "RUB" && dec.Some? && dec.value.Finite? && FiniteEquals(dec.value.coefficient, dec.value.exponent, p.amountRub)
      && |a.db.payments| == |db.payments| && a.db.payments[k].status == StatusSucceeded
      && (forall j :: 0 <= j < |db.payments| && j != k ==> a.db.payments[j] == db.payments[j])
    ensures PaymentIndex(db.payments, yookassaId).Some? ==>
      var p := db.payments[PaymentIndex(db.payments, yookassaId).value];
      var (dec, cur) := ExtractAmountCurrency(amount);
      && (p.status == StatusSucceeded ==> a == Applied(true, db))
      && (p.status != StatusSucceeded && dec.None? ==> a == Applied(false, db))
      && ((&& p.status != StatusSucceeded && !AmountMatches(amount, p.amountRub)
           && !(cur == "RUB" && dec.Some? && dec.value.SignalingNaN?)) ==> a == Applied(false, db))
  {
    match PaymentIndex(db.payments, yookassaId)
    case None => Applied(false, db)
    case Some(k) =>
      var p := db.payments[k];
      if p.status == StatusSucceeded then Applied(true, db)
      else
        var (dec, cur) := ExtractAmountCurrency(amount);
        if dec.None? then Applied(false, db)
        else if cur != "RUB" then Applied(false, db)
        else if dec.value.SignalingNaN? then Aborted
        else if !(dec.value.Finite? && FiniteEquals(dec.value.coefficient, dec.value.exponent, p.amountRub)) then Applied(false, db)
        else if ReasonRefTaken(db.ledger, ReasonPayment, Some(yookassaId)) then
          Applied(true, MarkSucceeded(db, k, p.paidAt.GetOr(now)))
        else
          match RecordCreditChange(MarkSucceeded(db, k, now), p.userId, p.credits, ReasonPayment, Some(yookassaId))
          case Err(_) => Aborted
          case Ok(d) => Applied(true, d)
  }

  /** The payment credit this id would write, for a payment not yet credited. */
  predicate CreditsOnce(db: Db, d: Db, yookassaId: string) {
    && PaymentIndex(db.payments, yookassaId).Some?
    && var p := db.payments[PaymentIndex(db.payments, yookassaId).value];
    && p.userId in db.users && p.userId in d.users
    && |d.ledger| == |db.ledger| + 1 && d.ledger[..|db.ledger|] == db.ledger
    && d.ledger[|db.ledger|].userId == p.userId && d.ledger[|db.ledger|].amount == p.credits
    && d.ledger[|db.ledger|].reason == ReasonPayment && d.ledger[|db.ledger|].referenceId == Some(yookassaId)
    && d.users[p.userId].balance == db.users[p.userId].balance + p.credits
  }

  /** The webhook amount is the stored rouble amount, in RUB. */
  predicate AmountMatches(amount: Option<AmountObj>, amountRub: int) {
    var r := ExtractAmountCurrency(amount);
    r.1 == "RUB" && r.0.Some? && r.0.value.Finite? && FiniteEquals(r.0.value.coefficient, r.0.value.exponent, amountRub)
  }

  /**
   A pending payment of a known user, with the matching amount and no ledger
   row, is credited exactly its credits under ("payment", id).
   */
  lemma MatchingPaymentIsCredited(db: Db, yookassaId: string, amount: Option<AmountObj>, now: int)
    requires PaymentIndex(db.payments, yookassaId).Some?
    requires var p := db.payments[PaymentIndex(db.payments, yookassaId).value];
      p.status != StatusSucceeded && p.userId in db.users && AmountMatches(amount, p.amountRub)
    requires !ReasonRefTaken(db.ledger, ReasonPayment, Some(yookassaId))
    ensures var a := ProcessSucceededPayment(db, yookassaId, amount, now);
      a.Applied? && a.ok && CreditsOnce(db, a.db, yookassaId)
  {
  }

  /** Crediting a payment keeps every invariant of the store. */
  lemma ProcessPreservesValid(db: Db, yookassaId: string, amount: Option<AmountObj>, now: int)
    requires Valid(db)
    ensures var a := ProcessSucceededPayment(db, yookassaId, amount, now);
      a.Applied? ==> Valid(a.db)
  {
    match PaymentIndex(db.payments, yookassaId)
    case None =>
    case Some(k) =>
      var p := db.payments[k];
      MarkKeepsValid(db, k, now);
      MarkKeepsValid(db, k, p.paidAt.GetOr(now));
      RecordPreservesValid(MarkSucceeded(db, k, now), p.userId, p.credits, ReasonPayment, Some(yookassaId));
  }

  lemma MarkKeepsValid(db: Db, k: nat, t: int)
    requires Valid(db) && k < |db.payments|
    ensures Valid(MarkSucceeded(db, k, t))
  {
    var d := MarkSucceeded(db, k, t);
    assert d.users == db.users && d.ledger == db.ledger && d.byTelegram == db.byTelegram && d.nextUserId == db.nextUserId;
  }

  /** Processing the same payment twice credits it once: the second run changes nothing and reports success. */
  lemma ProcessTwiceCreditsOnce(db: Db, yookassaId: string, amount: Option<AmountObj>, amount2: Option<AmountObj>, now: int, now2: int)
    ensures var a := ProcessSucceededPayment(db, yookassaId, amount, now);
      a.Applied? && a.ok ==> ProcessSucceededPayment(a.db, yookassaId, amount2, now2) == Applied(true, a.db)
  {
    var a := ProcessSucceededPayment(db, yookassaId, amount, now);
    if a.Applied? && a.ok {
      match PaymentIndex(db.payments, yookassaId)
      case Some(k) =>
        if db.payments[k].status != StatusSucceeded {
          assert a.db.payments[k].status == StatusSucceeded;
          PaymentIndexStable(db.payments, a.db.payments, yookassaId, k);
        }
    }
  }

  /** Changing one payment's status keeps the id lookup. */
  lemma PaymentIndexStable(ps: seq<PaymentRow>, qs: seq<PaymentRow>, yookassaId: string, k: nat)
    requires PaymentIndex(ps, yookassaId) == Some(k)
    requires |qs| == |ps| && forall j :: 0 <= j < |ps| ==> qs[j].yookassaId == ps[j].yookassaId
    ensures PaymentIndex(qs, yookassaId) == Some(k)
  {
    if |ps| > 0 && k > 0 {
      PaymentIndexStable(ps[1..], qs[1..], yookassaId, k - 1);
    }
  }

  /** A created payment, confirmed with the amount it was created for, is credited its package. */
  lemma CreatedPaymentCreditsItsPackage(db: Db, telegramId: int, amountRub: nat, pid: string, t1: int, t2: int)
    requires Valid(db)
    requires amountRub in CreditPackages && UserByTelegram(db, telegramId).Some?
    requires PaymentIndex(db.payments, pid).None? && !ReasonRefTaken(db.ledger, ReasonPayment, Some(pid))
    ensures var c := CreatePayment(db, true, telegramId, amountRub, CreatedRemotely(pid), t1);
      && c.PaymentCreated?
      && var a := ProcessSucceededPayment(c.db, pid, Some(AmountObj(Some(NatToString(amountRub) + ".00"), Some("RUB"))), t2);
      && a.Applied? && a.ok
      && CreditsOnce(c.db, a.db, pid)
      && c.db.payments[PaymentIndex(c.db.payments, pid).value].credits == CreditPackages[amountRub]
  {
    var c := CreatePayment(db, true, telegramId, amountRub, CreatedRemotely(pid), t1);
    var d := c.db;
    var n := |db.payments|;
    PaymentIndexAppend(db.payments, d.payments[n], pid);
    assert PaymentIndex(d.payments, pid) == Some(n);
    var text := NatToString(amountRub) + ".00";
    CanonicalAmountIsAccepted(amountRub);
    assert d.payments[n].userId in d.users;
    MatchingPaymentIsCredited(d, pid, Some(AmountObj(Some(text), Some("RUB"))), t2);
  }

  /** The amount object the provider echoes for a bot-created payment passes the check. */
  lemma CanonicalAmountIsAccepted(amountRub: nat)
    ensures AmountMatches(Some(AmountObj(Some(NatToString(amountRub) + ".00"), Some("RUB"))), amountRub)
  {
    CanonicalTextStrips(amountRub);
    CanonicalAmountParses(amountRub);
    AcceptedWhenParsed(NatToString(amountRub) + ".00", amountRub);
  }

  lemma CanonicalTextStrips(n: nat)
    ensures Strip(NatToString(n) + ".00") == NatToString(n) + ".00"
  {
    var text := NatToString(n) + ".00";
    assert IsAsciiDigit(text[0]);
    StripFixed(text);
  }

  /** A RUB amount whose stripped text parses to the expected value passes the check. */
  lemma AcceptedWhenParsed(text: string, amountRub: int)
    requires var d := ParseDecimal(Strip(text)); d.Some? && d.value.Finite? && FiniteEquals(d.value.coefficient, d.value.exponent, amountRub)
    ensures AmountMatches(Some(AmountObj(Some(text), Some("RUB"))), amountRub)
  {
    var r := ExtractAmountCurrency(Some(AmountObj(Some(text), Some("RUB"))));
    RubCurrency(text);
    assert r.0 == ParseDecimal(Strip(text));
  }

  lemma RubCurrency(text: string)
    ensures ExtractAmountCurrency(Some(AmountObj(Some(text), Some("RUB")))).1 == "RUB"
  {
    assert Strip("RUB") == "RUB" by { StripFixed("RUB"); }
    var rub := "RUB";
    assert forall k :: 0 <= k < |rub| ==> UpperChar(rub[k]) == rub[k];
    UpperFixed(rub);
  }

  lemma PaymentIndexAppend(ps: seq<PaymentRow>, row: PaymentRow, pid: string)
    requires PaymentIndex(ps, pid).None? && row.yookassaId == Some(pid)
    ensures PaymentIndex(ps + [row], pid) == Some(|ps|)
  {
    if |ps| > 0 {
      assert (ps + [row])[1..] == ps[1..] + [row];
      PaymentIndexAppend(ps[1..], row, pid);
    }
  }

  // ---------------------------------------------------------------------------
  // Entry points
  // ---------------------------------------------------------------------------

  /** The provider's own record of a payment, or a failed lookup. */
  datatype Verification = LookupFailed | Verified(status: Option<string>, amountValue: Option<string>, amountCurrency: Option<string>)

  /** The notification body: the `event` and the `object` (here `payment`) with its `id`, `status` and `amount`. */
  datatype PaymentObject = PaymentObject(id: Option<string>, status: Option<string>, amount: Option<AmountObj>)
  datatype Notification = Notification(event: Option<string>, payment: PaymentObject)

  predicate ConfirmedByProvider(v: Verification) {
    v.Verified? && v.status == Some(StatusSucceeded)
  }

  /** Does a notification pass the webhook's checks before the provider lookup? */
  predicate WebhookEventAccepted(n: Notification) {
    && n.event == Some("payment.succeeded") && n.payment.status == Some(StatusSucceeded)
    && n.payment.id.Some? && n.payment.id.value != ""
  }

  /** The amount the webhook processes: the provider's, when it gives both value and currency, else the notification's. */
  function WebhookAmount(n: Notification, verification: Verification): Option<AmountObj> {
    if verification.Verified? && verification.amountValue.Some? && verification.amountCurrency.Some? then
      Some(AmountObj(verification.amountValue, verification.amountCurrency))
    else n.payment.amount
  }

  /**
   `process_yookassa_webhook`: only a "payment.succeeded" event whose object
   is "succeeded", has a non-empty id and is confirmed by the provider is
   processed, with the provider's amount when it gives both value and
   currency. Every failure answers false and changes nothing.
   */
  function ProcessWebhook(db: Db, n: Notification, verification: Verification, now: int): (r: (bool, Db))
    ensures r.0 ==> && n.event == Some("payment.succeeded") && n.payment.status == Some(StatusSucceeded)
                    && n.payment.id.Some? && n.payment.id.value != "" && ConfirmedByProvider(verification)
    ensures !ConfirmedByProvider(verification) ==> r == (false, db)
    ensures !r.0 ==> r.1 == db
    ensures WebhookEventAccepted(n) && ConfirmedByProvider(verification) ==>
      var a := ProcessSucceededPayment(db, n.payment.id.value, WebhookAmount(n, verification), now);
      && (a.Aborted? ==> r == (false, db))
      && (a.Applied? ==> r == (a.ok, a.db))
  {
    if n.event != Some("payment.succeeded") || n.payment.status != Some(StatusSucceeded) then (false, db)
    else if n.payment.id.None? || n.payment.id.value == "" then (false, db)
    else if !ConfirmedByProvider(verification) then (false, db)
    else
      match ProcessSucceededPayment(db, n.payment.id.value, WebhookAmount(n, verification), now)
      case Aborted => (false, db)
      case Applied(ok, d) => (ok, d)
  }

  /** The telegram id of a payment's owner. */
  function PaymentOwner(db: Db, yookassaId: string): Option<int> {
    match PaymentIndex(db.payments, yookassaId)
    case None => None
    case Some(k) =>
      var uid := db.payments[k].userId;
      if uid in db.users then Some(db.users[uid].telegramId) else None
  }

  /** The amount object built from a provider record: value "0" and currency "RUB" stand in for missing parts. */
  function VerifiedAmount(v: Verification): Option<AmountObj>
    requires v.Verified?
  {
    Some(AmountObj(Some(v.amountValue.GetOr("0")), Some(v.amountCurrency.GetOr("RUB"))))
  }

  datatype ConfirmResult = Disabled | Answered(ok: bool, db: Db) | ConfirmRaised

  /**
   `confirm_payment_and_process`: refused to anyone but the payment's owner
   and for any payment the provider does not confirm; an exception inside
   the crediting transaction leaves the function.
   */
  function ConfirmPayment(db: Db, enabled: bool, telegramId: int, yookassaId: string, verification: Verification, now: int): (r: ConfirmResult)
    ensures !enabled <==> r == Disabled
    ensures enabled && PaymentOwner(db, yookassaId) != Some(telegramId) ==> r == Answered(false, db)
    ensures enabled && !ConfirmedByProvider(verification) ==> r == Answered(false, db)
    ensures r.Answered? && !r.ok ==> r.db == db
    ensures r.Answered? && r.db != db ==> PaymentOwner(db, yookassaId) == Some(telegramId) && ConfirmedByProvider(verification)
    ensures enabled && PaymentOwner(db, yookassaId) == Some(telegramId) && ConfirmedByProvider(verification) ==>
      var a := ProcessSucceededPayment(db, yookassaId, VerifiedAmount(verification), now);
      && (a.Aborted? <==> r == ConfirmRaised)
      && (a.Applied? ==> r == Answered(a.ok, a.db))
  {
    if !enabled then Disabled
    else if PaymentOwner(db, yookassaId) != Some(telegramId) then Answered(false, db)
    else if !ConfirmedByProvider(verification) then Answered(false, db)
    else match ProcessSucceededPayment(db, yookassaId, VerifiedAmount(verification), now)
      case Aborted => ConfirmRaised
      case Applied(ok, d) => Answered(ok, d)
  }

  /**
   A confirmed "payment.succeeded" notification of a pending payment whose
   amount, as the webhook chooses it, matches is answered true and credits
   the payment's package exactly once.
   */
  lemma WebhookCreditsMatchingPayment(db: Db, n: Notification, verification: Verification, now: int)
    requires WebhookEventAccepted(n) && ConfirmedByProvider(verification)
    requires PaymentIndex(db.payments, n.payment.id.value).Some?
    requires var p := db.payments[PaymentIndex(db.payments, n.payment.id.value).value];
      p.status != StatusSucceeded && p.userId in db.users && AmountMatches(WebhookAmount(n, verification), p.amountRub)
    requires !ReasonRefTaken(db.ledger, ReasonPayment, Some(n.payment.id.value))
    ensures var r := ProcessWebhook(db, n, verification, now);
      r.0 && CreditsOnce(db, r.1, n.payment.id.value)
  {
    MatchingPaymentIsCredited(db, n.payment.id.value, WebhookAmount(n, verification), now);
  }

  /**
   When the provider reports both the value and the currency, the amount in
   the notification itself plays no part: any two notifications that differ
   only there are processed alike.
   */
  lemma VerifiedAmountReplacesWebhookAmount(db: Db, n: Notification, other: Option<AmountObj>, verification: Verification, now: int)
    requires verification.Verified? && verification.amountValue.Some? && verification.amountCurrency.Some?
    ensures ProcessWebhook(db, n, verification, now)
         == ProcessWebhook(db, n.(payment := n.payment.(amount := other)), verification, now)
  {
  }

  /**
   The owner's confirmation of a pending payment that the provider confirms
   with the matching amount is answered true and credits the package once.
   */
  lemma OwnerConfirmationCredits(db: Db, telegramId: int, yookassaId: string, verification: Verification, now: int)
    requires PaymentOwner(db, yookassaId) == Some(telegramId) && ConfirmedByProvider(verification)
    requires var p := db.payments[PaymentIndex(db.payments, yookassaId).value];
      p.status != StatusSucceeded && AmountMatches(VerifiedAmount(verification), p.amountRub)
    requires !ReasonRefTaken(db.ledger, ReasonPayment, Some(yookassaId))
    ensures var r := ConfirmPayment(db, true, telegramId, yookassaId, verification, now);
      r.Answered? && r.ok && CreditsOnce(db, r.db, yookassaId)
  {
    MatchingPaymentIsCredited(db, yookassaId, VerifiedAmount(verification), now);
  }

  /** Is a pending row old enough, and identified, so that reconciliation looks at it? */
  predicate Eligible(p: PaymentRow, cutoff: int) {
    p.yookassaId.Some? && p.yookassaId.value != "" && p.createdAt <= cutoff
  }

  function CountEligible(pending: seq<PaymentRow>, cutoff: int): (n: nat)
    ensures n <= |pending|
  {
    if |pending| == 0 then 0
    else (if Eligible(pending[0], cutoff) then 1 else 0) + CountEligible(pending[1..], cutoff)
  }

  /**
   The loop of `reconcile_pending_payments` over the pending rows the query
   returned (oldest first, at most the limit): rows without an id or newer
   than the cutoff are skipped, as are rows the provider does not confirm;
   any exception skips the row. Returns how many rows were processed
   successfully.
   */
  function ReconcileFrom(db: Db, pending: seq<PaymentRow>, cutoff: int, verify: string -> Verification, now: int): (r: (nat, Db))
    ensures r.0 <= CountEligible(pending, cutoff)
    ensures CountEligible(pending, cutoff) == 0 ==> r == (0, db)
    decreases |pending|
  {
    if |pending| == 0 then (0, db)
    else
      var p := pending[0];
      var (step, d) :=
        if !Eligible(p, cutoff) then (0, db)
        else
          var v := verify(p.yookassaId.value);
          if !ConfirmedByProvider(v) then (0, db)
          else match ProcessSucceededPayment(db, p.yookassaId.value, VerifiedAmount(v), now)
            case Aborted => (0, db)
            case Applied(ok, d) => (if ok then 1 else 0, d);
      var (n, d') := ReconcileFrom(d, pending[1..], cutoff, verify, now);
      (step + n, d')
  }

  /** `reconcile_pending_payments`: nothing happens when payments are disabled. */
  function Reconcile(db: Db, enabled: bool, pending: seq<PaymentRow>, now: int, olderThan: int, verify: string -> Verification): (r: (nat, Db))
    ensures !enabled ==> r == (0, db)
    ensures r.0 <= CountEligible(pending, now - olderThan)
  {
    if !enabled then (0, db) else ReconcileFrom(db, pending, now - olderThan, verify, now)
  }
}

=== FILE: prompt_parse.dfy ===
/**
 Splitting a free-text request into the prompt and an aspect ratio: the
 first whole-token ratio among a fixed list is taken out, and only then is
 the remaining text tidied.
 */
module PromptParse {
  import opened Basics
  import opened Strings

  /** The alternatives of the ratio pattern, in the order the pattern lists them. */
  const Ratios: seq<string> := ["1:1", "3:4", "4:3", "16:9", "9:16", "2:3", "3:2", "21:9"]

  /**
   A character of the regex class `\w` for `str` patterns: letters and digits
   and the underscore. Covered here are ASCII, the Latin-1 supplement and the
   Cyrillic blocks.
   */
  predicate IsWordChar(c: char) {
    || IsAsciiAlnum(c) || c == '_'
    || c == '\U{AA}' || c == '\U{B2}' || c == '\U{B3}' || c == '\U{B5}' || c == '\U{B9}' || c == '\U{BA}'
    || ('\U{BC}' <= c <= '\U{BE}')
    || ('\U{C0}' <= c <= '\U{FF}' && c != '\U{D7}' && c != '\U{F7}')
    || ('\U{400}' <= c <= '\U{481}') || ('\U{48A}' <= c <= '\U{52F}')
  }

  /** `\b` before a match that starts with a word character. */
  predicate BoundaryBefore(s: string, i: int)
    requires 0 <= i <= |s|
  {
    i == 0 || !IsWordChar(s[i - 1])
  }

  /** `\b` after a match that ends with a word character. */
  predicate BoundaryAfter(s: string, j: int)
    requires 0 <= j <= |s|
  {
    j == |s| || !IsWordChar(s[j])
  }

  /** `tok` stands at offset `i` as a whole token. */
  predicate TokenAt(s: string, i: int, tok: string) {
    OccursAt(s, tok, i) && BoundaryBefore(s, i) && BoundaryAfter(s, i + |tok|)
  }

  predicate NoRatioAt(s: string, i: int) {
    forall m :: 0 <= m < |Ratios| ==> !TokenAt(s, i, Ratios[m])
  }

  /** The pattern tried at one offset: the first alternative, from `m` on, that matches as a whole token. */
  function RatioAt(s: string, i: nat, m: nat): (k: Option<nat>)
    requires m <= |Ratios|
    ensures k.Some? ==> m <= k.value < |Ratios| && TokenAt(s, i, Ratios[k.value])
    ensures k.Some? ==> forall n :: m <= n < k.value ==> !TokenAt(s, i, Ratios[n])
    ensures k.None? ==> forall n :: m <= n < |Ratios| ==> !TokenAt(s, i, Ratios[n])
    decreases |Ratios| - m
  {
    if m == |Ratios| then None
    else if TokenAt(s, i, Ratios[m]) then Some(m)
    else RatioAt(s, i, m + 1)
  }

  /** `search`: the leftmost offset from `i` on where a ratio stands, with the alternative that matched. */
  function FindRatio(s: string, i: nat): (f: Option<(nat, nat)>)
    ensures f.Some? ==>
      && i <= f.value.0 < |s| && f.value.1 < |Ratios|
      && TokenAt(s, f.value.0, Ratios[f.value.1])
      && (forall j :: i <= j < f.value.0 ==> NoRatioAt(s, j))
    ensures f.None? ==> forall j :: i <= j ==> NoRatioAt(s, j)
    decreases |s| - i
  {
    if i >= |s| then None
    else match RatioAt(s, i, 0)
      case Some(k) => Some((i, k))
      case None => FindRatio(s, i + 1)
  }

  /** Alternatives never compete: at any offset at most one ratio stands as a whole token. */
  lemma RatioTokenUnique(s: string, i: int, m: nat, n: nat)
    requires m < |Ratios| && n < |Ratios| && m != n
    requires TokenAt(s, i, Ratios[m])
    ensures !TokenAt(s, i, Ratios[n])
  {
  }

  /** Drop every whitespace character: what tidying must never change. */
  function NonSpace(s: string): (r: string)
    ensures |r| <= |s|
    ensures forall k :: 0 <= k < |r| ==> !IsSpace(r[k])
  {
    if |s| == 0 then ""
    else if IsSpace(s[0]) then NonSpace(s[1..])
    else [s[0]] + NonSpace(s[1..])
  }

  lemma {:induction false} NonSpaceConcat(a: string, b: string)
    ensures NonSpace(a + b) == NonSpace(a) + NonSpace(b)
    decreases |a|
  {
    if |a| > 0 {
      assert (a + b)[1..] == a[1..] + b;
      NonSpaceConcat(a[1..], b);
    } else {
      assert a + b == b;
    }
  }

  lemma {:induction false} NonSpaceOfSpaces(s: string)
    requires AllSpace(s)
    ensures NonSpace(s) == ""
    decreases |s|
  {
    if |s| > 0 {
      NonSpaceOfSpaces(s[1..]);
    }
  }

  /** Stripping only removes whitespace. */
  lemma StripKeepsNonSpace(s: string)
    ensures NonSpace(Strip(s)) == NonSpace(s)
  {
    var l := LStrip(s);
    var r := RStrip(l);
    LStripFacts(s);
    RStripFacts(l);
    assert s == s[..|s| - |l|] + l;
    NonSpaceConcat(s[..|s| - |l|], l);
    NonSpaceOfSpaces(s[..|s| - |l|]);
    assert l == r + l[|r|..];
    NonSpaceConcat(r, l[|r|..]);
    NonSpaceOfSpaces(l[|r|..]);
  }

  /** How many whitespace characters `s` starts with. */
  function SpaceRun(s: string): (n: nat)
    ensures n <= |s| && AllSpace(s[..n])
    ensures n < |s| ==> !IsSpace(s[n])
  {
    if |s| > 0 && IsSpace(s[0]) then 1 + SpaceRun(s[1..]) else 0
  }

  predicate NoDoubleSpace(s: string) {
    forall k :: 0 <= k < |s| - 1 ==> !(IsSpace(s[k]) && IsSpace(s[k + 1]))
  }

  /** `re.sub(r"\s{2,}", " ", s)`: every run of two or more whitespace characters becomes one space. */
  function CollapseSpaces(s: string): (r: string)
    ensures |r| <= |s|
    ensures |r| > 0 <==> |s| > 0
    ensures |r| > 0 ==> (IsSpace(r[0]) <==> IsSpace(s[0]))
    ensures NoDoubleSpace(r)
    ensures NonSpace(r) == NonSpace(s)
    decreases |s|
  {
    if |s| == 0 then ""
    else if IsSpace(s[0]) then
      var n := SpaceRun(s);
      var head := if n >= 2 then " " else [s[0]];
      var rest := CollapseSpaces(s[n..]);
      assert s == s[..n] + s[n..];
      NonSpaceConcat(s[..n], s[n..]);
      NonSpaceOfSpaces(s[..n]);
      NonSpaceConcat(head, rest);
      assert head + rest == [head[0]] + rest;
      head + rest
    else
      var rest := CollapseSpaces(s[1..]);
      assert s == [s[0]] + s[1..];
      [s[0]] + rest
  }

  /** A blank text strips to nothing. */
  lemma StripOfSpaces(s: string)
    ensures AllSpace(s) ==> Strip(s) == ""
  {
    LStripFacts(s);
  }

  /** Take out the `n` characters at `i`, then strip. */
  function CutAndStrip(txt: string, i: nat, n: nat): (rest: string)
    requires i + n <= |txt|
    ensures rest == Strip(txt[..i] + txt[i + n..])
    ensures |rest| > 0 ==> !IsSpace(rest[0])
  {
    var l := LStrip(txt[..i] + txt[i + n..]);
    var rest := RStrip(l);
    LStripFacts(txt[..i] + txt[i + n..]);
    RStripFacts(l);
    assert rest == l[..|rest|];
    rest
  }

  /** The first whole-token ratio of `txt` stands at `i`. */
  predicate FirstRatioAt(txt: string, i: int, tok: string) {
    0 <= i && i + |tok| <= |txt| && TokenAt(txt, i, tok) && forall j :: 0 <= j < i ==> NoRatioAt(txt, j)
  }

  /** The text left when the `n` characters at `i` are cut out and the rest is tidied. */
  function Tidied(txt: string, i: int, n: nat): string
    requires 0 <= i && i + n <= |txt|
  {
    CollapseSpaces(Strip(txt[..i] + txt[i + n..]))
  }

  /** `prompt` is `txt` with its first whole-token ratio `tok` cut out, stripped and collapsed. */
  ghost predicate CutFirstRatio(txt: string, tok: string, prompt: string) {
    exists i :: FirstRatioAt(txt, i, tok) && prompt == Tidied(txt, i, |tok|)
  }

  /** The offset `CutFirstRatio` speaks of. */
  lemma CutOffset(txt: string, tok: string, prompt: string) returns (i: int)
    requires CutFirstRatio(txt, tok, prompt)
    ensures FirstRatioAt(txt, i, tok) && prompt == Tidied(txt, i, |tok|)
  {
    i :| FirstRatioAt(txt, i, tok) && prompt == Tidied(txt, i, |tok|);
  }

  /** There is only one first ratio: its offset and its token are determined by the text. */
  lemma FirstRatioIsUnique(txt: string, i: int, tok: string, i': int, tok': string)
    requires tok in Ratios && tok' in Ratios
    requires FirstRatioAt(txt, i, tok) && FirstRatioAt(txt, i', tok')
    ensures i == i' && tok == tok'
  {
    var m :| 0 <= m < |Ratios| && Ratios[m] == tok;
    var n :| 0 <= n < |Ratios| && Ratios[n] == tok';
    assert i < i' ==> NoRatioAt(txt, i);
    assert i' < i ==> NoRatioAt(txt, i');
    if m != n {
      RatioTokenUnique(txt, i, m, n);
    }
  }

  /** The parse of a stripped, non-empty text. */
  function ParseStripped(txt: string): (r: (string, Option<string>))
    ensures r.1.None? ==> r.0 == txt && forall j :: 0 <= j ==> NoRatioAt(txt, j)
    ensures r.1.Some? ==>
      && r.1.value in Ratios
      && CutFirstRatio(txt, r.1.value, r.0)
    ensures r.1.Some? ==> NoDoubleSpace(r.0) && (|r.0| > 0 ==> !IsSpace(r.0[0]))
  {
    match FindRatio(txt, 0)
    case None => (txt, None)
    case Some((i, k)) =>
      var tok := Ratios[k];
      var cut := txt[..i] + txt[i + |tok|..];
      var rest := CutAndStrip(txt, i, |tok|);
      assert rest == Strip(cut);
      var prompt := CollapseSpaces(rest);
      assert FirstRatioAt(txt, i, tok) && prompt == Tidied(txt, i, |tok|);
      (prompt, Some(tok))
  }

  /**
   `_parse_prompt_and_ar`: a missing or blank text gives an empty prompt and
   no ratio. Otherwise the first whole-token ratio is the aspect ratio; when
   there is one, that occurrence alone is removed and the rest is stripped
   and has its whitespace runs collapsed; when there is none, the stripped
   text is the prompt as it is.
   */
  function ParsePromptAndRatio(text: Option<string>): (r: (string, Option<string>))
    ensures text.None? ==> r == ("", None)
    ensures r.1.None? ==> r.0 == Strip(text.GetOr("")) && forall j :: 0 <= j ==> NoRatioAt(r.0, j)
    ensures r.1.Some? ==>
      var txt := Strip(text.GetOr(""));
      && r.1.value in Ratios
      && CutFirstRatio(txt, r.1.value, r.0)
    ensures r.1.Some? ==> NoDoubleSpace(r.0) && (|r.0| > 0 ==> !IsSpace(r.0[0]))
  {
    var txt := Strip(text.GetOr(""));
    if |txt| == 0 then ("", None) else ParseStripped(txt)
  }

  /** A blank text, whatever its whitespace, parses to an empty prompt and no ratio. */
  lemma BlankParsesEmpty(text: string)
    requires AllSpace(text)
    ensures ParsePromptAndRatio(Some(text)) == ("", None)
  {
    StripOfSpaces(text);
  }

  /**
   A ratio is reported exactly when one stands somewhere in the stripped
   text as a whole token, and then it is the first one.
   */
  lemma RatioFoundIffPresent(text: string, i: int, tok: string)
    requires tok in Ratios && FirstRatioAt(Strip(text), i, tok)
    ensures ParsePromptAndRatio(Some(text)).1 == Some(tok)
  {
    var txt := Strip(text);
    var r := ParsePromptAndRatio(Some(text));
    var m :| 0 <= m < |Ratios| && Ratios[m] == tok;
    assert !NoRatioAt(txt, i);
    assert r.1.Some?;
    assert CutFirstRatio(txt, r.1.value, r.0);
    var i' := CutOffset(txt, r.1.value, r.0);
    FirstRatioIsUnique(txt, i, tok, i', r.1.value);
  }

  /** With the first ratio at `i`, the prompt is the text around it, tidied. */
  lemma ParseIsTidied(text: string, i: int, tok: string)
    requires tok in Ratios && FirstRatioAt(Strip(text), i, tok)
    ensures ParsePromptAndRatio(Some(text)) == (Tidied(Strip(text), i, |tok|), Some(tok))
  {
    var txt := Strip(text);
    RatioFoundIffPresent(text, i, tok);
    var r := ParsePromptAndRatio(Some(text));
    assert CutFirstRatio(txt, tok, r.0);
    var i' := CutOffset(txt, tok, r.0);
    FirstRatioIsUnique(txt, i, tok, i', tok);
  }

  /**
   Tidying only ever takes out whitespace: with the ratio token cut out, the
   other characters of the text survive, in order.
   */
  lemma TidiedKeepsNonSpace(txt: string, i: int, n: nat)
    requires 0 <= i && i + n <= |txt|
    ensures NonSpace(Tidied(txt, i, n)) == NonSpace(txt[..i]) + NonSpace(txt[i + n..])
  {
    var cut := txt[..i] + txt[i + n..];
    StripKeepsNonSpace(cut);
    NonSpaceConcat(txt[..i], txt[i + n..]);
  }
}

=== FILE: replicate.dfy ===
/**
 The decision logic of the Replicate client: the extraction of a result URL
 from the many shapes a prediction output takes, the fixed-interval polling
 of a prediction, the bounded retry loop with its one fallback request
 without an aspect ratio, the request inputs, and the dispatch between the
 Nano Banana and Riverflow models. Every remote call is a scripted input:
 the creation outcome, the prediction record returned by the k-th status
 request, and the download of a URL.
 */
module Replicate {
  import opened Basics
  import opened Strings

  const ModelNanoBanana := "google/nano-banana-pro"
  const ModelRiverflow := "sourceful/riverflow-2.0-pro"
  const MaxWaitTime := 600
  const PollInterval := 2
  const MaxRetries := 3
  const NanoMaxImages := 8
  const RiverflowMaxImages := 10

  // ---------------------------------------------------------------------------
  // Output shapes
  // ---------------------------------------------------------------------------

  /**
   The values a prediction output can be made of. `PyObject` is any other
   object: `url` is its `url` attribute when it has one (a `FileOutput`), and
   `truthy` its truth value.
   */
  datatype PyValue =
    | PyNone
    | PyStr(s: string)
    | PyList(items: seq<PyValue>)
    | PyDict(entries: seq<(string, PyValue)>)
    | PyObject(url: Option<PyValue>, truthy: bool)

  /** Python truthiness. */
  predicate Truthy(v: PyValue) {
    match v
    case PyNone => false
    case PyStr(s) => s != ""
    case PyList(items) => |items| > 0
    case PyDict(entries) => |entries| > 0
    case PyObject(_, t) => t
  }

  /** `a or b`. */
  function Or(a: PyValue, b: PyValue): (r: PyValue)
    ensures Truthy(a) ==> r == a
    ensures !Truthy(a) ==> r == b
    ensures r == a || r == b
    ensures Truthy(r) <==> Truthy(a) || Truthy(b)
  {
    if Truthy(a) then a else b
  }

  /** `d.get(k)`: the value stored under `k`, `None` when absent. */
  function DictGet(entries: seq<(string, PyValue)>, k: string): (v: PyValue)
    ensures v != PyNone ==> exists i :: 0 <= i < |entries| && entries[i] == (k, v)
    ensures (forall i :: 0 <= i < |entries| ==> entries[i].0 != k) ==> v == PyNone
  {
    if |entries| == 0 then PyNone
    else if entries[0].0 == k then entries[0].1
    else DictGet(entries[1..], k)
  }

  /** The URL of a `FileOutput`-like object: its `url` attribute, when that is a string. */
  function UrlAttr(v: PyValue): Option<string> {
    if v.PyObject? && v.url.Some? && v.url.value.PyStr? then Some(v.url.value.s) else None
  }

  /** A string or an object's string URL, if `v` is either. */
  function StrOrUrl(v: PyValue): (r: Option<PyValue>)
    ensures r.Some? ==> r.value.PyStr?
    ensures v.PyStr? ==> r == Some(v)
  {
    if UrlAttr(v).Some? then Some(PyStr(UrlAttr(v).value))
    else if v.PyStr? then Some(v)
    else None
  }

  /** What the first element of a list output yields; `None` falls through. */
  function FromListHead(first: PyValue): Option<PyValue> {
    if StrOrUrl(first).Some? then StrOrUrl(first)
    else if first.PyDict? then Some(Or(DictGet(first.entries, "url"), DictGet(first.entries, "href")))
    else None
  }

  /** What the value under one key of a dict output yields: a string, or the first element of a list. */
  function FromDictValue(v: PyValue): (r: Option<PyValue>)
    ensures r.Some? ==> r.value.PyStr?
  {
    if StrOrUrl(v).Some? then StrOrUrl(v)
    else if v.PyList? && |v.items| > 0 then StrOrUrl(v.items[0])
    else None
  }

  /** The keys of a dict output, in the order they are tried. */
  const DictKeys := ["output", "image", "image_url", "url"]

  /** The `j`-th key is the first one that yields something, and it yields `v`. */
  predicate FirstDictHit(entries: seq<(string, PyValue)>, keys: seq<string>, j: int, v: PyValue) {
    && 0 <= j < |keys|
    && FromDictValue(DictGet(entries, keys[j])) == Some(v)
    && forall i :: 0 <= i < j ==> FromDictValue(DictGet(entries, keys[i])).None?
  }

  /** The key loop over a dict output. */
  function ScanKeys(entries: seq<(string, PyValue)>, keys: seq<string>): (r: Option<PyValue>)
    ensures r.Some? ==> FirstDictHit(entries, keys, KeyHit(entries, keys), r.value)
    ensures r.None? ==> forall j :: 0 <= j < |keys| ==> FromDictValue(DictGet(entries, keys[j])).None?
    decreases |keys|
  {
    if |keys| == 0 then None
    else if FromDictValue(DictGet(entries, keys[0])).Some? then FromDictValue(DictGet(entries, keys[0]))
    else ScanKeys(entries, keys[1..])
  }

  /** The index of the first key that yields something, `|keys|` if none does. */
  function KeyHit(entries: seq<(string, PyValue)>, keys: seq<string>): (j: nat)
    ensures j <= |keys|
    ensures forall i :: 0 <= i < j ==> FromDictValue(DictGet(entries, keys[i])).None?
    ensures j < |keys| ==> FromDictValue(DictGet(entries, keys[j])).Some?
    decreases |keys|
  {
    if |keys| == 0 then 0
    else if FromDictValue(DictGet(entries, keys[0])).Some? then 0
    else 1 + KeyHit(entries, keys[1..])
  }

  /**
   `_pick_first_url`: `None` stays `None`; an object with a string `url`
   gives that URL; a string is returned verbatim; of a list only the first
   element is inspected; a dict is searched under its keys in order. Any
   other shape gives `None`.
   */
  function PickFirstUrl(output: PyValue): (r: PyValue)
    ensures output == PyNone ==> r == PyNone
    ensures output.PyStr? ==> r == output
    ensures UrlAttr(output).Some? ==> r == PyStr(UrlAttr(output).value)
    ensures r != PyNone && !r.PyStr? ==> output.PyList? && |output.items| > 0 && output.items[0].PyDict?
    ensures output.PyList? && |output.items| > 0 && UrlAttr(output.items[0]).Some? ==>
      r == PyStr(UrlAttr(output.items[0]).value)
    ensures output.PyList? && |output.items| > 0 && output.items[0].PyStr? ==> r == output.items[0]
    ensures output.PyList? && |output.items| > 0 && output.items[0].PyDict? ==>
      r == Or(DictGet(output.items[0].entries, "url"), DictGet(output.items[0].entries, "href"))
    ensures output.PyList? && |output.items| == 0 ==> r == PyNone
    ensures (&& output.PyList? && |output.items| > 0 && UrlAttr(output.items[0]).None?
             && !output.items[0].PyStr? && !output.items[0].PyDict?) ==> r == PyNone
    ensures output.PyObject? && UrlAttr(output).None? ==> r == PyNone
    ensures output.PyDict? ==>
      (exists j :: FirstDictHit(output.entries, DictKeys, j, r))
      || (r == PyNone && forall j :: 0 <= j < |DictKeys| ==> FromDictValue(DictGet(output.entries, DictKeys[j])).None?)
  {
    if output.PyNone? then PyNone
    else if StrOrUrl(output).Some? then StrOrUrl(output).value
    else if output.PyList? && |output.items| > 0 && FromListHead(output.items[0]).Some? then
      FromListHead(output.items[0]).value
    else if output.PyDict? then ScanKeys(output.entries, DictKeys).GetOr(PyNone)
    else PyNone
  }

  /** Only the head of a list output matters: the rest of the list is never looked at. */
  lemma PickIgnoresListTail(head: PyValue, a: seq<PyValue>, b: seq<PyValue>)
    ensures PickFirstUrl(PyList([head] + a)) == PickFirstUrl(PyList([head] + b))
  {
    assert ([head] + a)[0] == head == ([head] + b)[0];
  }

  /** An `output` key holding a string wins over every later key of a dict output. */
  lemma DictOutputKeyFirst(entries: seq<(string, PyValue)>, s: string)
    requires |entries| > 0 && entries[0] == ("output", PyStr(s))
    ensures PickFirstUrl(PyDict(entries)) == PyStr(s)
  {
    assert DictGet(entries, DictKeys[0]) == PyStr(s);
  }

  // ---------------------------------------------------------------------------
  // Polling a prediction
  // ---------------------------------------------------------------------------

  /** What a status request returns: `status`, `output` and the `error` text. */
  datatype Prediction = Prediction(status: string, output: PyValue, error: string)

  /** Why a call failed: the local timeout, or any other exception with its message. */
  datatype Failure = TimedOut | Raised(message: string)

  predicate Terminal(status: string) {
    status == "succeeded" || status == "failed" || status == "canceled"
  }

  /** The number of status requests the wait budget admits: 600 seconds at one every 2 seconds. */
  const MaxPolls := MaxWaitTime / PollInterval

  datatype Waited = Waited(result: Result<PyValue, Failure>, polls: nat)

  /**
   `_wait_for_prediction`, continued after `done` status requests (so
   `PollInterval * done` seconds have been counted): while the count is
   below the budget, the next record is fetched; success returns the
   output, failure and cancellation raise, anything else waits.
   */
  function WaitFrom(poll: nat -> Prediction, done: nat): (w: Waited)
    requires done <= MaxPolls
    ensures done <= w.polls <= MaxPolls
    ensures forall k :: done <= k < w.polls - 1 ==> !Terminal(poll(k).status)
    ensures w.result == Err(TimedOut) <==>
      w.polls == MaxPolls && forall k :: done <= k < MaxPolls ==> !Terminal(poll(k).status)
    ensures w.result.Ok? ==>
      w.polls > done && poll(w.polls - 1).status == "succeeded" && w.result.value == poll(w.polls - 1).output
    ensures w.result.Err? && w.result.error.Raised? ==>
      && w.polls > done
      && (poll(w.polls - 1).status == "failed" ==> w.result.error.message == "Prediction failed: " + poll(w.polls - 1).error)
      && (poll(w.polls - 1).status == "canceled" ==> w.result.error.message == "Prediction was canceled")
      && (poll(w.polls - 1).status == "failed" || poll(w.polls - 1).status == "canceled")
    decreases MaxPolls - done
  {
    if !(PollInterval * done < MaxWaitTime) then Waited(Err(TimedOut), done)
    else
      var p := poll(done);
      if p.status == "succeeded" then Waited(Ok(p.output), done + 1)
      else if p.status == "failed" then Waited(Err(Raised("Prediction failed: " + p.error)), done + 1)
      else if p.status == "canceled" then Waited(Err(Raised("Prediction was canceled")), done + 1)
      else WaitFrom(poll, done + 1)
  }

  /** The wait makes at most 300 status requests, and a prediction that never ends uses all of them. */
  lemma WaitIsBounded(poll: nat -> Prediction)
    ensures WaitFrom(poll, 0).polls <= 300
    ensures (forall k :: 0 <= k < 300 ==> !Terminal(poll(k).status)) ==> WaitFrom(poll, 0) == Waited(Err(TimedOut), 300)
  {
  }

  /** One remote call: whether creating the prediction failed, its status records, and the download of a URL. */
  datatype Call = Call(createFailure: Option<Failure>, poll: nat -> Prediction, fetch: string -> Option<Bytes>)

  function RunCall(c: Call): Result<PyValue, Failure> {
    if c.createFailure.Some? then Err(c.createFailure.value) else WaitFrom(c.poll, 0).result
  }

  /** `_download_bytes`: only a string URL can be fetched; anything else fails inside the client and gives `None`. */
  function FetchUrl(fetch: string -> Option<Bytes>, url: PyValue): (r: Option<Bytes>)
    ensures !url.PyStr? ==> r.None?
  {
    if url.PyStr? then fetch(url.s) else None
  }

  // ---------------------------------------------------------------------------
  // Requests
  // ---------------------------------------------------------------------------

  /**
   The inputs of a prediction. The fixed fields (resolution "2K", the output
   format, the safety settings) are implied by the constructor; images are
   kept as bytes rather than base64 data URIs.
   */
  datatype Request =
    | NanoRequest(model: string, prompt: string, imageInput: seq<Bytes>, aspectRatio: Option<string>)
    | RiverflowRequest(instruction: string, initImages: Option<seq<Bytes>>, aspectRatio: Option<string>)

  predicate NonEmpty(v: Option<string>) {
    v.Some? && v.value != ""
  }

  /** The Nano Banana inputs: at most 8 images, and the aspect ratio only when asked for and non-empty. */
  function NanoInputs(model: string, prompt: string, images: seq<Bytes>, aspectRatio: Option<string>, includeAspectRatio: bool): (q: Request)
    ensures q.NanoRequest? && q.model == model && q.prompt == prompt
    ensures |q.imageInput| == Min(|images|, NanoMaxImages) && q.imageInput == images[..|q.imageInput|]
    ensures q.aspectRatio.Some? <==> includeAspectRatio && NonEmpty(aspectRatio)
    ensures q.aspectRatio.Some? ==> q.aspectRatio == aspectRatio
  {
    NanoRequest(model, prompt, images[..Min(|images|, NanoMaxImages)],
      if includeAspectRatio && NonEmpty(aspectRatio) then aspectRatio else None)
  }

  /** The Riverflow inputs: `init_images` only when there are images, at most 10 of them. */
  function RiverflowInputs(instruction: string, images: seq<Bytes>, aspectRatio: Option<string>): (q: Request)
    ensures q.RiverflowRequest? && q.instruction == instruction
    ensures q.initImages.Some? <==> |images| > 0
    ensures q.initImages.Some? ==>
      |q.initImages.value| == Min(|images|, RiverflowMaxImages) && q.initImages.value == images[..|q.initImages.value|]
    ensures q.aspectRatio.Some? <==> NonEmpty(aspectRatio)
    ensures q.aspectRatio.Some? ==> q.aspectRatio == aspectRatio
  {
    RiverflowRequest(instruction,
      if |images| > 0 then Some(images[..Min(|images|, RiverflowMaxImages)]) else None,
      if NonEmpty(aspectRatio) then aspectRatio else None)
  }

  // ---------------------------------------------------------------------------
  // The retry loops
  // ---------------------------------------------------------------------------

  /** The scripted remote behaviour of one attempt: the main call and the fallback call without an aspect ratio. */
  datatype AttemptScript = AttemptScript(main: Call, fallback: Call)

  /** The result of a run and the requests it sent, in order. */
  datatype Run = Run(result: Option<Bytes>, sent: seq<Request>)

  function Prepend(qs: seq<Request>, r: Run): (r': Run)
    ensures r'.result == r.result && r'.sent == qs + r.sent
  {
    Run(r.result, qs + r.sent)
  }

  /** Does an error message suggest that the model rejected the aspect ratio parameter? */
  predicate RejectsAspectRatio(message: string) {
    var m := Lower(message);
    Contains(m, "aspect_ratio") || Contains(m, "unexpected") || Contains(m, "invalid")
  }

  /** The main path of an attempt after a successful wait: no URL or an empty download ends the run with nothing. */
  function Deliver(c: Call, output: PyValue): (r: Option<Bytes>)
    ensures r.Some? ==> |r.value| > 0
    ensures r.Some? <==>
      Truthy(PickFirstUrl(output)) && FetchUrl(c.fetch, PickFirstUrl(output)).Some?
      && |FetchUrl(c.fetch, PickFirstUrl(output)).value| > 0
    ensures r.Some? ==> r == FetchUrl(c.fetch, PickFirstUrl(output))
  {
    var url := PickFirstUrl(output);
    if !Truthy(url) then None
    else
      var data := FetchUrl(c.fetch, url);
      if data.Some? && |data.value| > 0 then data else None
  }

  /**
   Does this attempt end the Nano Banana run? Its wait succeeds, or it
   raises an error about the aspect ratio (given and non-empty) and the
   request without it then completes its wait.
   */
  predicate Settles(s: AttemptScript, aspectRatio: Option<string>) {
    || RunCall(s.main).Ok?
    || (&& RunCall(s.main).Err? && RunCall(s.main).error.Raised?
        && NonEmpty(aspectRatio) && RejectsAspectRatio(RunCall(s.main).error.message)
        && RunCall(s.fallback).Ok?)
  }

  /** What a settling attempt returns: the main output's delivery, or the fallback output's download. */
  function SettledResult(s: AttemptScript, aspectRatio: Option<string>): Option<Bytes>
    requires Settles(s, aspectRatio)
  {
    if RunCall(s.main).Ok? then Deliver(s.main, RunCall(s.main).value)
    else
      var url := PickFirstUrl(RunCall(s.fallback).value);
      if Truthy(url) then FetchUrl(s.fallback.fetch, url) else None
  }

  /** The first attempt from `attempt` on that settles, `MaxRetries + 1` when none does. */
  function FirstSettledAttempt(script: nat -> AttemptScript, aspectRatio: Option<string>, attempt: nat): (k: nat)
    requires 1 <= attempt <= MaxRetries + 1
    ensures attempt <= k <= MaxRetries + 1
    ensures forall j :: attempt <= j < k ==> !Settles(script(j), aspectRatio)
    ensures k <= MaxRetries ==> Settles(script(k), aspectRatio)
    decreases MaxRetries + 1 - attempt
  {
    if attempt > MaxRetries || Settles(script(attempt), aspectRatio) then attempt
    else FirstSettledAttempt(script, aspectRatio, attempt + 1)
  }

  /**
   `run_nano_banana` from attempt `attempt` on. A successful wait ends the
   run, with or without a result; a timeout moves to the next attempt; any
   other error first tries one request without the aspect ratio when the
   message points at that parameter, and its outcome, whatever it is, ends
   the run unless that request raised too.
   */
  function NanoFrom(model: string, prompt: string, images: seq<Bytes>, aspectRatio: Option<string>,
                    script: nat -> AttemptScript, attempt: nat): (r: Run)
    requires 1 <= attempt <= MaxRetries + 1
    ensures |r.sent| <= 2 * (MaxRetries + 1 - attempt)
    ensures !NonEmpty(aspectRatio) ==> |r.sent| <= MaxRetries + 1 - attempt
    ensures forall i :: 0 <= i < |r.sent| ==>
      r.sent[i] == NanoInputs(model, prompt, images, aspectRatio, true)
      || r.sent[i] == NanoInputs(model, prompt, images, aspectRatio, false)
    ensures attempt <= MaxRetries ==> |r.sent| > 0 && r.sent[0] == NanoInputs(model, prompt, images, aspectRatio, true)
    ensures var k := FirstSettledAttempt(script, aspectRatio, attempt);
      && (k <= MaxRetries ==> r.result == SettledResult(script(k), aspectRatio))
      && (k > MaxRetries ==> r.result.None?)
      && |r.sent| >= (if k <= MaxRetries then k + 1 - attempt else k - attempt)
    decreases MaxRetries + 1 - attempt
  {
    if attempt > MaxRetries then Run(None, [])
    else
      var s := script(attempt);
      var q := NanoInputs(model, prompt, images, aspectRatio, true);
      match RunCall(s.main)
      case Ok(output) => Run(Deliver(s.main, output), [q])
      case Err(TimedOut) => Prepend([q], NanoFrom(model, prompt, images, aspectRatio, script, attempt + 1))
      case Err(Raised(msg)) =>
        if NonEmpty(aspectRatio) && RejectsAspectRatio(msg) then
          var q2 := NanoInputs(model, prompt, images, aspectRatio, false);
          match RunCall(s.fallback)
          case Ok(output) =>
            var url := PickFirstUrl(output);
            Run(if Truthy(url) then FetchUrl(s.fallback.fetch, url) else None, [q, q2])
          case Err(_) => Prepend([q, q2], NanoFrom(model, prompt, images, aspectRatio, script, attempt + 1))
        else Prepend([q], NanoFrom(model, prompt, images, aspectRatio, script, attempt + 1))
  }

  function RunNanoBanana(model: string, prompt: string, images: seq<Bytes>, aspectRatio: Option<string>,
                         script: nat -> AttemptScript): (r: Run)
    ensures |r.sent| <= 2 * MaxRetries
    ensures !NonEmpty(aspectRatio) ==> |r.sent| <= MaxRetries
    ensures forall i :: 0 <= i < |r.sent| ==> r.sent[i].NanoRequest? && r.sent[i].model == model && r.sent[i].prompt == prompt
    ensures |r.sent| > 0 && r.sent[0] == NanoInputs(model, prompt, images, aspectRatio, true)
    ensures var k := FirstSettledAttempt(script, aspectRatio, 1);
      && (k <= MaxRetries ==> r.result == SettledResult(script(k), aspectRatio))
      && (k > MaxRetries ==> r.result.None?)
      && |r.sent| >= (if k <= MaxRetries then k else MaxRetries)
  {
    NanoFrom(model, prompt, images, aspectRatio, script, 1)
  }

  /**
   A raised error that does not lead to the request without the aspect
   ratio is followed by the next attempt, after this attempt's one request.
   */
  lemma NanoErrorRetries(model: string, prompt: string, images: seq<Bytes>, aspectRatio: Option<string>,
                         script: nat -> AttemptScript, attempt: nat, msg: string)
    requires 1 <= attempt <= MaxRetries
    requires RunCall(script(attempt).main) == Err(Raised(msg))
    requires !(NonEmpty(aspectRatio) && RejectsAspectRatio(msg))
    ensures NanoFrom(model, prompt, images, aspectRatio, script, attempt)
         == Prepend([NanoInputs(model, prompt, images, aspectRatio, true)],
                    NanoFrom(model, prompt, images, aspectRatio, script, attempt + 1))
  {
  }

  /**
   When the request without the aspect ratio raises or times out too, the
   next attempt follows, after both requests of this one.
   */
  lemma FailedFallbackRetries(model: string, prompt: string, images: seq<Bytes>, aspectRatio: Option<string>,
                              script: nat -> AttemptScript, attempt: nat, msg: string)
    requires 1 <= attempt <= MaxRetries
    requires RunCall(script(attempt).main) == Err(Raised(msg))
    requires NonEmpty(aspectRatio) && RejectsAspectRatio(msg)
    requires RunCall(script(attempt).fallback).Err?
    ensures NanoFrom(model, prompt, images, aspectRatio, script, attempt)
         == Prepend([NanoInputs(model, prompt, images, aspectRatio, true), NanoInputs(model, prompt, images, aspectRatio, false)],
                    NanoFrom(model, prompt, images, aspectRatio, script, attempt + 1))
  {
  }

  /** A successful wait with no usable URL ends the run at once: no further attempt is made. */
  lemma NoUrlStopsRetrying(model: string, prompt: string, images: seq<Bytes>, aspectRatio: Option<string>,
                           script: nat -> AttemptScript, attempt: nat)
    requires 1 <= attempt <= MaxRetries
    requires RunCall(script(attempt).main).Ok? && !Truthy(PickFirstUrl(RunCall(script(attempt).main).value))
    ensures NanoFrom(model, prompt, images, aspectRatio, script, attempt) == Run(None, [NanoInputs(model, prompt, images, aspectRatio, true)])
  {
  }

  /**
   A successful wait whose output holds a URL with a non-empty download ends
   the run with that download, after the one request of this attempt.
   */
  lemma NanoSuccessDelivers(model: string, prompt: string, images: seq<Bytes>, aspectRatio: Option<string>,
                            script: nat -> AttemptScript, attempt: nat, d: Bytes)
    requires 1 <= attempt <= MaxRetries
    requires RunCall(script(attempt).main).Ok?
    requires Truthy(PickFirstUrl(RunCall(script(attempt).main).value))
    requires FetchUrl(script(attempt).main.fetch, PickFirstUrl(RunCall(script(attempt).main).value)) == Some(d) && |d| > 0
    ensures NanoFrom(model, prompt, images, aspectRatio, script, attempt) == Run(Some(d), [NanoInputs(model, prompt, images, aspectRatio, true)])
  {
  }

  /**
   A raised error that points at the aspect ratio, when one was given, is
   followed by one request without it; when that request's wait succeeds,
   its download, empty or not, is the result and the run ends.
   */
  lemma AspectRatioFallback(model: string, prompt: string, images: seq<Bytes>, aspectRatio: Option<string>,
                            script: nat -> AttemptScript, attempt: nat, msg: string)
    requires 1 <= attempt <= MaxRetries
    requires RunCall(script(attempt).main) == Err(Raised(msg))
    requires NonEmpty(aspectRatio) && RejectsAspectRatio(msg)
    requires RunCall(script(attempt).fallback).Ok?
    ensures var r := NanoFrom(model, prompt, images, aspectRatio, script, attempt);
      var url := PickFirstUrl(RunCall(script(attempt).fallback).value);
      && r.sent == [NanoInputs(model, prompt, images, aspectRatio, true), NanoInputs(model, prompt, images, aspectRatio, false)]
      && r.sent[0].aspectRatio == aspectRatio && r.sent[1].aspectRatio.None?
      && (Truthy(url) ==> r.result == FetchUrl(script(attempt).fallback.fetch, url))
      && (!Truthy(url) ==> r.result.None?)
  {
  }

  /** Three timed-out attempts give nothing, after exactly three requests. */
  lemma TimeoutsExhaustRetries(model: string, prompt: string, images: seq<Bytes>, aspectRatio: Option<string>,
                               script: nat -> AttemptScript)
    requires forall k :: 1 <= k <= MaxRetries ==> RunCall(script(k).main) == Err(TimedOut)
    ensures RunNanoBanana(model, prompt, images, aspectRatio, script).result.None?
    ensures |RunNanoBanana(model, prompt, images, aspectRatio, script).sent| == MaxRetries
  {
    assert RunCall(script(1).main) == Err(TimedOut);
    assert RunCall(script(2).main) == Err(TimedOut);
    assert RunCall(script(3).main) == Err(TimedOut);
  }

  /**
   The first attempt from `attempt` on whose call does not raise or time
   out, `MaxRetries + 1` when every remaining one does.
   */
  function FirstOkAttempt(script: nat -> AttemptScript, attempt: nat): (k: nat)
    requires 1 <= attempt <= MaxRetries + 1
    ensures attempt <= k <= MaxRetries + 1
    ensures forall j :: attempt <= j < k ==> RunCall(script(j).main).Err?
    ensures k <= MaxRetries ==> RunCall(script(k).main).Ok?
    decreases MaxRetries + 1 - attempt
  {
    if attempt > MaxRetries || RunCall(script(attempt).main).Ok? then attempt
    else FirstOkAttempt(script, attempt + 1)
  }

  /**
   `run_riverflow` from attempt `attempt` on: the same loop without the
   fallback request. Every failed attempt moves on to the next; the first
   attempt whose wait succeeds decides the result by its URL and download.
   */
  function RiverflowFrom(instruction: string, images: seq<Bytes>, aspectRatio: Option<string>,
                         script: nat -> AttemptScript, attempt: nat): (r: Run)
    requires 1 <= attempt <= MaxRetries + 1
    ensures |r.sent| <= MaxRetries + 1 - attempt
    ensures forall i :: 0 <= i < |r.sent| ==> r.sent[i] == RiverflowInputs(instruction, images, aspectRatio)
    ensures r.result.Some? ==> |r.result.value| > 0
    ensures var k := FirstOkAttempt(script, attempt);
      && (k <= MaxRetries ==> r.result == Deliver(script(k).main, RunCall(script(k).main).value))
      && (k > MaxRetries ==> r.result.None?)
      && |r.sent| == (if k <= MaxRetries then k + 1 - attempt else k - attempt)
    decreases MaxRetries + 1 - attempt
  {
    if attempt > MaxRetries then Run(None, [])
    else
      var s := script(attempt);
      var q := RiverflowInputs(instruction, images, aspectRatio);
      match RunCall(s.main)
      case Ok(output) => Run(Deliver(s.main, output), [q])
      case Err(_) => Prepend([q], RiverflowFrom(instruction, images, aspectRatio, script, attempt + 1))
  }

  /**
   `edit_image`: the Riverflow model runs the Riverflow loop; every other
   model name goes to the Nano Banana loop with that model.
   */
  function EditImage(images: seq<Bytes>, prompt: string, aspectRatio: Option<string>, model: string,
                     script: nat -> AttemptScript): (r: Run)
    ensures forall i :: 0 <= i < |r.sent| ==> (r.sent[i].RiverflowRequest? <==> model == ModelRiverflow)
    ensures forall i :: 0 <= i < |r.sent| ==> r.sent[i].NanoRequest? ==> r.sent[i].model == model
    ensures |r.sent| <= 2 * MaxRetries
  {
    if model == ModelRiverflow then RiverflowFrom(prompt, images, aspectRatio, script, 1)
    else RunNanoBanana(model, prompt, images, aspectRatio, script)
  }

  /** `generate_image`: the same dispatch with no input images, so no request carries any. */
  function GenerateImage(prompt: string, aspectRatio: Option<string>, model: string, script: nat -> AttemptScript): (r: Run)
    ensures forall i :: 0 <= i < |r.sent| ==> (r.sent[i].RiverflowRequest? <==> model == ModelRiverflow)
    ensures forall i :: 0 <= i < |r.sent| ==>
      (r.sent[i].NanoRequest? ==> r.sent[i].imageInput == []) && (r.sent[i].RiverflowRequest? ==> r.sent[i].initImages.None?)
  {
    EditImage([], prompt, aspectRatio, model, script)
  }
}

=== FILE: schema.dfy ===
/**
 The relational store of the bot: users, the credit ledger, generations,
 payments and support tickets, as immutable values. Auto-increment ids are a
 counter carried in the store; the unique index on `users.telegram_id` is the
 `byTelegram` map.
 */
module Schema {
  import opened Basics

  datatype UserRow = UserRow(
    telegramId: int,
    username: Option<string>,
    firstName: Option<string>,
    isAdmin: bool,
    isBanned: bool,
    balance: int,
    referredBy: Option<int>)

  /** One row of `credit_ledger`: `amount` is signed, positive credits and negative debits. */
  datatype LedgerEntry = LedgerEntry(
    userId: int,
    amount: int,
    reason: string,
    referenceId: Option<string>,
    balanceAfter: int)

  datatype GenerationRow = GenerationRow(
    requestId: string,
    userId: int,
    tariff: string,
    prompt: Option<string>,
    cost: int,
    status: string,
    completedAt: Option<int>)

  datatype PaymentRow = PaymentRow(
    userId: int,
    amountRub: int,
    credits: int,
    status: string,
    yookassaId: Option<string>,
    createdAt: int,
    paidAt: Option<int>)

  datatype SupportMessage = SupportMessage(
    userId: int,
    messageText: string,
    adminReply: Option<string>,
    repliedAt: Option<int>)

  datatype Db = Db(
    users: map<int, UserRow>,
    byTelegram: map<int, int>,
    nextUserId: int,
    ledger: seq<LedgerEntry>,
    generations: map<int, GenerationRow>,
    nextGenerationId: int,
    payments: seq<PaymentRow>,
    tickets: map<string, SupportMessage>)

  const ReasonPayment := "payment"
  const ReasonPro := "pro"
  const ReasonRefund := "refund"
  const ReasonReferral := "referral"
  const ReasonWelcome := "welcome"

  /** The `(reason, reference_id)` unique constraint: PostgreSQL lets NULL references repeat. */
  predicate ReasonRefUnique(ledger: seq<LedgerEntry>) {
    forall i, j :: 0 <= i < j < |ledger| && ledger[i].referenceId.Some? ==>
      !(ledger[i].reason == ledger[j].reason && ledger[i].referenceId == ledger[j].referenceId)
  }

  /** Would a new row with this reason and reference break the unique constraint? */
  predicate ReasonRefTaken(ledger: seq<LedgerEntry>, reason: string, ref: Option<string>) {
    ref.Some? && exists i :: 0 <= i < |ledger| && ledger[i].reason == reason && ledger[i].referenceId == ref
  }

  /** Net credit movement of one user over a prefix of the ledger. */
  function SumFor(ledger: seq<LedgerEntry>, userId: int): int {
    if |ledger| == 0 then 0
    else
      var e := ledger[|ledger| - 1];
      SumFor(ledger[..|ledger| - 1], userId) + (if e.userId == userId then e.amount else 0)
  }

  /** The telegram-id index and the users table describe the same rows. */
  predicate IndexConsistent(db: Db) {
    && (forall t :: t in db.byTelegram ==>
          db.byTelegram[t] in db.users && db.users[db.byTelegram[t]].telegramId == t)
    && (forall id :: id in db.users ==>
          db.users[id].telegramId in db.byTelegram && db.byTelegram[db.users[id].telegramId] == id)
    && (forall id :: id in db.users ==> id < db.nextUserId)
  }

  /**
   The ledger is the history of every balance: each user's balance is the sum
   of their entries, every entry's `balance_after` is the running sum at that
   point, every entry belongs to a known user, and the unique constraint holds.
   */
  predicate LedgerConsistent(db: Db) {
    && ReasonRefUnique(db.ledger)
    && (forall i :: 0 <= i < |db.ledger| ==> db.ledger[i].userId in db.users)
    && (forall id :: id in db.users ==> db.users[id].balance == SumFor(db.ledger, id))
    && (forall i :: 0 <= i < |db.ledger| ==>
          db.ledger[i].balanceAfter == SumFor(db.ledger[..i + 1], db.ledger[i].userId))
  }

  predicate Valid(db: Db) {
    IndexConsistent(db) && LedgerConsistent(db)
  }

  function UserByTelegram(db: Db, telegramId: int): Option<int> {
    if telegramId in db.byTelegram then Some(db.byTelegram[telegramId]) else None
  }

  /** The first payment row carrying this YooKassa id (the column is unique). */
  function PaymentIndex(payments: seq<PaymentRow>, yookassaId: string): (r: Option<nat>)
    ensures r.Some? ==> r.value < |payments| && payments[r.value].yookassaId == Some(yookassaId)
    ensures r.None? ==> forall i :: 0 <= i < |payments| ==> payments[i].yookassaId != Some(yookassaId)
  {
    if |payments| == 0 then None
    else if payments[0].yookassaId == Some(yookassaId) then Some(0)
    else match PaymentIndex(payments[1..], yookassaId)
      case None => None
      case Some(k) => Some(k + 1)
  }

  /** An empty store with no users: it satisfies every invariant. */
  function EmptyDb(): (db: Db)
    ensures Valid(db)
  {
    Db(map[], map[], 1, [], map[], 1, [], map[])
  }
}

=== FILE: strings.dfy ===
/**
 The few Python `str` operations the system relies on, over `seq<char>`.

 Whitespace is Python's `str.isspace` (the same set `strip()` and the `\s`
 regex class use). Case mapping covers ASCII and the Cyrillic block, the two
 alphabets the bot's users write in.
 */
module Strings {
  import opened Basics

  /** `c.isspace()` in Python 3. */
  predicate IsSpace(c: char) {
    || c == ' '
    || ('\t' <= c <= '\r')
    || ('\U{1C}' <= c <= '\U{1F}')
    || c == '\U{85}' || c == '\U{A0}' || c == '\U{1680}'
    || ('\U{2000}' <= c <= '\U{200A}')
    || c == '\U{2028}' || c == '\U{2029}' || c == '\U{202F}' || c == '\U{205F}' || c == '\U{3000}'
  }

  predicate IsAsciiDigit(c: char) {
    '0' <= c <= '9'
  }

  predicate IsAsciiLetter(c: char) {
    ('a' <= c <= 'z') || ('A' <= c <= 'Z')
  }

  predicate IsAsciiAlnum(c: char) {
    IsAsciiDigit(c) || IsAsciiLetter(c)
  }

  predicate AllSpace(s: string) {
    forall i :: 0 <= i < |s| ==> IsSpace(s[i])
  }

  /** `s.lstrip()`. */
  function LStrip(s: string): string
    decreases |s|
  {
    if |s| > 0 && IsSpace(s[0]) then LStrip(s[1..]) else s
  }

  /** `s.rstrip()`. */
  function RStrip(s: string): string
    decreases |s|
  {
    if |s| > 0 && IsSpace(s[|s| - 1]) then RStrip(s[..|s| - 1]) else s
  }

  /** `lstrip()` drops the leading whitespace and nothing else. */
  lemma {:induction false} LStripFacts(s: string)
    ensures var r := LStrip(s);
      && |r| <= |s| && r == s[|s| - |r|..]
      && AllSpace(s[..|s| - |r|])
      && (|r| > 0 ==> !IsSpace(r[0]))
    decreases |s|
  {
    if |s| > 0 && IsSpace(s[0]) {
      LStripFacts(s[1..]);
      var r := LStrip(s);
      assert s[1..][|s| - 1 - |r|..] == s[|s| - |r|..];
      assert s[..|s| - |r|] == [s[0]] + s[1..][..|s| - 1 - |r|];
    }
  }

  /** `rstrip()` drops the trailing whitespace and nothing else. */
  lemma {:induction false} RStripFacts(s: string)
    ensures var r := RStrip(s);
      && |r| <= |s| && r == s[..|r|]
      && AllSpace(s[|r|..])
      && (|r| > 0 ==> !IsSpace(r[|r| - 1]))
    decreases |s|
  {
    if |s| > 0 && IsSpace(s[|s| - 1]) {
      RStripFacts(s[..|s| - 1]);
      var r := RStrip(s);
      assert s[..|s| - 1][..|r|] == s[..|r|];
      assert s[|r|..] == s[..|s| - 1][|r|..] + [s[|s| - 1]];
    }
  }

  /** `rstrip()` never removes a first character that is not whitespace. */
  lemma {:induction false} RStripKeepsHead(s: string)
    requires |s| > 0 && !IsSpace(s[0])
    ensures |RStrip(s)| > 0
    decreases |s|
  {
    if IsSpace(s[|s| - 1]) {
      assert |s| > 1;
      RStripKeepsHead(s[..|s| - 1]);
    }
  }

  /** `s.strip()`. */
  function Strip(s: string): string {
    RStrip(LStrip(s))
  }

  /** The stripped text is a contiguous piece of the input framed only by whitespace. */
  lemma StripIsTrimmedSlice(s: string)
    ensures var r := Strip(s);
      && (exists a, b :: 0 <= a <= b <= |s| && r == s[a..b] && AllSpace(s[..a]) && AllSpace(s[b..]))
      && (|r| > 0 ==> !IsSpace(r[0]) && !IsSpace(r[|r| - 1]))
  {
    var l := LStrip(s);
    var r := RStrip(l);
    LStripFacts(s);
    RStripFacts(l);
    var a := |s| - |l|;
    var b := a + |r|;
    assert r == s[a..b];
    assert s[b..] == l[|r|..];
  }

  /** `s.rstrip(c)` for a single character `c`. */
  function RStripChar(s: string, c: char): (r: string)
    ensures |r| <= |s| && r == s[..|r|]
    ensures forall i :: |r| <= i < |s| ==> s[i] == c
    ensures |r| > 0 ==> r[|r| - 1] != c
    decreases |s|
  {
    if |s| > 0 && s[|s| - 1] == c then RStripChar(s[..|s| - 1], c) else s
  }

  function LowerChar(c: char): char {
    if 'A' <= c <= 'Z' then (c as int + 32) as char
    else if '\U{410}' <= c <= '\U{42F}' then (c as int + 32) as char
    else if '\U{400}' <= c <= '\U{40F}' then (c as int + 80) as char
    else c
  }

  function UpperChar(c: char): char {
    if 'a' <= c <= 'z' then (c as int - 32) as char
    else if '\U{430}' <= c <= '\U{44F}' then (c as int - 32) as char
    else if '\U{450}' <= c <= '\U{45F}' then (c as int - 80) as char
    else c
  }

  /** `s.lower()`. */
  function Lower(s: string): (r: string)
    ensures |r| == |s|
    ensures forall i :: 0 <= i < |s| ==> r[i] == LowerChar(s[i])
  {
    seq(|s|, i requires 0 <= i < |s| => LowerChar(s[i]))
  }

  /** `s.upper()`. */
  function Upper(s: string): (r: string)
    ensures |r| == |s|
    ensures forall i :: 0 <= i < |s| ==> r[i] == UpperChar(s[i])
  {
    seq(|s|, i requires 0 <= i < |s| => UpperChar(s[i]))
  }

  predicate StartsWith(s: string, prefix: string) {
    |prefix| <= |s| && s[..|prefix|] == prefix
  }

  /** Does `sub` occur in `s` at offset `i`? */
  predicate OccursAt(s: string, sub: string, i: int) {
    0 <= i && i + |sub| <= |s| && s[i..i + |sub|] == sub
  }

  /** `s.find(sub)`, with `None` for -1: the leftmost occurrence. */
  function IndexOf(s: string, sub: string): (r: Option<nat>)
    ensures r.Some? ==> OccursAt(s, sub, r.value)
    ensures r.Some? ==> forall j :: 0 <= j < r.value ==> !OccursAt(s, sub, j)
    ensures r.None? ==> forall j :: !OccursAt(s, sub, j)
    decreases |s|
  {
    if |sub| > |s| then None
    else if s[..|sub|] == sub then Some(0)
    else
      OccursAtTail(s, sub);
      match IndexOf(s[1..], sub)
      case None => None
      case Some(k) => Some(k + 1)
  }

  /** An occurrence past the first character is an occurrence in the tail, one place earlier. */
  lemma OccursAtTail(s: string, sub: string)
    requires |s| > 0
    ensures forall j :: j >= 1 ==> (OccursAt(s, sub, j) <==> OccursAt(s[1..], sub, j - 1))
  {
    forall j | j >= 1
      ensures OccursAt(s, sub, j) <==> OccursAt(s[1..], sub, j - 1)
    {
      if j + |sub| <= |s| {
        var a, b := s[j..j + |sub|], s[1..][j - 1..j - 1 + |sub|];
        assert |a| == |b|;
        forall k | 0 <= k < |a| ensures a[k] == b[k] {
          assert a[k] == s[j + k] && b[k] == s[1..][j - 1 + k];
        }
        assert a == b;
      }
    }
  }

  /** Python's `sub in s`. */
  predicate Contains(s: string, sub: string) {
    IndexOf(s, sub).Some?
  }

  /** `s.replace(pat, repl, 1)`. */
  function ReplaceFirst(s: string, pat: string, repl: string): (r: string)
    ensures IndexOf(s, pat).None? ==> r == s
    ensures IndexOf(s, pat).Some? ==>
      var i := IndexOf(s, pat).value; r == s[..i] + repl + s[i + |pat|..]
  {
    match IndexOf(s, pat)
    case None => s
    case Some(i) => s[..i] + repl + s[i + |pat|..]
  }

  /** `s.split(sep)` for a one-character separator: at least one part, none containing `sep`. */
  function Split(s: string, sep: char): (parts: seq<string>)
    ensures |parts| >= 1
    ensures forall i :: 0 <= i < |parts| ==> sep !in parts[i]
    ensures Join(parts, sep) == s
  {
    if |s| == 0 then [""]
    else
      var rest := Split(s[1..], sep);
      if s[0] == sep then [""] + rest
      else
        assert Join(rest, sep) == s[1..];
        [[s[0]] + rest[0]] + rest[1..]
  }

  /** `sep.join(parts)`. */
  function Join(parts: seq<string>, sep: char): string {
    if |parts| == 0 then ""
    else if |parts| == 1 then parts[0]
    else parts[0] + [sep] + Join(parts[1..], sep)
  }

  function DigitChar(d: nat): char
    requires d < 10
  {
    "0123456789"[d]
  }

  /** `str(n)` for a non-negative integer. */
  function NatToString(n: nat): (r: string)
    ensures |r| >= 1
    ensures forall i :: 0 <= i < |r| ==> IsAsciiDigit(r[i])
  {
    if n < 10 then [DigitChar(n)] else NatToString(n / 10) + [DigitChar(n % 10)]
  }

  /** `str(i)`. */
  function IntToString(i: int): string {
    if i < 0 then "-" + NatToString(-i) else NatToString(i)
  }

  /** The value of a run of ASCII digits. */
  function DigitsValue(s: string): nat
    requires forall i :: 0 <= i < |s| ==> IsAsciiDigit(s[i])
  {
    if |s| == 0 then 0
    else
      assert IsAsciiDigit(s[|s| - 1]);
      DigitsValue(s[..|s| - 1]) * 10 + (s[|s| - 1] as int - '0' as int)
  }

  /** Reading back the digits `str(n)` writes gives `n`. */
  lemma {:induction false} DigitsValueOfNatToString(n: nat)
    ensures DigitsValue(NatToString(n)) == n
  {
    var r := NatToString(n);
    if n >= 10 {
      DigitsValueOfNatToString(n / 10);
      assert r[..|r| - 1] == NatToString(n / 10);
    }
  }

  /** Text with no whitespace at either end is its own `strip()`. */
  lemma StripFixed(s: string)
    requires |s| > 0 && !IsSpace(s[0]) && !IsSpace(s[|s| - 1])
    ensures Strip(s) == s
  {
  }

  /** Text that `lower()` leaves alone character by character is its own `lower()`. */
  lemma LowerFixed(s: string)
    requires forall k :: 0 <= k < |s| ==> LowerChar(s[k]) == s[k]
    ensures Lower(s) == s
  {
  }

  lemma UpperFixed(s: string)
    requires forall k :: 0 <= k < |s| ==> UpperChar(s[k]) == s[k]
    ensures Upper(s) == s
  {
  }

  /** Splitting `a + sep + rest` where `a` holds no separator yields `a` first. */
  lemma {:induction false} SplitAfterPrefix(a: string, rest: string, sep: char)
    requires sep !in a
    ensures Split(a + [sep] + rest, sep) == [a] + Split(rest, sep)
    decreases |a|
  {
    var s := a + [sep] + rest;
    if |a| > 0 {
      assert s[1..] == a[1..] + [sep] + rest;
      SplitAfterPrefix(a[1..], rest, sep);
      assert [a[0]] + a[1..] == a;
    } else {
      assert s[1..] == rest;
    }
  }

  /** A text without the separator splits into itself. */
  lemma {:induction false} SplitWithoutSeparator(a: string, sep: char)
    requires sep !in a
    ensures Split(a, sep) == [a]
    decreases |a|
  {
    if |a| > 0 {
      SplitWithoutSeparator(a[1..], sep);
      assert [a[0]] + a[1..] == a;
    }
  }

  /** `sep.join(parts).split(sep) == parts` when no part holds the separator. */
  lemma {:induction false} SplitOfJoin(parts: seq<string>, sep: char)
    requires |parts| >= 1
    requires forall i :: 0 <= i < |parts| ==> sep !in parts[i]
    ensures Split(Join(parts, sep), sep) == parts
    decreases |parts|
  {
    if |parts| == 1 {
      SplitWithoutSeparator(parts[0], sep);
    } else {
      SplitOfJoin(parts[1..], sep);
      SplitAfterPrefix(parts[0], Join(parts[1..], sep), sep);
      assert [parts[0]] + parts[1..] == parts;
    }
  }
}

=== FILE: support.dfy ===
/**
 Administrators answering support tickets.

 Two routes lead to the same write: the `/reply_<ticket> <text>` command,
 and the reply button, which parks the ticket id in the administrator's
 conversation state until the next text message. Either way the ticket row
 takes the reply and its time, and the ticket's author is notified; a
 failed notification does not change the outcome.
 */
module Support {
  import opened Basics
  import opened Strings
  import opened Schema

  const CommandPrefix := "/reply_"
  const StatePrefix := "support_reply_"

  /** Administrator rights come from the user row's flag alone. */
  predicate IsDbAdmin(db: Db, telegramId: int) {
    match UserByTelegram(db, telegramId)
    case None => false
    case Some(id) => id in db.users && db.users[id].isAdmin
  }

  // ---------------------------------------------------------------------------
  // The command pattern `^/reply_([A-Za-z0-9]+)\s+(.+)$` with DOTALL
  // ---------------------------------------------------------------------------

  predicate AllAlnum(s: string) {
    forall i :: 0 <= i < |s| ==> IsAsciiAlnum(s[i])
  }

  /** Length of the longest prefix of ASCII letters and digits. */
  function AlnumRun(s: string): (n: nat)
    ensures n <= |s| && AllAlnum(s[..n])
    ensures n < |s| ==> !IsAsciiAlnum(s[n])
  {
    if |s| > 0 && IsAsciiAlnum(s[0]) then
      var n := 1 + AlnumRun(s[1..]);
      assert forall i :: 1 <= i < n ==> s[..n][i] == s[1..][..n - 1][i - 1];
      n
    else 0
  }

  /** Length of the longest prefix of whitespace. */
  function SpaceRun(s: string): (n: nat)
    ensures n <= |s| && AllSpace(s[..n])
    ensures n < |s| ==> !IsSpace(s[n])
  {
    if |s| > 0 && IsSpace(s[0]) then
      var n := 1 + SpaceRun(s[1..]);
      assert forall i :: 1 <= i < n ==> s[..n][i] == s[1..][..n - 1][i - 1];
      n
    else 0
  }

  /**
   The shape of a match: the command prefix, a non-empty alphanumeric
   ticket, a non-empty whitespace gap, then a non-empty body that starts
   after the whole gap, except that a gap running to the end gives its last
   character up to the body.
   */
  predicate ReplyShape(text: string, ticket: string, body: string) {
    && |ticket| >= 1 && AllAlnum(ticket) && |body| >= 1
    && |CommandPrefix| + |ticket| + 1 + |body| <= |text|
    && text[..|CommandPrefix|] == CommandPrefix
    && text[|CommandPrefix|..|CommandPrefix| + |ticket|] == ticket
    && AllSpace(text[|CommandPrefix| + |ticket|..|text| - |body|])
    && text[|text| - |body|..] == body
    && (!IsSpace(body[0]) || |body| == 1)
  }

  /** `re.match` of the command pattern: the two groups, or `None`. */
  function MatchReply(text: string): (r: Option<(string, string)>)
    ensures r.Some? ==> ReplyShape(text, r.value.0, r.value.1)
  {
    var p := |CommandPrefix|;
    if !StartsWith(text, CommandPrefix) then None
    else
      var a := AlnumRun(text[p..]);
      var w := SpaceRun(text[p + a..]);
      if a == 0 || w == 0 then None
      else
        assert text[p..][..a] == text[p..p + a];
        assert text[p + a..][..w] == text[p + a..p + a + w];
        if p + a + w < |text| then
          var body := text[p + a + w..];
          assert body[0] == text[p + a..][w];
          Some((text[p..p + a], body))
        else if w >= 2 then
          assert text[p + a..|text| - 1] == text[p + a..p + a + w][..w - 1];
          Some((text[p..p + a], text[|text| - 1..]))
        else None
  }

  lemma AlnumRunOf(t: string, s: string)
    requires AllAlnum(t) && |s| > 0 && !IsAsciiAlnum(s[0])
    ensures AlnumRun(t + s) == |t|
    decreases |t|
  {
    if |t| > 0 {
      assert (t + s)[1..] == t[1..] + s;
      AlnumRunOf(t[1..], s);
    }
  }

  lemma SpaceRunOf(w: string, s: string)
    requires AllSpace(w) && (|s| == 0 || !IsSpace(s[0]))
    ensures SpaceRun(w + s) == |w|
    decreases |w|
  {
    if |w| > 0 {
      assert (w + s)[1..] == w[1..] + s;
      SpaceRunOf(w[1..], s);
    } else {
      assert w + s == s;
    }
  }

  /** In a text of the command's shape the ticket group is the whole alphanumeric run. */
  lemma TicketIsRun(text: string, ticket: string, body: string)
    requires ReplyShape(text, ticket, body)
    ensures AlnumRun(text[|CommandPrefix|..]) == |ticket|
  {
    var p := |CommandPrefix|;
    var after := text[p + |ticket|..];
    assert after[0] == text[p + |ticket|];
    assert text[p + |ticket|..|text| - |body|][0] == text[p + |ticket|];
    assert text[p..] == ticket + after;
    AlnumRunOf(ticket, after);
  }

  /** In a text of the command's shape the whitespace run after the ticket is the gap, plus a final blank body. */
  lemma GapIsRun(text: string, ticket: string, body: string)
    requires ReplyShape(text, ticket, body)
    ensures SpaceRun(text[|CommandPrefix| + |ticket|..])
      == |text| - |body| - |CommandPrefix| - |ticket| + (if IsSpace(body[0]) then 1 else 0)
  {
    var p := |CommandPrefix|;
    var gap := text[p + |ticket|..|text| - |body|];
    var after := text[p + |ticket|..];
    assert after == gap + body;
    if !IsSpace(body[0]) {
      SpaceRunOf(gap, body);
    } else {
      assert after == (gap + body) + [];
      SpaceRunOf(gap + body, []);
    }
  }

  /** Every text of the command's shape matches, with exactly those groups: the pattern has one reading. */
  lemma MatchReplyComplete(text: string, ticket: string, body: string)
    requires ReplyShape(text, ticket, body)
    ensures MatchReply(text) == Some((ticket, body))
  {
    var p := |CommandPrefix|;
    TicketIsRun(text, ticket, body);
    GapIsRun(text, ticket, body);
    var a := |ticket|;
    var w := SpaceRun(text[p + a..]);
    assert text[p..p + a] == ticket;
    if !IsSpace(body[0]) {
      assert p + a + w == |text| - |body|;
    } else {
      assert |body| == 1 && p + a + w == |text|;
      assert w >= 2;
    }
  }

  /** A text of the form `/reply_<ticket> <body>` with a body that does not start with whitespace parses back to its parts. */
  lemma CommandRoundTrip(ticket: string, body: string)
    requires |ticket| >= 1 && AllAlnum(ticket)
    requires |body| >= 1 && !IsSpace(body[0])
    ensures MatchReply(CommandPrefix + ticket + " " + body) == Some((ticket, body))
  {
    var text := CommandPrefix + ticket + " " + body;
    var p := |CommandPrefix|;
    assert text[..p] == CommandPrefix;
    assert text[p..p + |ticket|] == ticket;
    assert text[p + |ticket|..|text| - |body|] == " ";
    assert text[|text| - |body|..] == body;
    MatchReplyComplete(text, ticket, body);
  }

  // ---------------------------------------------------------------------------
  // Writing the reply
  // ---------------------------------------------------------------------------

  /** The result of `_send_reply_by_ticket`: the answer, the store, and the chat notified. */
  datatype Delivery = Delivery(found: bool, db: Db, notifyChat: Option<int>)

  /** Store the reply on the ticket and name the author's chat; an unknown ticket changes nothing. */
  function SendReplyByTicket(db: Db, ticket: string, reply: string, now: int): (r: Delivery)
    ensures r.found <==> ticket in db.tickets
    ensures !r.found ==> r.db == db && r.notifyChat.None?
    ensures r.found ==>
      && r.db == db.(tickets := r.db.tickets)
      && r.db.tickets.Keys == db.tickets.Keys
      && r.db.tickets[ticket] == db.tickets[ticket].(adminReply := Some(reply), repliedAt := Some(now))
      && (forall t :: t in db.tickets && t != ticket ==> r.db.tickets[t] == db.tickets[t])
      && (r.notifyChat.Some? <==> db.tickets[ticket].userId in db.users)
  {
    if ticket !in db.tickets then Delivery(false, db, None)
    else
      var msg := db.tickets[ticket];
      var d := db.(tickets := db.tickets[ticket := msg.(adminReply := Some(reply), repliedAt := Some(now))]);
      var chat := if msg.userId in db.users then Some(db.users[msg.userId].telegramId) else None;
      Delivery(true, d, chat)
  }

  /** What the administrator is told. */
  datatype Outcome = Ignored | NotAdmin | BadFormat | EmptyReply | AwaitingReply(ticket: string) | Answered(ticket: string, found: bool)

  datatype Step = Step(outcome: Outcome, db: Db, state: Option<string>, notifyChat: Option<int>)

  /** `reply_command`: rights first, then the pattern, then a non-blank reply. */
  function ReplyCommand(db: Db, state: Option<string>, adminTelegramId: int, text: Option<string>, now: int): (r: Step)
    ensures r.state == state
    ensures !IsDbAdmin(db, adminTelegramId) ==> r == Step(NotAdmin, db, state, None)
    ensures r.outcome.Answered? <==>
      IsDbAdmin(db, adminTelegramId) && MatchReply(text.GetOr("")).Some? && Strip(MatchReply(text.GetOr("")).value.1) != ""
    ensures r.outcome.Answered? ==>
      var m := MatchReply(text.GetOr("")).value;
      && r.outcome.ticket == Upper(m.0)
      && SendReplyByTicket(db, Upper(m.0), Strip(m.1), now) == Delivery(r.outcome.found, r.db, r.notifyChat)
    ensures !r.outcome.Answered? ==> r.db == db && r.notifyChat.None?
  {
    if !IsDbAdmin(db, adminTelegramId) then Step(NotAdmin, db, state, None)
    else
      match MatchReply(text.GetOr(""))
      case None => Step(BadFormat, db, state, None)
      case Some((t, body)) =>
        var ticket := Upper(t);
        var reply := Strip(body);
        if reply == "" then Step(EmptyReply, db, state, None)
        else
          var d := SendReplyByTicket(db, ticket, reply, now);
          Step(Answered(ticket, d.found), d.db, state, d.notifyChat)
  }

  /** `support_reply_callback`: an administrator's button press parks the ticket id in the conversation state; a press without data is ignored. */
  function ReplyButton(db: Db, state: Option<string>, adminTelegramId: int, data: string): (r: Step)
    ensures r.db == db && r.notifyChat.None?
    ensures data == "" ==> r.outcome == Ignored && r.state == state
    ensures data != "" && !IsDbAdmin(db, adminTelegramId) ==> r.outcome == NotAdmin && r.state == state
    ensures data != "" && IsDbAdmin(db, adminTelegramId) ==> r.state == Some(StatePrefix + ReplaceFirst(data, StatePrefix, ""))
  {
    if data == "" then Step(Ignored, db, state, None)
    else if !IsDbAdmin(db, adminTelegramId) then Step(NotAdmin, db, state, None)
    else
      var ticket := ReplaceFirst(data, StatePrefix, "");
      Step(AwaitingReply(ticket), db, Some(StatePrefix + ticket), None)
  }

  lemma PrefixFound(s: string, prefix: string)
    requires StartsWith(s, prefix)
    ensures IndexOf(s, prefix) == Some(0)
    ensures ReplaceFirst(s, prefix, "") == s[|prefix|..]
  {
    assert OccursAt(s, prefix, 0);
  }

  /**
   `support_reply_text_handler`: only a parked reply state is acted on; a
   blank text keeps the state, anything else clears it before the reply is
   written to the parked ticket.
   */
  function ReplyText(db: Db, state: Option<string>, text: Option<string>, now: int): (r: Step)
    ensures state.None? || !StartsWith(state.value, StatePrefix) ==> r == Step(Ignored, db, state, None)
    ensures state.Some? && StartsWith(state.value, StatePrefix) ==>
      && (Strip(text.GetOr("")) == "" ==> r == Step(EmptyReply, db, state, None))
      && (Strip(text.GetOr("")) != "" ==>
            && r.state.None?
            && r.outcome.Answered? && r.outcome.ticket == state.value[|StatePrefix|..]
            && SendReplyByTicket(db, state.value[|StatePrefix|..], Strip(text.GetOr("")), now)
               == Delivery(r.outcome.found, r.db, r.notifyChat))
  {
    if state.None? || !StartsWith(state.value, StatePrefix) then Step(Ignored, db, state, None)
    else
      PrefixFound(state.value, StatePrefix);
      var ticket := ReplaceFirst(state.value, StatePrefix, "");
      var reply := Strip(text.GetOr(""));
      if reply == "" then Step(EmptyReply, db, state, None)
      else
        var d := SendReplyByTicket(db, ticket, reply, now);
        Step(Answered(ticket, d.found), d.db, None, d.notifyChat)
  }

  // ---------------------------------------------------------------------------
  // The two routes agree
  // ---------------------------------------------------------------------------

  /** The button route delivers the reply to exactly the ticket named in the button. */
  lemma ButtonThenTextReachesTicket(db: Db, state: Option<string>, adminTelegramId: int, ticket: string, text: string, now: int)
    requires IsDbAdmin(db, adminTelegramId)
    requires Strip(text) != ""
    ensures var s := ReplyButton(db, state, adminTelegramId, StatePrefix + ticket);
      var r := ReplyText(s.db, s.state, Some(text), now);
      && r.outcome == Answered(ticket, ticket in db.tickets)
      && r.state.None?
      && SendReplyByTicket(db, ticket, Strip(text), now) == Delivery(ticket in db.tickets, r.db, r.notifyChat)
  {
    var data := StatePrefix + ticket;
    assert StartsWith(data, StatePrefix);
    PrefixFound(data, StatePrefix);
    assert data[|StatePrefix|..] == ticket;
    var st := StatePrefix + ticket;
    assert StartsWith(st, StatePrefix);
    assert st[|StatePrefix|..] == ticket;
  }

  /** A command for a lower-case ticket reaches the upper-case ticket id the store keeps. */
  lemma CommandReachesTicket(db: Db, state: Option<string>, adminTelegramId: int, ticket: string, body: string, now: int)
    requires IsDbAdmin(db, adminTelegramId)
    requires |ticket| >= 1 && AllAlnum(ticket)
    requires |body| >= 1 && !IsSpace(body[0]) && !IsSpace(body[|body| - 1])
    ensures var r := ReplyCommand(db, state, adminTelegramId, Some(CommandPrefix + ticket + " " + body), now);
      && r.outcome == Answered(Upper(ticket), Upper(ticket) in db.tickets)
      && (Upper(ticket) in db.tickets ==> r.db.tickets[Upper(ticket)].adminReply == Some(body))
  {
    CommandRoundTrip(ticket, body);
    StripFixed(body);
  }
}

=== FILE: task_queue.dfy ===
/**
 The Redis side of generation: the per-user generation lock, the FIFO task
 list with its global and per-user caps, task status records, cancellation,
 the fixed-window rate limiter, the album buffer and the FSM data hash.

 Every Redis key family is one map (or the one list) in `Redis`; a missing
 key is a missing map entry. Expiry (TTL) is not modelled.
 */
module TaskQueue {
  import opened Basics
  import opened Strings

  datatype TaskStatus = Queued | Processing | Completed | Failed | Cancelled

  datatype TaskKind = ImageTask | VideoTask

  /** The JSON payload stored under `task:<id>`, as the admission path writes it. */
  datatype TaskPayload = TaskPayload(
    kind: TaskKind,
    telegramId: int,
    chatId: int,
    userId: int,
    isAdmin: bool,
    cost: int,
    requestId: string,
    tariff: string,
    generationId: int,
    prompt: string,
    images: seq<Bytes>,
    aspectRatio: Option<string>,
    duration: int)

  datatype Task = Task(payload: TaskPayload, status: TaskStatus)

  /** One Telegram album being collected: at most eight distinct file ids. */
  datatype MediaGroup = MediaGroup(fileIds: seq<string>, caption: Option<string>)

  datatype Redis = Redis(
    locks: map<int, string>,                 // active_gen:<telegram id> -> task id
    queue: seq<string>,                      // task_queue, head first
    tasks: map<string, Task>,                // task:<id>
    queuedCount: map<int, int>,              // user_queue_count:<telegram id>
    rate: map<(string, int), int>,           // rate:<action>:<telegram id>
    fsmState: map<int, string>,              // fsm:state:<telegram id>
    fsmData: map<int, map<string, string>>,  // fsm:data:<telegram id>
    mediaGroups: map<(int, string), MediaGroup>)

  datatype QueueLimits = QueueLimits(maxGlobal: int, maxPerUser: int)

  const DefaultLimits := QueueLimits(500, 3)
  const MaxAlbumItems := 8

  datatype QueueError = GlobalQueueFull | UserQueueLimit

  // ---------------------------------------------------------------------------
  // Generation lock
  // ---------------------------------------------------------------------------

  /** `SET active_gen:<id> <task> NX`: succeeds only when the user holds no lock. */
  function AcquireLock(r: Redis, telegramId: int, taskId: string): (res: (bool, Redis))
    ensures res.0 <==> telegramId !in r.locks
    ensures res.0 ==> res.1 == r.(locks := r.locks[telegramId := taskId])
    ensures !res.0 ==> res.1 == r
  {
    if telegramId in r.locks then (false, r)
    else (true, r.(locks := r.locks[telegramId := taskId]))
  }

  /** Deletes the user's lock whichever task holds it. */
  function ReleaseLock(r: Redis, telegramId: int): (r': Redis)
    ensures telegramId !in r'.locks
    ensures forall t :: t in r.locks && t != telegramId ==> t in r'.locks && r'.locks[t] == r.locks[t]
    ensures r'.locks.Keys == r.locks.Keys - {telegramId}
    ensures r' == r.(locks := r'.locks)
  {
    r.(locks := r.locks - {telegramId})
  }

  function ActiveGeneration(r: Redis, telegramId: int): (task: Option<string>)
    ensures task.Some? <==> telegramId in r.locks
  {
    if telegramId in r.locks then Some(r.locks[telegramId]) else None
  }

  /** While one lock is held a second acquire fails; after a release it succeeds again. */
  lemma LockIsExclusive(r: Redis, telegramId: int, t1: string, t2: string)
    requires telegramId !in r.locks
    ensures var (ok1, r1) := AcquireLock(r, telegramId, t1);
      && ok1
      && ActiveGeneration(r1, telegramId) == Some(t1)
      && !AcquireLock(r1, telegramId, t2).0
      && AcquireLock(ReleaseLock(r1, telegramId), telegramId, t2).0
  {
  }

  /** The release does not look at the owner: releasing with another task in mind frees the lock anyway. */
  lemma ReleaseIgnoresOwner(r: Redis, telegramId: int, holder: string)
    requires telegramId in r.locks && r.locks[telegramId] == holder
    ensures ActiveGeneration(ReleaseLock(r, telegramId), telegramId).None?
  {
  }

  // ---------------------------------------------------------------------------
  // Per-user queued counter
  // ---------------------------------------------------------------------------

  /** `int(GET user_queue_count:<id> or 0)`. */
  function QueuedCount(r: Redis, telegramId: int): int {
    if telegramId in r.queuedCount then r.queuedCount[telegramId] else 0
  }

  function IncrCount(r: Redis, telegramId: int): (res: (int, Redis))
    ensures res.0 == QueuedCount(r, telegramId) + 1
    ensures QueuedCount(res.1, telegramId) == res.0
    ensures forall t :: t != telegramId ==> QueuedCount(res.1, t) == QueuedCount(r, t)
  {
    var n := QueuedCount(r, telegramId) + 1;
    (n, r.(queuedCount := r.queuedCount[telegramId := n]))
  }

  /** DECR, then delete the key when the counter reached zero or below. */
  function DecrCount(r: Redis, telegramId: int): (r': Redis)
    ensures QueuedCount(r', telegramId) == (if QueuedCount(r, telegramId) > 1 then QueuedCount(r, telegramId) - 1 else 0)
    ensures telegramId in r'.queuedCount ==> r'.queuedCount[telegramId] > 0
    ensures forall t :: t != telegramId ==> QueuedCount(r', t) == QueuedCount(r, t)
    ensures forall t :: t in r'.queuedCount ==>
      t in r.queuedCount && (t != telegramId ==> r'.queuedCount[t] == r.queuedCount[t])
    ensures r' == r.(queuedCount := r'.queuedCount)
  {
    var cur := QueuedCount(r, telegramId) - 1;
    if cur <= 0 then r.(queuedCount := r.queuedCount - {telegramId})
    else r.(queuedCount := r.queuedCount[telegramId := cur])
  }

  // ---------------------------------------------------------------------------
  // Queue invariant
  // ---------------------------------------------------------------------------

  /** The telegram id a queue entry is charged to; an entry without a record counts for nobody (0). */
  function Owner(tasks: map<string, Task>, taskId: string): int {
    if taskId in tasks then tasks[taskId].payload.telegramId else 0
  }

  /** How many entries of the list belong to this user. */
  function CountFor(q: seq<string>, tasks: map<string, Task>, telegramId: int): nat {
    if |q| == 0 then 0
    else (if Owner(tasks, q[0]) == telegramId then 1 else 0) + CountFor(q[1..], tasks, telegramId)
  }

  predicate Distinct(q: seq<string>) {
    forall i, j :: 0 <= i < j < |q| ==> q[i] != q[j]
  }

  predicate ListedAreQueued(r: Redis) {
    forall i :: 0 <= i < |r.queue| ==> r.queue[i] in r.tasks && r.tasks[r.queue[i]].status == Queued
  }

  predicate QueuedAreListed(r: Redis) {
    forall id :: id in r.tasks && r.tasks[id].status == Queued ==> id in r.queue
  }

  predicate CountersPositive(r: Redis) {
    forall t :: t in r.queuedCount ==> t != 0 && r.queuedCount[t] > 0
  }

  ghost predicate CountersMatch(r: Redis) {
    forall t :: t != 0 ==> QueuedCount(r, t) == CountFor(r.queue, r.tasks, t)
  }

  ghost predicate WithinCaps(r: Redis, limits: QueueLimits) {
    && |r.queue| <= limits.maxGlobal
    && (forall t :: t != 0 ==> CountFor(r.queue, r.tasks, t) <= limits.maxPerUser)
  }

  /**
   What the queue operations keep: the list has no repeats, every listed
   task is stored with status queued, every queued task is listed, each
   user's counter is exactly the number of their listed tasks (a stored
   counter is always positive), and both caps hold.
   */
  ghost predicate QueueInvariant(r: Redis, limits: QueueLimits) {
    && Distinct(r.queue)
    && ListedAreQueued(r)
    && QueuedAreListed(r)
    && CountersPositive(r)
    && CountersMatch(r)
    && WithinCaps(r, limits)
  }

  lemma {:induction false} CountForConcat(a: seq<string>, b: seq<string>, tasks: map<string, Task>, t: int)
    ensures CountFor(a + b, tasks, t) == CountFor(a, tasks, t) + CountFor(b, tasks, t)
  {
    if |a| == 0 {
      assert a + b == b;
    } else {
      assert (a + b)[1..] == a[1..] + b;
      CountForConcat(a[1..], b, tasks, t);
    }
  }

  lemma {:induction false} CountForSameOwners(q: seq<string>, tasks: map<string, Task>, tasks': map<string, Task>, t: int)
    requires forall i :: 0 <= i < |q| ==> Owner(tasks, q[i]) == Owner(tasks', q[i])
    ensures CountFor(q, tasks, t) == CountFor(q, tasks', t)
  {
    if |q| > 0 {
      CountForSameOwners(q[1..], tasks, tasks', t);
    }
  }

  lemma {:induction false} CountForAbsent(q: seq<string>, tasks: map<string, Task>, t: int)
    requires forall i :: 0 <= i < |q| ==> Owner(tasks, q[i]) != t
    ensures CountFor(q, tasks, t) == 0
  {
    if |q| > 0 {
      CountForAbsent(q[1..], tasks, t);
    }
  }

  lemma CountForSingle(x: string, tasks: map<string, Task>, t: int)
    ensures CountFor([x], tasks, t) == if Owner(tasks, x) == t then 1 else 0
  {
    assert [x][1..] == [];
  }

  /** The first position of `x` in the list. */
  function Position(q: seq<string>, x: string): (k: Option<nat>)
    ensures k.Some? ==> k.value < |q| && q[k.value] == x && forall j :: 0 <= j < k.value ==> q[j] != x
    ensures k.None? ==> x !in q
  {
    if |q| == 0 then None
    else if q[0] == x then Some(0)
    else match Position(q[1..], x)
      case None => None
      case Some(k) => Some(k + 1)
  }

  /** `LREM task_queue 1 x`: removes the first occurrence, if any. */
  function RemoveFirst(q: seq<string>, x: string): (r: seq<string>)
    ensures x !in q ==> r == q
    ensures x in q ==> |r| == |q| - 1 && multiset(r) == multiset(q) - multiset{x}
    ensures x in q ==> exists k :: 0 <= k < |q| && q[k] == x && x !in q[..k] && r == q[..k] + q[k + 1..]
  {
    match Position(q, x)
    case None => q
    case Some(k) =>
      assert q == q[..k] + [x] + q[k + 1..];
      q[..k] + q[k + 1..]
  }

  // ---------------------------------------------------------------------------
  // Enqueue / dequeue
  // ---------------------------------------------------------------------------

  /**
   Push a task at the tail with status queued. Fails, writing nothing, when
   the list is at the global cap or the user already has the maximum of
   queued tasks (telegram id 0 is not counted per user). Returns the number
   of tasks ahead of the new one.
   */
  function Enqueue(r: Redis, limits: QueueLimits, taskId: string, payload: TaskPayload)
    : (res: (Result<nat, QueueError>, Redis))
    ensures |r.queue| >= limits.maxGlobal ==> res == (Err(GlobalQueueFull), r)
    ensures (|r.queue| < limits.maxGlobal && payload.telegramId != 0
      && QueuedCount(r, payload.telegramId) >= limits.maxPerUser) ==> res == (Err(UserQueueLimit), r)
    ensures res.0.Err? ==> res.1 == r
    ensures res.0.Ok? ==>
      && res.0.value == |r.queue|
      && res.1.queue == r.queue + [taskId]
      && res.1.tasks == r.tasks[taskId := Task(payload, Queued)]
      && res.1.locks == r.locks
      && (payload.telegramId != 0 ==> QueuedCount(res.1, payload.telegramId) == QueuedCount(r, payload.telegramId) + 1)
      && (forall t :: t != payload.telegramId || t == 0 ==> QueuedCount(res.1, t) == QueuedCount(r, t))
  {
    if |r.queue| >= limits.maxGlobal then (Err(GlobalQueueFull), r)
    else
      var tid := payload.telegramId;
      if tid != 0 && QueuedCount(r, tid) >= limits.maxPerUser then (Err(UserQueueLimit), r)
      else
        var r1 := if tid != 0 then IncrCount(r, tid).1 else r;
        (Ok(|r.queue|), r1.(tasks := r1.tasks[taskId := Task(payload, Queued)], queue := r1.queue + [taskId]))
  }

  /** A successful enqueue of a fresh task id keeps the queue invariant, caps included. */
  lemma EnqueuePreservesInvariant(r: Redis, limits: QueueLimits, taskId: string, payload: TaskPayload)
    requires QueueInvariant(r, limits)
    requires taskId !in r.tasks
    ensures QueueInvariant(Enqueue(r, limits, taskId, payload).1, limits)
  {
    var (res, r') := Enqueue(r, limits, taskId, payload);
    if res.Ok? {
      assert taskId !in r.queue;
      forall i | 0 <= i < |r.queue|
        ensures Owner(r.tasks, r.queue[i]) == Owner(r'.tasks, r.queue[i])
      {
        assert r.queue[i] != taskId;
      }
      forall t | t != 0
        ensures QueuedCount(r', t) == CountFor(r'.queue, r'.tasks, t)
        ensures CountFor(r'.queue, r'.tasks, t) <= limits.maxPerUser
      {
        CountForConcat(r.queue, [taskId], r'.tasks, t);
        CountForSameOwners(r.queue, r.tasks, r'.tasks, t);
        CountForSingle(taskId, r'.tasks, t);
      }
    }
  }

  /**
   `LPOP` the head. An empty list gives `None`; a head whose record is gone
   is still consumed and gives `None`; otherwise the owner's counter drops
   by one and the task is returned.
   */
  function Dequeue(r: Redis): (res: (Option<(string, Task)>, Redis))
    ensures |r.queue| == 0 ==> res == (None, r)
    ensures |r.queue| > 0 ==> res.1.queue == r.queue[1..]
    ensures |r.queue| > 0 && r.queue[0] !in r.tasks ==> res.0.None? && res.1 == r.(queue := r.queue[1..])
    ensures |r.queue| > 0 && r.queue[0] in r.tasks ==>
      && res.0 == Some((r.queue[0], r.tasks[r.queue[0]]))
      && res.1.tasks == r.tasks && res.1.locks == r.locks
      && var tid := r.tasks[r.queue[0]].payload.telegramId;
      && (tid != 0 ==> QueuedCount(res.1, tid) == (if QueuedCount(r, tid) > 1 then QueuedCount(r, tid) - 1 else 0))
      && (forall t :: t != tid || t == 0 ==> QueuedCount(res.1, t) == QueuedCount(r, t))
  {
    if |r.queue| == 0 then (None, r)
    else
      var taskId := r.queue[0];
      var r1 := r.(queue := r.queue[1..]);
      if taskId !in r.tasks then (None, r1)
      else
        var task := r.tasks[taskId];
        var tid := task.payload.telegramId;
        (Some((taskId, task)), if tid != 0 then DecrCount(r1, tid) else r1)
  }

  /** Tasks come out in the order they went in. */
  lemma DequeueIsFifo(r: Redis, limits: QueueLimits, a: string, pa: TaskPayload, b: string, pb: TaskPayload)
    requires |r.queue| == 0 && a != b
    ensures var (ra, r1) := Enqueue(r, limits, a, pa);
      var (rb, r2) := Enqueue(r1, limits, b, pb);
      ra.Ok? && rb.Ok? ==>
        && Dequeue(r2).0 == Some((a, Task(pa, Queued)))
        && Dequeue(Dequeue(r2).1).0 == Some((b, Task(pb, Queued)))
  {
    var (ra, r1) := Enqueue(r, limits, a, pa);
    var (rb, r2) := Enqueue(r1, limits, b, pb);
    if ra.Ok? && rb.Ok? {
      assert r2.queue == [a, b];
    }
  }

  /** `SET task:<id>` with a new status; a missing record is left missing. */
  function SetTaskStatus(r: Redis, taskId: string, status: TaskStatus): (r': Redis)
    ensures taskId !in r.tasks ==> r' == r
    ensures taskId in r.tasks ==> r'.tasks == r.tasks[taskId := r.tasks[taskId].(status := status)]
    ensures r' == r.(tasks := r'.tasks)
  {
    if taskId in r.tasks then r.(tasks := r.tasks[taskId := r.tasks[taskId].(status := status)]) else r
  }

  function GetTaskStatus(r: Redis, taskId: string): (s: Option<TaskStatus>)
    ensures s.Some? <==> taskId in r.tasks
  {
    if taskId in r.tasks then Some(r.tasks[taskId].status) else None
  }

  function GetTaskPayload(r: Redis, taskId: string): (p: Option<TaskPayload>)
    ensures p.Some? <==> taskId in r.tasks
  {
    if taskId in r.tasks then Some(r.tasks[taskId].payload) else None
  }

  /**
   The worker's step: dequeue, then either leave a cancelled task alone or
   mark the task processing. Together the two keep the queue invariant.
   */
  function DequeueAndMark(r: Redis): (res: (Option<(string, Task)>, Redis))
    ensures res.0 == Dequeue(r).0
    ensures res.0.Some? && res.0.value.1.status != Cancelled ==>
      GetTaskStatus(res.1, res.0.value.0) == Some(Processing)
  {
    var (item, r1) := Dequeue(r);
    match item
    case None => (None, r1)
    case Some((taskId, task)) =>
      if GetTaskStatus(r1, taskId) == Some(Cancelled) then (item, r1)
      else (item, SetTaskStatus(r1, taskId, Processing))
  }

  lemma DequeueAndMarkPreservesInvariant(r: Redis, limits: QueueLimits)
    requires QueueInvariant(r, limits)
    ensures QueueInvariant(DequeueAndMark(r).1, limits)
  {
    if |r.queue| > 0 {
      var x := r.queue[0];
      var rest := r.queue[1..];
      assert r.queue == [x] + rest;
      assert x in r.tasks && r.tasks[x].status == Queued;
      var tid := r.tasks[x].payload.telegramId;
      var r' := DequeueAndMark(r).1;
      assert r'.queue == rest;
      assert r'.tasks == r.tasks[x := r.tasks[x].(status := Processing)];
      assert x !in rest;
      assert Distinct(r'.queue);
      forall i | 0 <= i < |rest|
        ensures rest[i] == r.queue[i + 1] && rest[i] != x
        ensures Owner(r.tasks, rest[i]) == Owner(r'.tasks, rest[i])
      {
      }
      assert ListedAreQueued(r');
      forall id | id in r'.tasks && r'.tasks[id].status == Queued
        ensures id in r'.queue
      {
        assert id != x && id in r.queue;
      }
      assert CountersPositive(r');
      forall t | t != 0
        ensures QueuedCount(r', t) == CountFor(r'.queue, r'.tasks, t)
        ensures CountFor(r'.queue, r'.tasks, t) <= CountFor(r.queue, r.tasks, t)
      {
        CountForConcat([x], rest, r.tasks, t);
        CountForSingle(x, r.tasks, t);
        CountForSameOwners(rest, r.tasks, r'.tasks, t);
      }
      assert CountersMatch(r');
      assert WithinCaps(r', limits);
    }
  }

  // ---------------------------------------------------------------------------
  // Cancellation
  // ---------------------------------------------------------------------------

  /**
   Cancel a task that is still queued: status cancelled, one list entry
   removed, the owner's counter decremented. Any other status (or no
   record) answers false and writes nothing.
   */
  function CancelTask(r: Redis, taskId: string): (res: (bool, Redis))
    ensures res.0 <==> taskId in r.tasks && r.tasks[taskId].status == Queued
    ensures !res.0 ==> res.1 == r
    ensures res.0 ==>
      && GetTaskStatus(res.1, taskId) == Some(Cancelled)
      && res.1.queue == RemoveFirst(r.queue, taskId)
      && res.1.locks == r.locks
      && var tid := r.tasks[taskId].payload.telegramId;
      && (tid != 0 ==> QueuedCount(res.1, tid) == (if QueuedCount(r, tid) > 1 then QueuedCount(r, tid) - 1 else 0))
      && (forall t :: t != tid || t == 0 ==> QueuedCount(res.1, t) == QueuedCount(r, t))
  {
    if taskId !in r.tasks || r.tasks[taskId].status != Queued then (false, r)
    else
      var task := r.tasks[taskId];
      var r1 := r.(tasks := r.tasks[taskId := task.(status := Cancelled)], queue := RemoveFirst(r.queue, taskId));
      var tid := task.payload.telegramId;
      (true, if tid != 0 then DecrCount(r1, tid) else r1)
  }

  /** Removing the entry at `k` from a list without repeats leaves a list without repeats. */
  lemma RemoveAtDistinct(q: seq<string>, k: nat)
    requires Distinct(q) && k < |q|
    ensures Distinct(q[..k] + q[k + 1..])
    ensures q[k] !in q[..k] + q[k + 1..]
  {
    var q' := q[..k] + q[k + 1..];
    forall i | 0 <= i < |q'|
      ensures q'[i] == q[if i < k then i else i + 1]
    {
    }
  }

  /** Counting after removing the entry at `k` when no remaining entry changed owner. */
  lemma CountAfterRemoval(q: seq<string>, k: nat, tasks: map<string, Task>, tasks': map<string, Task>, t: int)
    requires k < |q|
    requires forall i :: 0 <= i < |q| && i != k ==> Owner(tasks, q[i]) == Owner(tasks', q[i])
    ensures CountFor(q[..k] + q[k + 1..], tasks', t) + (if Owner(tasks, q[k]) == t then 1 else 0)
      == CountFor(q, tasks, t)
  {
    var pre, post := q[..k], q[k + 1..];
    assert q == pre + [q[k]] + post;
    CountForConcat(pre + [q[k]], post, tasks, t);
    CountForConcat(pre, [q[k]], tasks, t);
    CountForConcat(pre, post, tasks, t);
    CountForSingle(q[k], tasks, t);
    forall i | 0 <= i < |pre + post|
      ensures Owner(tasks, (pre + post)[i]) == Owner(tasks', (pre + post)[i])
    {
      assert (pre + post)[i] == q[if i < k then i else i + 1];
    }
    CountForSameOwners(pre + post, tasks, tasks', t);
  }

  /** The cancelled entry's position and the shape of the list after `CancelTask`. */
  lemma CancelTaskShape(r: Redis, limits: QueueLimits, taskId: string) returns (k: nat)
    requires QueueInvariant(r, limits)
    requires taskId in r.tasks && r.tasks[taskId].status == Queued
    ensures k < |r.queue| && r.queue[k] == taskId
    ensures CancelTask(r, taskId).1.queue == r.queue[..k] + r.queue[k + 1..]
    ensures CancelTask(r, taskId).1.tasks == r.tasks[taskId := r.tasks[taskId].(status := Cancelled)]
  {
    assert taskId in r.queue;
    k := Position(r.queue, taskId).value;
    assert RemoveFirst(r.queue, taskId) == r.queue[..k] + r.queue[k + 1..];
    var task := r.tasks[taskId];
    var r1 := r.(tasks := r.tasks[taskId := task.(status := Cancelled)], queue := RemoveFirst(r.queue, taskId));
    var tid := task.payload.telegramId;
    assert CancelTask(r, taskId).1 == if tid != 0 then DecrCount(r1, tid) else r1;
  }

  lemma CancelTaskKeepsListing(r: Redis, limits: QueueLimits, taskId: string)
    requires QueueInvariant(r, limits)
    requires taskId in r.tasks && r.tasks[taskId].status == Queued
    ensures var r' := CancelTask(r, taskId).1;
      Distinct(r'.queue) && ListedAreQueued(r') && QueuedAreListed(r') && CountersPositive(r')
  {
    var r' := CancelTask(r, taskId).1;
    var k := CancelTaskShape(r, limits, taskId);
    RemoveAtDistinct(r.queue, k);
    RemovalKeepsListing(r.queue, k, r.tasks);
  }

  /** Cancelling the entry at `k` keeps the list and the queued tasks in step. */
  lemma RemovalKeepsListing(q: seq<string>, k: nat, tasks: map<string, Task>)
    requires Distinct(q) && k < |q| && q[k] in tasks
    requires forall i :: 0 <= i < |q| ==> q[i] in tasks && tasks[q[i]].status == Queued
    requires forall id :: id in tasks && tasks[id].status == Queued ==> id in q
    ensures var q', tasks' := q[..k] + q[k + 1..], tasks[q[k] := tasks[q[k]].(status := Cancelled)];
      && (forall i :: 0 <= i < |q'| ==> q'[i] in tasks' && tasks'[q'[i]].status == Queued)
      && (forall id :: id in tasks' && tasks'[id].status == Queued ==> id in q')
  {
    var q', tasks' := q[..k] + q[k + 1..], tasks[q[k] := tasks[q[k]].(status := Cancelled)];
    forall i | 0 <= i < |q'|
      ensures q'[i] in tasks' && tasks'[q'[i]].status == Queued
    {
      var j := if i < k then i else i + 1;
      assert q'[i] == q[j] && j != k;
    }
    forall id | id in tasks' && tasks'[id].status == Queued
      ensures id in q'
    {
      var j :| 0 <= j < |q| && q[j] == id;
      assert j != k;
      assert q'[if j < k then j else j - 1] == id;
    }
  }

  lemma CancelTaskKeepsCounters(r: Redis, limits: QueueLimits, taskId: string)
    requires QueueInvariant(r, limits)
    requires taskId in r.tasks && r.tasks[taskId].status == Queued
    ensures var r' := CancelTask(r, taskId).1;
      CountersMatch(r') && WithinCaps(r', limits)
  {
    var r' := CancelTask(r, taskId).1;
    var k := CancelTaskShape(r, limits, taskId);
    forall t | t != 0
      ensures QueuedCount(r', t) == CountFor(r'.queue, r'.tasks, t)
      ensures CountFor(r'.queue, r'.tasks, t) <= CountFor(r.queue, r.tasks, t)
    {
      CountAfterRemoval(r.queue, k, r.tasks, r'.tasks, t);
    }
  }

  lemma CancelTaskPreservesInvariant(r: Redis, limits: QueueLimits, taskId: string)
    requires QueueInvariant(r, limits)
    ensures QueueInvariant(CancelTask(r, taskId).1, limits)
  {
    if taskId in r.tasks && r.tasks[taskId].status == Queued {
      CancelTaskKeepsListing(r, limits, taskId);
      CancelTaskKeepsCounters(r, limits, taskId);
    }
  }

  /** Mark a processing task cancelled so the worker drops its result; the list is untouched. */
  function CancelProcessingTask(r: Redis, taskId: string): (res: (bool, Redis))
    ensures res.0 <==> taskId in r.tasks && r.tasks[taskId].status == Processing
    ensures !res.0 ==> res.1 == r
    ensures res.0 ==>
      && res.1 == r.(tasks := r.tasks[taskId := r.tasks[taskId].(status := Cancelled)])
      && GetTaskStatus(res.1, taskId) == Some(Cancelled)
  {
    if taskId !in r.tasks || r.tasks[taskId].status != Processing then (false, r)
    else (true, r.(tasks := r.tasks[taskId := r.tasks[taskId].(status := Cancelled)]))
  }

  lemma CancelProcessingPreservesInvariant(r: Redis, limits: QueueLimits, taskId: string)
    requires QueueInvariant(r, limits)
    ensures QueueInvariant(CancelProcessingTask(r, taskId).1, limits)
  {
    var (ok, r') := CancelProcessingTask(r, taskId);
    if ok {
      forall i | 0 <= i < |r.queue|
        ensures r.queue[i] != taskId
        ensures Owner(r.tasks, r.queue[i]) == Owner(r'.tasks, r.queue[i])
      {
      }
      assert ListedAreQueued(r');
      assert QueuedAreListed(r');
      forall t | t != 0
        ensures CountFor(r'.queue, r'.tasks, t) == CountFor(r.queue, r.tasks, t)
      {
        CountForSameOwners(r.queue, r.tasks, r'.tasks, t);
      }
      assert CountersMatch(r');
    }
  }

  /** Cancelling twice: the second call finds the task no longer queued and does nothing. */
  lemma CancelTaskOnce(r: Redis, taskId: string)
    ensures var (ok, r1) := CancelTask(r, taskId);
      ok ==> CancelTask(r1, taskId) == (false, r1) && CancelProcessingTask(r1, taskId) == (false, r1)
  {
  }

  // ---------------------------------------------------------------------------
  // Rate limit, album buffer, FSM data
  // ---------------------------------------------------------------------------

  function RateCount(r: Redis, key: (string, int)): int {
    if key in r.rate then r.rate[key] else 0
  }

  /** A fixed-window counter: refuse once `max` calls were allowed, otherwise count this call. */
  function CheckRateLimit(r: Redis, action: string, telegramId: int, maxRequests: int): (res: (bool, Redis))
    ensures res.0 <==> (action, telegramId) !in r.rate || r.rate[(action, telegramId)] < maxRequests
    ensures !res.0 ==> res.1 == r
    ensures res.0 ==> RateCount(res.1, (action, telegramId)) == RateCount(r, (action, telegramId)) + 1
    ensures forall k :: k != (action, telegramId) ==> RateCount(res.1, k) == RateCount(r, k)
  {
    var key := (action, telegramId);
    if key in r.rate && r.rate[key] >= maxRequests then (false, r)
    else (true, r.(rate := r.rate[key := RateCount(r, key) + 1]))
  }

  /** `n` calls in one window: how many were let through, and the state after them. */
  function RateBurst(r: Redis, action: string, telegramId: int, maxRequests: int, n: nat): (res: (nat, Redis))
    decreases n
  {
    if n == 0 then (0, r)
    else
      var (ok, r1) := CheckRateLimit(r, action, telegramId, maxRequests);
      var (k, r2) := RateBurst(r1, action, telegramId, maxRequests, n - 1);
      ((if ok then 1 else 0) + k, r2)
  }

  /** Starting from `c` calls already counted, a burst of `n` lets through exactly the calls that fit below `max`. */
  lemma {:induction false} RateBurstAllowsUpToMax(r: Redis, action: string, telegramId: int, maxRequests: int, n: nat)
    decreases n
    requires maxRequests >= 1 && 0 <= RateCount(r, (action, telegramId))
    ensures var c := RateCount(r, (action, telegramId));
      RateBurst(r, action, telegramId, maxRequests, n).0 == if c >= maxRequests then 0 else Min(n, maxRequests - c)
  {
    if n > 0 {
      var (ok, r1) := CheckRateLimit(r, action, telegramId, maxRequests);
      RateBurstAllowsUpToMax(r1, action, telegramId, maxRequests, n - 1);
    }
  }

  /**
   Add a photo to an album buffer: a new file id is appended, the list is
   cut to the first eight, and a caption that is not blank replaces the
   stored one, stripped.
   */
  function AddMediaGroupItem(r: Redis, telegramId: int, groupId: string, fileId: string, caption: Option<string>)
    : (res: (MediaGroup, Redis))
    ensures var old_ := if (telegramId, groupId) in r.mediaGroups then r.mediaGroups[(telegramId, groupId)].fileIds else [];
      && |res.0.fileIds| <= MaxAlbumItems
      && (|old_| < MaxAlbumItems ==> res.0.fileIds == if fileId in old_ then old_ else old_ + [fileId])
      && (|old_| >= MaxAlbumItems ==> res.0.fileIds == old_[..MaxAlbumItems])
      && (Distinct(old_) ==> Distinct(res.0.fileIds))
    ensures caption.Some? && Strip(caption.value) != "" ==> res.0.caption == Some(Strip(caption.value))
    ensures !(caption.Some? && Strip(caption.value) != "") ==>
      res.0.caption == (if (telegramId, groupId) in r.mediaGroups then r.mediaGroups[(telegramId, groupId)].caption else None)
    ensures res.1 == r.(mediaGroups := r.mediaGroups[(telegramId, groupId) := res.0])
  {
    var key := (telegramId, groupId);
    var current := if key in r.mediaGroups then r.mediaGroups[key] else MediaGroup([], None);
    var items := if fileId in current.fileIds then current.fileIds else current.fileIds + [fileId];
    var kept := items[..Min(|items|, MaxAlbumItems)];
    var cap := if caption.Some? && Strip(caption.value) != "" then Some(Strip(caption.value)) else current.caption;
    var g := MediaGroup(kept, cap);
    (g, r.(mediaGroups := r.mediaGroups[key := g]))
  }

  /** Re-adding the same photo is a no-op on the id list. */
  lemma AddMediaGroupItemIdempotent(r: Redis, telegramId: int, groupId: string, fileId: string, caption: Option<string>)
    ensures var (g1, r1) := AddMediaGroupItem(r, telegramId, groupId, fileId, caption);
      var (g2, r2) := AddMediaGroupItem(r1, telegramId, groupId, fileId, caption);
      g2 == g1
  {
    var (g1, r1) := AddMediaGroupItem(r, telegramId, groupId, fileId, caption);
    var key := (telegramId, groupId);
    var current := if key in r.mediaGroups then r.mediaGroups[key] else MediaGroup([], None);
    var items := if fileId in current.fileIds then current.fileIds else current.fileIds + [fileId];
    if fileId !in g1.fileIds {
      assert fileId in items;
      assert |items| > MaxAlbumItems;
    }
  }

  /** Merge keyword values into the FSM data: given keys take the new values, the rest are kept. */
  function UpdateUserData(r: Redis, telegramId: int, kwargs: map<string, string>): (res: (map<string, string>, Redis))
    ensures var before := if telegramId in r.fsmData then r.fsmData[telegramId] else map[];
      && res.0.Keys == before.Keys + kwargs.Keys
      && (forall k :: k in kwargs ==> res.0[k] == kwargs[k])
      && (forall k :: k in before && k !in kwargs ==> res.0[k] == before[k])
    ensures res.1 == r.(fsmData := r.fsmData[telegramId := res.0])
  {
    var before := if telegramId in r.fsmData then r.fsmData[telegramId] else map[];
    var data := before + kwargs;
    (data, r.(fsmData := r.fsmData[telegramId := data]))
  }

  /** Merging the same values twice is the same as merging them once. */
  lemma UpdateUserDataIdempotent(r: Redis, telegramId: int, kwargs: map<string, string>)
    ensures var (d1, r1) := UpdateUserData(r, telegramId, kwargs);
      UpdateUserData(r1, telegramId, kwargs) == (d1, r1)
  {
    var (d1, r1) := UpdateUserData(r, telegramId, kwargs);
    var (d2, r2) := UpdateUserData(r1, telegramId, kwargs);
    assert d2 == d1;
    assert r2.fsmData == r1.fsmData;
  }

  function SetUserState(r: Redis, telegramId: int, state: string): Redis {
    r.(fsmState := r.fsmState[telegramId := state])
  }

  /** Deletes both the FSM state and the FSM data of the user. */
  function ClearUserState(r: Redis, telegramId: int): (r': Redis)
    ensures telegramId !in r'.fsmState && telegramId !in r'.fsmData
    ensures r' == r.(fsmState := r'.fsmState, fsmData := r'.fsmData)
    ensures r'.fsmState.Keys == r.fsmState.Keys - {telegramId}
    ensures r'.fsmData.Keys == r.fsmData.Keys - {telegramId}
  {
    r.(fsmState := r.fsmState - {telegramId}, fsmData := r.fsmData - {telegramId})
  }
}

=== FILE: users.dfy ===
/**
 User registration and the admin/ban switches.

 A first contact creates the user row with a zero balance and then credits
 the welcome bonus through the ledger, plus the referral bonuses when an
 inviter is named; everything happens in one transaction, so a ledger
 rollback undoes the registration too. A returning user only has the
 profile fields and the admin flag brought up to date.
 */
module Users {
  import opened Basics
  import opened Strings
  import opened Schema
  import opened Ledger
  import opened AdminGuard

  const WelcomeCredits := 11
  const ReferralCredits := 11

  function WelcomeRef(telegramId: int): string {
    "welcome_" + IntToString(telegramId)
  }

  function ReferralNewRef(telegramId: int): string {
    "ref_new_" + IntToString(telegramId)
  }

  function ReferralInviteRef(telegramId: int): string {
    "ref_invite_" + IntToString(telegramId)
  }

  /** Python truthiness of an optional text: present and non-empty. */
  predicate Given(s: Option<string>) {
    s.Some? && s.value != ""
  }

  /** The referral rule: an inviter is named (a non-zero id) and is someone else. */
  predicate ReferralApplies(referrer: Option<int>, telegramId: int) {
    referrer.Some? && referrer.value != 0 && referrer.value != telegramId
  }

  /** A user row with this telegram id exists. */
  predicate Registered(db: Db, telegramId: int) {
    exists id :: id in db.users && db.users[id].telegramId == telegramId
  }

  /** Outcome of `get_or_create_user`: the store, the user's row id and whether it was created. */
  datatype Registration = Registration(db: Db, userId: int, created: bool)

  // ---------------------------------------------------------------------------
  // Returning users
  // ---------------------------------------------------------------------------

  /** The profile refresh: a given, different name replaces the stored one, and the admin flag follows `ADMIN_IDS`. */
  function Refresh(u: UserRow, adminIds: seq<int>, username: Option<string>, firstName: Option<string>): (r: UserRow)
    ensures r.username == (if Given(username) then username else u.username)
    ensures r.firstName == (if Given(firstName) then firstName else u.firstName)
    ensures r.isAdmin <==> IsAdminId(adminIds, u.telegramId)
    ensures r == u.(username := r.username, firstName := r.firstName, isAdmin := r.isAdmin)
  {
    var u1 := if Given(username) && u.username != username then u.(username := username) else u;
    var u2 := if Given(firstName) && u1.firstName != firstName then u1.(firstName := firstName) else u1;
    var admin := u.telegramId in adminIds;
    if u2.isAdmin != admin then u2.(isAdmin := admin) else u2
  }

  // ---------------------------------------------------------------------------
  // New users
  // ---------------------------------------------------------------------------

  /** Insert the row (balance 0) under the next free id. */
  function InsertUser(db: Db, row: UserRow): (r: (Db, int))
    requires IndexConsistent(db) && row.telegramId !in db.byTelegram
    ensures IndexConsistent(r.0)
    ensures r.1 !in db.users && r.0.users == db.users[r.1 := row]
    ensures r.0.byTelegram == db.byTelegram[row.telegramId := r.1]
    ensures r.0.ledger == db.ledger && r.0 == db.(users := r.0.users, byTelegram := r.0.byTelegram, nextUserId := r.0.nextUserId)
  {
    var id := db.nextUserId;
    var d := db.(users := db.users[id := row], byTelegram := db.byTelegram[row.telegramId := id], nextUserId := id + 1);
    assert forall t :: t in d.byTelegram && t != row.telegramId ==> d.byTelegram[t] == db.byTelegram[t] && d.byTelegram[t] != id;
    (d, id)
  }

  /** A ledger write touches balances only, so the telegram-id index stays consistent. */
  lemma RecordKeepsIndex(db: Db, userId: int, amount: int, reason: string, ref: Option<string>)
    requires IndexConsistent(db)
    ensures var r := RecordCreditChange(db, userId, amount, reason, ref);
      r.Ok? ==> IndexConsistent(r.value) && r.value.byTelegram == db.byTelegram
  {
    var r := RecordCreditChange(db, userId, amount, reason, ref);
    if r.Ok? {
      assert forall id :: id in db.users ==> r.value.users[id].telegramId == db.users[id].telegramId;
    }
  }

  /** `_apply_referral_bonus`: the newcomer's bonus, then the inviter's when the inviter is registered. */
  function ApplyReferralBonus(db: Db, newId: int, newTelegramId: int, referrerTelegramId: int): (r: Result<Db, LedgerError>)
    requires IndexConsistent(db)
    ensures r.Ok? ==> IndexConsistent(r.value) && r.value.byTelegram == db.byTelegram
    ensures r.Err? ==> r.error == DuplicateReasonRef || newId !in db.users
  {
    RecordKeepsIndex(db, newId, ReferralCredits, ReasonReferral, Some(ReferralNewRef(newTelegramId)));
    match RecordCreditChange(db, newId, ReferralCredits, ReasonReferral, Some(ReferralNewRef(newTelegramId)))
    case Err(e) => Err(e)
    case Ok(d) =>
      match UserByTelegram(d, referrerTelegramId)
      case None => Ok(d)
      case Some(rid) =>
        RecordKeepsIndex(d, rid, ReferralCredits, ReasonReferral, Some(ReferralInviteRef(newTelegramId)));
        RecordCreditChange(d, rid, ReferralCredits, ReasonReferral, Some(ReferralInviteRef(newTelegramId)))
  }

  /** `get_or_create_user`. */
  function GetOrCreateUser(db: Db, adminIds: seq<int>, telegramId: int, username: Option<string>,
                           firstName: Option<string>, referrer: Option<int>): (r: Result<Registration, LedgerError>)
    requires IndexConsistent(db)
    ensures r.Err? ==> telegramId !in db.byTelegram && r.error == DuplicateReasonRef
    ensures r.Ok? ==>
      && IndexConsistent(r.value.db)
      && (r.value.created <==> telegramId !in db.byTelegram)
      && telegramId in r.value.db.byTelegram && r.value.db.byTelegram[telegramId] == r.value.userId
  {
    match UserByTelegram(db, telegramId)
    case Some(id) =>
      var u := db.users[id];
      Ok(Registration(db.(users := db.users[id := Refresh(u, adminIds, username, firstName)]), id, false))
    case None =>
      var row := UserRow(telegramId, username, firstName, IsAdminId(adminIds, telegramId), false, 0, referrer);
      var (d, id) := InsertUser(db, row);
      match RecordCreditChange(d, id, WelcomeCredits, ReasonWelcome, Some(WelcomeRef(telegramId)))
      case Err(e) => Err(e)
      case Ok(d1) =>
        RecordKeepsIndex(d, id, WelcomeCredits, ReasonWelcome, Some(WelcomeRef(telegramId)));
        if ReferralApplies(referrer, telegramId) then
          match ApplyReferralBonus(d1, id, telegramId, referrer.value)
          case Err(e) => Err(e)
          case Ok(d2) => Ok(Registration(d2, id, true))
        else Ok(Registration(d1, id, true))
  }

  // ---------------------------------------------------------------------------
  // Properties of registration
  // ---------------------------------------------------------------------------

  /** A returning user is never re-created and never credited: only the profile and the admin flag change. */
  lemma ReturningUserUnchangedLedger(db: Db, adminIds: seq<int>, telegramId: int, username: Option<string>,
                                     firstName: Option<string>, referrer: Option<int>)
    requires IndexConsistent(db) && telegramId in db.byTelegram
    ensures var r := GetOrCreateUser(db, adminIds, telegramId, username, firstName, referrer);
      && r.Ok? && !r.value.created
      && r.value.db.ledger == db.ledger
      && r.value.userId == db.byTelegram[telegramId]
      && r.value.db.users.Keys == db.users.Keys
      && r.value.db.users[r.value.userId].balance == db.users[r.value.userId].balance
      && (r.value.db.users[r.value.userId].isAdmin <==> telegramId in adminIds)
  {
  }

  /**
   A first contact creates the user with a zero balance and credits exactly
   the welcome bonus, plus the referral bonus when the referral rule applies.
   */
  lemma NewUserBalance(db: Db, adminIds: seq<int>, telegramId: int, username: Option<string>,
                       firstName: Option<string>, referrer: Option<int>)
    requires IndexConsistent(db) && telegramId !in db.byTelegram
    ensures var r := GetOrCreateUser(db, adminIds, telegramId, username, firstName, referrer);
      r.Ok? ==>
        && r.value.created
        && r.value.userId !in db.users
        && r.value.userId in r.value.db.users
        && r.value.db.users[r.value.userId].telegramId == telegramId
        && r.value.db.users[r.value.userId].balance
           == WelcomeCredits + (if ReferralApplies(referrer, telegramId) then ReferralCredits else 0)
        && (r.value.db.users[r.value.userId].isAdmin <==> telegramId in adminIds)
  {
    var r := GetOrCreateUser(db, adminIds, telegramId, username, firstName, referrer);
    if r.Ok? {
      var row := UserRow(telegramId, username, firstName, IsAdminId(adminIds, telegramId), false, 0, referrer);
      var (d, nid) := InsertUser(db, row);
      var d1 := RecordCreditChange(d, nid, WelcomeCredits, ReasonWelcome, Some(WelcomeRef(telegramId))).value;
      RecordMovesOne(d, nid, WelcomeCredits, ReasonWelcome, Some(WelcomeRef(telegramId)));
      RecordKeepsIndex(d, nid, WelcomeCredits, ReasonWelcome, Some(WelcomeRef(telegramId)));
      assert d1.users[nid].balance == WelcomeCredits;
      if ReferralApplies(referrer, telegramId) {
        ReferralBonusMoves(d1, nid, telegramId, referrer.value);
        assert d1.byTelegram == db.byTelegram[telegramId := nid];
        assert referrer.value in d1.byTelegram ==> d1.byTelegram[referrer.value] != nid;
      }
    }
  }

  /** The inviter gains the referral bonus exactly when registered; nobody else's balance moves. */
  lemma ReferrerCredited(db: Db, adminIds: seq<int>, telegramId: int, username: Option<string>,
                         firstName: Option<string>, referrer: Option<int>)
    requires IndexConsistent(db) && telegramId !in db.byTelegram
    ensures var r := GetOrCreateUser(db, adminIds, telegramId, username, firstName, referrer);
      r.Ok? ==>
        forall id :: id in db.users ==>
          id in r.value.db.users
          && r.value.db.users[id].balance == db.users[id].balance
             + (if ReferralApplies(referrer, telegramId) && referrer.value in db.byTelegram && db.byTelegram[referrer.value] == id
                then ReferralCredits else 0)
  {
    var r := GetOrCreateUser(db, adminIds, telegramId, username, firstName, referrer);
    if r.Ok? {
      var row := UserRow(telegramId, username, firstName, IsAdminId(adminIds, telegramId), false, 0, referrer);
      var (d, nid) := InsertUser(db, row);
      var d1 := RecordCreditChange(d, nid, WelcomeCredits, ReasonWelcome, Some(WelcomeRef(telegramId))).value;
      RecordMovesOne(d, nid, WelcomeCredits, ReasonWelcome, Some(WelcomeRef(telegramId)));
      RecordKeepsIndex(d, nid, WelcomeCredits, ReasonWelcome, Some(WelcomeRef(telegramId)));
      if ReferralApplies(referrer, telegramId) {
        var d2 := ApplyReferralBonus(d1, nid, telegramId, referrer.value);
        assert d2.Ok? && r.value.db == d2.value;
        ReferralBonusMoves(d1, nid, telegramId, referrer.value);
        assert d1.byTelegram == db.byTelegram[telegramId := nid];
        forall id | id in db.users
          ensures id in d2.value.users
          ensures d2.value.users[id].balance == db.users[id].balance
            + (if referrer.value in db.byTelegram && db.byTelegram[referrer.value] == id then ReferralCredits else 0)
        {
          assert id != nid && id in d1.users;
        }
      } else {
        assert r.value.db == d1;
      }
    }
  }

  /** The referral step credits the newcomer, and the inviter when registered, and nobody else. */
  lemma ReferralBonusMoves(db: Db, newId: int, newTelegramId: int, referrerTelegramId: int)
    requires IndexConsistent(db)
    ensures var r := ApplyReferralBonus(db, newId, newTelegramId, referrerTelegramId);
      r.Ok? ==> forall id :: id in db.users ==>
        id in r.value.users && r.value.users[id].balance == db.users[id].balance
          + (if id == newId then ReferralCredits else 0)
          + (if referrerTelegramId in db.byTelegram && db.byTelegram[referrerTelegramId] == id then ReferralCredits else 0)
  {
    var r := ApplyReferralBonus(db, newId, newTelegramId, referrerTelegramId);
    if r.Ok? {
      var d := RecordCreditChange(db, newId, ReferralCredits, ReasonReferral, Some(ReferralNewRef(newTelegramId))).value;
      RecordMovesOne(db, newId, ReferralCredits, ReasonReferral, Some(ReferralNewRef(newTelegramId)));
      match UserByTelegram(d, referrerTelegramId)
      case None =>
      case Some(rid) =>
        RecordMovesOne(d, rid, ReferralCredits, ReasonReferral, Some(ReferralInviteRef(newTelegramId)));
    }
  }

  /** A ledger write moves exactly one balance. */
  lemma RecordMovesOne(db: Db, userId: int, amount: int, reason: string, ref: Option<string>)
    ensures var r := RecordCreditChange(db, userId, amount, reason, ref);
      r.Ok? ==> forall id :: id in db.users ==>
        id in r.value.users && r.value.users[id].balance == db.users[id].balance + (if id == userId then amount else 0)
  {
  }

  /** A user id no ledger row mentions has a zero ledger sum. */
  lemma {:induction false} SumForUnmentioned(ledger: seq<LedgerEntry>, userId: int)
    requires forall i :: 0 <= i < |ledger| ==> ledger[i].userId != userId
    ensures SumFor(ledger, userId) == 0
    decreases |ledger|
  {
    if |ledger| > 0 {
      SumForUnmentioned(ledger[..|ledger| - 1], userId);
    }
  }

  /** Inserting a zero-balance row keeps the store consistent. */
  lemma InsertKeepsValid(db: Db, row: UserRow)
    requires Valid(db) && row.telegramId !in db.byTelegram && row.balance == 0
    ensures Valid(InsertUser(db, row).0)
  {
    var (d, id) := InsertUser(db, row);
    SumForUnmentioned(db.ledger, id);
  }

  /** Registration, with all its ledger writes, keeps balances equal to the sums of their ledger rows. */
  lemma RegistrationPreservesValid(db: Db, adminIds: seq<int>, telegramId: int, username: Option<string>,
                                   firstName: Option<string>, referrer: Option<int>)
    requires Valid(db)
    ensures var r := GetOrCreateUser(db, adminIds, telegramId, username, firstName, referrer);
      r.Ok? ==> Valid(r.value.db)
  {
    if telegramId !in db.byTelegram {
      var row := UserRow(telegramId, username, firstName, IsAdminId(adminIds, telegramId), false, 0, referrer);
      var (d, id) := InsertUser(db, row);
      InsertKeepsValid(db, row);
      var w := RecordCreditChange(d, id, WelcomeCredits, ReasonWelcome, Some(WelcomeRef(telegramId)));
      RecordPreservesValid(d, id, WelcomeCredits, ReasonWelcome, Some(WelcomeRef(telegramId)));
      if w.Ok? && ReferralApplies(referrer, telegramId) {
        var d1 := w.value;
        var b := RecordCreditChange(d1, id, ReferralCredits, ReasonReferral, Some(ReferralNewRef(telegramId)));
        RecordPreservesValid(d1, id, ReferralCredits, ReasonReferral, Some(ReferralNewRef(telegramId)));
        if b.Ok? {
          var d2 := b.value;
          match UserByTelegram(d2, referrer.value)
          case None =>
          case Some(rid) =>
            RecordPreservesValid(d2, rid, ReferralCredits, ReasonReferral, Some(ReferralInviteRef(telegramId)));
        }
      }
    } else {
      var r := GetOrCreateUser(db, adminIds, telegramId, username, firstName, referrer);
      var id := db.byTelegram[telegramId];
      assert r.value.db.users == db.users[id := Refresh(db.users[id], adminIds, username, firstName)];
      assert forall i :: i in db.users ==> r.value.db.users[i].balance == db.users[i].balance;
    }
  }

  /** Registering twice creates once: the second call finds the row and writes no ledger entry. */
  lemma SecondContactCreatesNothing(db: Db, adminIds: seq<int>, telegramId: int, username: Option<string>,
                                    firstName: Option<string>, referrer: Option<int>)
    requires IndexConsistent(db)
    ensures var r1 := GetOrCreateUser(db, adminIds, telegramId, username, firstName, referrer);
      r1.Ok? ==> (IndexConsistent(r1.value.db) &&
        var r2 := GetOrCreateUser(r1.value.db, adminIds, telegramId, username, firstName, referrer);
        && r2.Ok? && !r2.value.created && r2.value.userId == r1.value.userId
        && r2.value.db.ledger == r1.value.db.ledger)
  {
    var r1 := GetOrCreateUser(db, adminIds, telegramId, username, firstName, referrer);
    if r1.Ok? && telegramId !in db.byTelegram {
      var row := UserRow(telegramId, username, firstName, IsAdminId(adminIds, telegramId), false, 0, referrer);
      var (d, id) := InsertUser(db, row);
      assert r1.value.db.byTelegram == d.byTelegram && r1.value.db.users.Keys == d.users.Keys;
      assert d.byTelegram[telegramId] == id;
    }
  }

  // ---------------------------------------------------------------------------
  // Admin and ban switches
  // ---------------------------------------------------------------------------

  /** `UPDATE users SET ... WHERE telegram_id = ?` over every matching row. */
  function UpdateWhere(users: map<int, UserRow>, telegramId: int, f: UserRow -> UserRow): map<int, UserRow> {
    map id | id in users :: if users[id].telegramId == telegramId then f(users[id]) else users[id]
  }

  /** `set_admin`: true iff some row matched; matched rows take the flag, others are untouched. */
  function SetAdmin(db: Db, telegramId: int, isAdmin: bool): (r: (bool, Db))
    ensures r.0 <==> Registered(db, telegramId)
    ensures r.1.users.Keys == db.users.Keys && r.1.ledger == db.ledger
    ensures forall id :: id in db.users ==>
      r.1.users[id] == (if db.users[id].telegramId == telegramId then db.users[id].(isAdmin := isAdmin) else db.users[id])
  {
    (Registered(db, telegramId), db.(users := UpdateWhere(db.users, telegramId, (u: UserRow) => u.(isAdmin := isAdmin))))
  }

  /** `set_banned`, the same update on the ban flag. */
  function SetBanned(db: Db, telegramId: int, isBanned: bool): (r: (bool, Db))
    ensures r.0 <==> Registered(db, telegramId)
    ensures r.1.users.Keys == db.users.Keys && r.1.ledger == db.ledger
    ensures forall id :: id in db.users ==>
      r.1.users[id] == (if db.users[id].telegramId == telegramId then db.users[id].(isBanned := isBanned) else db.users[id])
  {
    (Registered(db, telegramId), db.(users := UpdateWhere(db.users, telegramId, (u: UserRow) => u.(isBanned := isBanned))))
  }

  /** Setting a flag twice is the same as setting it once. */
  lemma SetAdminIdempotent(db: Db, telegramId: int, isAdmin: bool)
    ensures var once := SetAdmin(db, telegramId, isAdmin);
      SetAdmin(once.1, telegramId, isAdmin) == once
  {
    var once := SetAdmin(db, telegramId, isAdmin);
    var twice := SetAdmin(once.1, telegramId, isAdmin);
    assert twice.1.users == once.1.users;
    assert Registered(once.1, telegramId) == Registered(db, telegramId) by {
      if Registered(db, telegramId) {
        var id :| id in db.users && db.users[id].telegramId == telegramId;
        assert once.1.users[id].telegramId == telegramId;
      }
      if Registered(once.1, telegramId) {
        var id :| id in once.1.users && once.1.users[id].telegramId == telegramId;
        assert db.users[id].telegramId == telegramId;
      }
    }
  }
}

=== FILE: worker.dfy ===
/**
 The queue worker's handling of one task, as a pure transition on the
 store and Redis that also lists, in order, the backend calls made and the
 messages and results sent to the user.

 The backend call is an input (`Backend`): bytes, possibly empty, or an
 exception (which also covers the `wait_for` timeout). A user's cancel
 request may arrive at one of the points where the worker looks at the
 task status; `CancelPoint` says where, and the request then runs
 `DoCancel` at that point.
 */
module Worker {
  import opened Basics
  import opened Schema
  import opened Ledger
  import opened Generations
  import opened AdminGuard
  import opened TaskQueue
  import opened CancelHandler

  datatype ImageModel = NanoBanana | Riverflow | Flux2Pro

  datatype Notice = ProcessingNotice | CancelledNotice | FailedNotice | ErrorNotice

  datatype Event =
    | Notified(chatId: int, notice: Notice)
    | ImageBackendCalled(model: ImageModel, edit: bool)
    | VideoBackendCalled
    | ResultSent(chatId: int)
    | LastJobStored(telegramId: int)
    | LockReleased(telegramId: int)

  datatype World = World(db: Db, redis: Redis, now: int)

  datatype Backend = Produced(data: Bytes) | BackendRaised

  datatype CancelPoint = NoCancel | AfterDequeue | BeforeCall | DuringCall

  /** How the processing of one task ended; `afterCall` tells whether the backend had been called. */
  datatype TaskEnd = EndCompleted | EndFailed | EndCancelled(afterCall: bool) | EndError | EndSkipped

  /** The end of a task, the state after it, and what was sent or called on the way, in order. */
  datatype Outcome = Outcome(end: TaskEnd, world: World, events: seq<Event>)

  datatype StepResult = Idle(world: World) | Handled(taskId: string, outcome: Outcome)

  predicate NoResultSent(events: seq<Event>) {
    forall i :: 0 <= i < |events| ==> !events[i].ResultSent?
  }

  predicate NoBackendCall(events: seq<Event>) {
    forall i :: 0 <= i < |events| ==> !events[i].ImageBackendCalled? && !events[i].VideoBackendCalled?
  }

  /** Tariff to image model: only the two named tariffs leave the default. */
  function SelectModel(tariff: string): (m: ImageModel)
    ensures m == Riverflow <==> tariff == "riverflow_pro"
    ensures m == Flux2Pro <==> tariff == "flux_2_pro"
    ensures m == NanoBanana <==> tariff != "riverflow_pro" && tariff != "flux_2_pro"
  {
    if tariff == "riverflow_pro" then Riverflow
    else if tariff == "flux_2_pro" then Flux2Pro
    else NanoBanana
  }

  /** The user's cancel request, if it arrives at `here`. */
  function MaybeCancel(w: World, at: CancelPoint, here: CancelPoint, telegramId: int): (w': World)
    ensures at != here ==> w' == w
    ensures w'.now == w.now
  {
    if at == here then
      var reply := DoCancel(w.db, w.redis, telegramId);
      w.(db := reply.db, redis := reply.redis)
    else w
  }

  /**
   `_handle_refund`: refund per the payload, swallowing any error. A paying
   user's first refund for the request appends its one row and gives the
   cost back; anything else (an administrator, a missing user, a refund
   already written) leaves the store as it was.
   */
  function HandleRefund(db: Db, p: TaskPayload): (d: Db)
    ensures RefundDue(db, p) ==>
      && d.ledger == db.ledger + [RefundRow(db, p)]
      && d.users == db.users[p.userId := db.users[p.userId].(balance := db.users[p.userId].balance + p.cost)]
    ensures !RefundDue(db, p) ==> d == db
    ensures d == db.(users := d.users, ledger := d.ledger)
  {
    match RefundForPayload(db, p)
    case Ok(d) =>
      if RefundDue(db, p) then
        assert d.ledger[|db.ledger|] == RefundRow(db, p);
        d
      else d
    case Err(_) => db
  }

  /** A cancellation seen by the worker: mark the generation, refund, tell the user. */
  function CancelledPath(w: World, p: TaskPayload, afterCall: bool): (o: Outcome)
    ensures o.end == EndCancelled(afterCall)
    ensures o.world.db.ledger == HandleRefund(w.db, p).ledger
    ensures o.world.db.users == HandleRefund(w.db, p).users
    ensures o.events == [Notified(p.chatId, CancelledNotice)]
    ensures o.world.redis == w.redis
  {
    var db1 := CompleteGeneration(w.db, p.generationId, "cancelled", w.now);
    Outcome(EndCancelled(afterCall), w.(db := HandleRefund(db1, p)), [Notified(p.chatId, CancelledNotice)])
  }

  /** The `except` clause: task and generation failed, refund, error notice. */
  function ErrorPath(w: World, taskId: string, p: TaskPayload): (o: Outcome)
    ensures o.end == EndError
    ensures o.world.db.ledger == HandleRefund(w.db, p).ledger
    ensures o.world.db.users == HandleRefund(w.db, p).users
    ensures o.events == [Notified(p.chatId, ErrorNotice)]
    ensures GetTaskStatus(o.world.redis, taskId) == (if taskId in w.redis.tasks then Some(Failed) else None)
  {
    var r1 := SetTaskStatus(w.redis, taskId, Failed);
    var db1 := CompleteGeneration(w.db, p.generationId, "failed", w.now);
    Outcome(EndError, w.(redis := r1, db := HandleRefund(db1, p)), [Notified(p.chatId, ErrorNotice)])
  }

  /**
   What happens once the backend returned: the status is looked at again,
   then non-empty data is delivered and empty data is failed and refunded.
   A refund that raises here falls through to the `except` clause.
   */
  function AfterBackend(w: World, taskId: string, p: TaskPayload, data: Bytes, image: bool): (o: Outcome)
    ensures o.end in {EndCompleted, EndFailed, EndError, EndCancelled(true)}
    ensures o.end == EndCancelled(true) <==> GetTaskStatus(w.redis, taskId) == Some(Cancelled)
    ensures o.end == EndCompleted <==> GetTaskStatus(w.redis, taskId) != Some(Cancelled) && |data| > 0
    ensures o.end == EndCompleted ==>
      && o.world.db.ledger == w.db.ledger && o.world.db.users == w.db.users
      && GetTaskStatus(o.world.redis, taskId) == (if taskId in w.redis.tasks then Some(Completed) else None)
      && |o.events| > 0 && o.events[0] == ResultSent(p.chatId)
    ensures o.end != EndCompleted ==> NoResultSent(o.events)
    ensures o.end == EndFailed ==>
      RefundForPayload(CompleteGeneration(w.db, p.generationId, "failed", w.now), p) == Ok(o.world.db)
    ensures o.end != EndCompleted ==>
      o.world.db.ledger == HandleRefund(w.db, p).ledger && o.world.db.users == HandleRefund(w.db, p).users
    ensures o.end == EndError ==> RefundForPayload(w.db, p).Err?
  {
    if GetTaskStatus(w.redis, taskId) == Some(Cancelled) then
      CancelledPath(w, p, true)
    else if |data| > 0 then
      var db1 := CompleteGeneration(w.db, p.generationId, "completed", w.now);
      var r1 := SetTaskStatus(w.redis, taskId, Completed);
      var events := [ResultSent(p.chatId)] + (if image then [LastJobStored(p.telegramId)] else []);
      Outcome(EndCompleted, w.(db := db1, redis := r1), events)
    else
      var db1 := CompleteGeneration(w.db, p.generationId, "failed", w.now);
      var w1 := w.(db := db1, redis := SetTaskStatus(w.redis, taskId, Failed));
      match RefundForPayload(db1, p)
      case Ok(db2) => Outcome(EndFailed, w1.(db := db2), [Notified(p.chatId, FailedNotice)])
      case Err(_) =>
        assert RefundForPayload(w.db, p).Err?;
        ErrorPath(w1, taskId, p)
  }

  /** Prefix the events of an earlier step. */
  function After(pre: seq<Event>, o: Outcome): (o': Outcome)
    ensures o'.end == o.end && o'.world == o.world && o'.events == pre + o.events
    ensures NoResultSent(pre) && NoResultSent(o.events) ==> NoResultSent(o'.events)
    ensures NoBackendCall(pre) && NoBackendCall(o.events) ==> NoBackendCall(o'.events)
  {
    var o' := o.(events := pre + o.events);
    assert forall i :: 0 <= i < |o'.events| ==> o'.events[i] == if i < |pre| then pre[i] else o.events[i - |pre|];
    o'
  }

  /**
   `_process_image_task` between the `try` and the `finally`: notice,
   status check, backend call (edit when images came with the request),
   status check, delivery.
   */
  function ImageBody(w: World, taskId: string, p: TaskPayload, cancelAt: CancelPoint, backend: Backend): (o: Outcome)
    ensures o.end != EndSkipped
    ensures o.end == EndCancelled(false) ==> NoBackendCall(o.events)
    ensures o.end != EndCompleted ==> NoResultSent(o.events)
  {
    var pre := [Notified(p.chatId, ProcessingNotice)];
    var w2 := MaybeCancel(w, cancelAt, BeforeCall, p.telegramId);
    if GetTaskStatus(w2.redis, taskId) == Some(Cancelled) then
      After(pre, CancelledPath(w2, p, false))
    else
      var call := pre + [ImageBackendCalled(SelectModel(p.tariff), |p.images| > 0)];
      var w4 := MaybeCancel(w2, cancelAt, DuringCall, p.telegramId);
      match backend
      case BackendRaised => After(call, ErrorPath(w4, taskId, p))
      case Produced(data) => After(call, AfterBackend(w4, taskId, p, data, true))
  }

  /**
   `_process_video_task` between the `try` and the `finally`: a payload
   without a start image raises before anything else is done.
   */
  function VideoBody(w: World, taskId: string, p: TaskPayload, cancelAt: CancelPoint, backend: Backend): (o: Outcome)
    ensures o.end != EndSkipped
    ensures |p.images| == 0 ==> o == ErrorPath(w, taskId, p)
    ensures o.end == EndCancelled(false) ==> NoBackendCall(o.events)
    ensures o.end != EndCompleted ==> NoResultSent(o.events)
  {
    if |p.images| == 0 then ErrorPath(w, taskId, p)
    else
      var pre := [Notified(p.chatId, ProcessingNotice)];
      var w2 := MaybeCancel(w, cancelAt, BeforeCall, p.telegramId);
      if GetTaskStatus(w2.redis, taskId) == Some(Cancelled) then
        After(pre, CancelledPath(w2, p, false))
      else
        var call := pre + [VideoBackendCalled];
        var w4 := MaybeCancel(w2, cancelAt, DuringCall, p.telegramId);
        match backend
        case BackendRaised => After(call, ErrorPath(w4, taskId, p))
        case Produced(data) => After(call, AfterBackend(w4, taskId, p, data, false))
  }

  /** The `finally` clause: release the user's lock as the very last action. */
  function ReleaseAfter(o: Outcome, telegramId: int): (o': Outcome)
    ensures o'.end == o.end && o'.world.db == o.world.db
    ensures o'.events == o.events + [LockReleased(telegramId)]
    ensures telegramId !in o'.world.redis.locks
    ensures NoResultSent(o.events) ==> NoResultSent(o'.events)
    ensures NoBackendCall(o.events) ==> NoBackendCall(o'.events)
  {
    o.(world := o.world.(redis := ReleaseLock(o.world.redis, telegramId)), events := o.events + [LockReleased(telegramId)])
  }

  /** `_process_task`: dispatch on the task type, then the `finally` lock release. */
  function ProcessTask(w: World, taskId: string, p: TaskPayload, cancelAt: CancelPoint, backend: Backend): (o: Outcome)
    ensures o.end != EndSkipped
    ensures |o.events| > 0 && o.events[|o.events| - 1] == LockReleased(p.telegramId)
    ensures p.telegramId !in o.world.redis.locks
    ensures o.end != EndCompleted ==> NoResultSent(o.events)
    ensures o.end == EndCancelled(false) ==> NoBackendCall(o.events)
  {
    var body := if p.kind == VideoTask then VideoBody(w, taskId, p, cancelAt, backend)
                else ImageBody(w, taskId, p, cancelAt, backend);
    ReleaseAfter(body, p.telegramId)
  }

  /**
   One turn of `_worker_loop`: dequeue; an empty list (or a head without a
   record) is an idle turn; a task found cancelled is refunded and its lock
   released without processing; otherwise it is marked processing and run.
   */
  function WorkerStep(w: World, cancelAt: CancelPoint, backend: Backend): (res: StepResult)
    ensures Dequeue(w.redis).0.None? ==> res == Idle(w.(redis := Dequeue(w.redis).1))
    ensures res.Handled? ==>
      && Dequeue(w.redis).0.Some? && res.taskId == Dequeue(w.redis).0.value.0
      && var p := Dequeue(w.redis).0.value.1.payload;
      && |res.outcome.events| > 0 && res.outcome.events[|res.outcome.events| - 1] == LockReleased(p.telegramId)
      && p.telegramId !in res.outcome.world.redis.locks
      && (res.outcome.end != EndCompleted ==> NoResultSent(res.outcome.events))
      && (res.outcome.end == EndSkipped ==> NoBackendCall(res.outcome.events))
  {
    var (item, r1) := Dequeue(w.redis);
    match item
    case None => Idle(w.(redis := r1))
    case Some((taskId, task)) =>
      var p := task.payload;
      var w1 := MaybeCancel(w.(redis := r1), cancelAt, AfterDequeue, p.telegramId);
      if GetTaskStatus(w1.redis, taskId) == Some(Cancelled) then
        Handled(taskId, ReleaseAfter(Outcome(EndSkipped, w1.(db := HandleRefund(w1.db, p)), []), p.telegramId))
      else
        var w2 := w1.(redis := SetTaskStatus(w1.redis, taskId, Processing));
        Handled(taskId, ProcessTask(w2, taskId, p, cancelAt, backend))
  }

  // ---------------------------------------------------------------------------
  // Refund accounting
  // ---------------------------------------------------------------------------

  /** A paying user's task whose refund row has not been written yet. */
  predicate RefundDue(db: Db, p: TaskPayload) {
    && !p.isAdmin && p.userId in db.users
    && !ReasonRefTaken(db.ledger, ReasonRefund, Some(RefundRef(p.requestId)))
  }

  /** The one ledger row a refund of this task appends. */
  function RefundRow(db: Db, p: TaskPayload): LedgerEntry
    requires p.userId in db.users
  {
    LedgerEntry(p.userId, p.cost, ReasonRefund, Some(RefundRef(p.requestId)), db.users[p.userId].balance + p.cost)
  }

  lemma HandleRefundWritesRow(db: Db, p: TaskPayload)
    requires RefundDue(db, p)
    ensures HandleRefund(db, p).ledger == db.ledger + [RefundRow(db, p)]
    ensures HandleRefund(db, p).users == db.users[p.userId := db.users[p.userId].(balance := db.users[p.userId].balance + p.cost)]
    ensures !RefundDue(HandleRefund(db, p), p)
  {
    var d := HandleRefund(db, p);
    assert d.ledger[|db.ledger|] == RefundRow(db, p);
    assert d.ledger[|db.ledger|].reason == ReasonRefund;
  }

  /** The task the worker is running is the one holding its user's lock, if any lock is held. */
  predicate LockedBy(r: Redis, telegramId: int, taskId: string) {
    telegramId in r.locks ==> r.locks[telegramId] == taskId
  }

  /** A cancel arriving while the task is processing only flips its status: the ledger is untouched. */
  lemma CancelWhileProcessing(w: World, at: CancelPoint, here: CancelPoint, telegramId: int, taskId: string)
    requires GetTaskStatus(w.redis, taskId) == Some(Processing)
    requires LockedBy(w.redis, telegramId, taskId)
    ensures var w' := MaybeCancel(w, at, here, telegramId);
      && w'.db == w.db
      && GetTaskStatus(w'.redis, taskId) in {Some(Processing), Some(Cancelled)}
      && (GetTaskStatus(w'.redis, taskId) == Some(Processing) ==> LockedBy(w'.redis, telegramId, taskId))
  {
  }

  /** After the backend returned, a paying task is refunded exactly when it is not delivered. */
  lemma AfterBackendRefund(w: World, taskId: string, p: TaskPayload, data: Bytes, image: bool)
    requires RefundDue(w.db, p)
    ensures var o := AfterBackend(w, taskId, p, data, image);
      && o.end != EndError
      && o.world.db.ledger == (if o.end == EndCompleted then w.db.ledger else w.db.ledger + [RefundRow(w.db, p)])
  {
    HandleRefundWritesRow(w.db, p);
  }

  lemma ImageBodyRefund(w: World, taskId: string, p: TaskPayload, cancelAt: CancelPoint, backend: Backend)
    requires RefundDue(w.db, p)
    requires GetTaskStatus(w.redis, taskId) == Some(Processing) && LockedBy(w.redis, p.telegramId, taskId)
    ensures var o := ImageBody(w, taskId, p, cancelAt, backend);
      o.world.db.ledger == (if o.end == EndCompleted then w.db.ledger else w.db.ledger + [RefundRow(w.db, p)])
  {
    HandleRefundWritesRow(w.db, p);
    CancelWhileProcessing(w, cancelAt, BeforeCall, p.telegramId, taskId);
    var w2 := MaybeCancel(w, cancelAt, BeforeCall, p.telegramId);
    if GetTaskStatus(w2.redis, taskId) != Some(Cancelled) {
      CancelWhileProcessing(w2, cancelAt, DuringCall, p.telegramId, taskId);
      if backend.Produced? {
        AfterBackendRefund(MaybeCancel(w2, cancelAt, DuringCall, p.telegramId), taskId, p, backend.data, true);
      }
    }
  }

  lemma VideoBodyRefund(w: World, taskId: string, p: TaskPayload, cancelAt: CancelPoint, backend: Backend)
    requires RefundDue(w.db, p)
    requires GetTaskStatus(w.redis, taskId) == Some(Processing) && LockedBy(w.redis, p.telegramId, taskId)
    ensures var o := VideoBody(w, taskId, p, cancelAt, backend);
      o.world.db.ledger == (if o.end == EndCompleted then w.db.ledger else w.db.ledger + [RefundRow(w.db, p)])
  {
    HandleRefundWritesRow(w.db, p);
    if |p.images| > 0 {
      CancelWhileProcessing(w, cancelAt, BeforeCall, p.telegramId, taskId);
      var w2 := MaybeCancel(w, cancelAt, BeforeCall, p.telegramId);
      if GetTaskStatus(w2.redis, taskId) != Some(Cancelled) {
        CancelWhileProcessing(w2, cancelAt, DuringCall, p.telegramId, taskId);
        if backend.Produced? {
          AfterBackendRefund(MaybeCancel(w2, cancelAt, DuringCall, p.telegramId), taskId, p, backend.data, false);
        }
      }
    }
  }

  /**
   A cancel landing while the backend call is raising: the handler marks the
   task cancelled and frees the lock, then the `except` clause overwrites the
   status with failed and refunds once; nothing is delivered.
   */
  lemma CancelDuringRaisingCall(w: World, taskId: string, p: TaskPayload)
    requires RefundDue(w.db, p) && p.kind != VideoTask
    requires GetTaskStatus(w.redis, taskId) == Some(Processing)
    requires taskId != "" && p.telegramId in w.redis.locks && w.redis.locks[p.telegramId] == taskId
    ensures var o := ImageBody(w, taskId, p, DuringCall, BackendRaised);
      && o.end == EndError
      && GetTaskStatus(o.world.redis, taskId) == Some(Failed)
      && p.telegramId !in o.world.redis.locks
      && o.world.db.ledger == w.db.ledger + [RefundRow(w.db, p)]
      && NoResultSent(o.events)
  {
    HandleRefundWritesRow(w.db, p);
    var reply := DoCancel(w.db, w.redis, p.telegramId);
    assert reply.outcome == CancelledProcessing;
    var w4 := MaybeCancel(w, DuringCall, DuringCall, p.telegramId);
    assert w4.db == w.db && p.telegramId !in w4.redis.locks;
    assert GetTaskStatus(w4.redis, taskId) == Some(Cancelled);
  }

  /**
   The refund guarantee of the worker: a paying user's task that is not
   delivered (failed, raised, or cancelled at any point) gets exactly one
   refund row; a delivered task leaves the ledger as it was.
   */
  lemma ProcessTaskRefundsUnlessCompleted(w: World, taskId: string, p: TaskPayload, cancelAt: CancelPoint, backend: Backend)
    requires RefundDue(w.db, p)
    requires GetTaskStatus(w.redis, taskId) == Some(Processing) && LockedBy(w.redis, p.telegramId, taskId)
    ensures var o := ProcessTask(w, taskId, p, cancelAt, backend);
      && o.world.db.ledger == (if o.end == EndCompleted then w.db.ledger else w.db.ledger + [RefundRow(w.db, p)])
      && (o.end == EndCompleted <==> !ReasonRefTaken(o.world.db.ledger, ReasonRefund, Some(RefundRef(p.requestId))))
  {
    var o := ProcessTask(w, taskId, p, cancelAt, backend);
    if p.kind == VideoTask {
      VideoBodyRefund(w, taskId, p, cancelAt, backend);
    } else {
      ImageBodyRefund(w, taskId, p, cancelAt, backend);
    }
    if o.end != EndCompleted {
      assert o.world.db.ledger[|w.db.ledger|] == RefundRow(w.db, p);
    }
  }

  /**
   The race the unique constraint settles: a cancel landing between the
   dequeue and the worker's status check refunds in the handler, the worker
   then skips the task and its own refund attempt is rejected, so exactly
   one refund row is written and the backend is never called.
   */
  lemma CancelAfterDequeueRefundsOnce(w: World, backend: Backend)
    requires |w.redis.queue| > 0
    requires var x := w.redis.queue[0];
      && x != "" && x in w.redis.tasks && w.redis.tasks[x].status == Queued
      && var p := w.redis.tasks[x].payload;
      && RefundDue(w.db, p)
      && p.telegramId in w.redis.locks && w.redis.locks[p.telegramId] == x
    ensures var res := WorkerStep(w, AfterDequeue, backend);
      var p := w.redis.tasks[w.redis.queue[0]].payload;
      && res.Handled? && res.outcome.end == EndSkipped
      && res.outcome.world.db.ledger == w.db.ledger + [RefundRow(w.db, p)]
      && NoBackendCall(res.outcome.events)
  {
    var x := w.redis.queue[0];
    var p := w.redis.tasks[x].payload;
    var r1 := Dequeue(w.redis).1;
    var reply := DoCancel(w.db, r1, p.telegramId);
    HandleRefundWritesRow(w.db, p);
    assert reply.outcome == CancelledQueued;
    assert reply.db == HandleRefund(w.db, p);
  }

  /** An administrator's task never touches the ledger, whatever happens to it. */
  lemma AdminTaskLeavesLedger(w: World, taskId: string, p: TaskPayload, cancelAt: CancelPoint, backend: Backend)
    requires p.isAdmin
    requires GetTaskStatus(w.redis, taskId) == Some(Processing) && LockedBy(w.redis, p.telegramId, taskId)
    ensures ProcessTask(w, taskId, p, cancelAt, backend).world.db.ledger == w.db.ledger
  {
    AdminRefundKeepsLedger(w.db, p);
    CancelWhileProcessing(w, cancelAt, BeforeCall, p.telegramId, taskId);
    var w2 := MaybeCancel(w, cancelAt, BeforeCall, p.telegramId);
    if GetTaskStatus(w2.redis, taskId) != Some(Cancelled) {
      CancelWhileProcessing(w2, cancelAt, DuringCall, p.telegramId, taskId);
      if backend.Produced? {
        AdminAfterBackendKeepsLedger(MaybeCancel(w2, cancelAt, DuringCall, p.telegramId), taskId, p, backend.data, p.kind != VideoTask);
      }
    }
  }

  lemma AdminRefundKeepsLedger(db: Db, p: TaskPayload)
    requires p.isAdmin
    ensures HandleRefund(db, p).ledger == db.ledger
  {
  }

  lemma AdminAfterBackendKeepsLedger(w: World, taskId: string, p: TaskPayload, data: Bytes, image: bool)
    requires p.isAdmin
    ensures AfterBackend(w, taskId, p, data, image).world.db.ledger == w.db.ledger
  {
    AdminRefundKeepsLedger(w.db, p);
    AdminRefundKeepsLedger(CompleteGeneration(w.db, p.generationId, "failed", w.now), p);
  }
}
